=== FILE: README.md ===
# Pantheon Protocol, modelled in Dafny

This project models the client-side logic of Pantheon Protocol, a
cyberpunk-themed training and chat web app. It covers:

- the service worker that caches the app for offline use;
- the XP, level and badge system;
- the theme eras that badges unlock;
- course progress and practice exercises;
- the components that render them: the course viewer, the progress tracker,
  the exercise runner and the badge gallery;
- the chat history sidebar and the quick-prompt buttons;
- the voice panel;
- the in-browser fallback model's prompt framing and answer extraction;
- the install banner.

Each module is one source file:

| module | file |
|---|---|
| `Common` | shared JavaScript string built-ins, `Math.round` of a percentage, option and result types |
| `ServiceWorker` | `public/sw.js` |
| `Xp` | `src/hooks/useXP.ts` |
| `Theme` | `src/contexts/ThemeContext.tsx` |
| `TrainingProgress` | `src/hooks/useTrainingProgress.ts` |
| `Exercises` | `src/hooks/useExercises.ts` |
| `ExerciseRunner`, `CourseViewer`, `ProgressTracker` | `src/components/training/` |
| `LevelBadges` | `src/components/features/LevelBadges.tsx` |
| `VoiceAssistant` | `src/components/features/VoiceAssistant.tsx` |
| `ConversationSidebar`, `ConversationStarters` | `src/components/chat/` |
| `OfflineAI` | `src/lib/offlineAI.ts` |
| `InstallBanner` | `src/components/ui/pwa-install-banner.tsx` |

Every hook and component is a pure function. React state is a value passed
in and returned. The backend (Supabase), local storage, the network, the
clock and the language model are inputs: the rows a query returns, or
`Err` when it fails. Cache storage is an ordered list of named caches, each
mapping URLs to responses. A response carries its status; the Cache API
refuses to store a partial (206) response, so `cache.put` of one stores
nothing (its rejection is not awaited in the source) and `cache.addAll`
fails on one.

## Model

| member | source | states |
|---|---|---|
| ServiceWorker.Open | public/sw.js:15-24 | `caches.open` adds the named cache when it is missing and changes no stored response; names stay unique |
| ServiceWorker.StoreInto | public/sw.js:17-20 | opening a cache and storing one response under a URL changes only that entry; names stay unique |
| ServiceWorker.PutInto | public/sw.js:86-87 | `caches.open` then an unawaited `cache.put`: the cache is opened either way; a partial (206) response is refused and nothing is stored; any other response becomes the entry under that cache and URL, and every other lookup is unchanged; names stay unique |
| ServiceWorker.MatchAll | public/sw.js:91 | `caches.match` finds nothing exactly when no cache holds the URL; otherwise it answers with the entry of the first cache, in creation order, that holds it |
| ServiceWorker.LookupFoundByMatchAll | public/sw.js:91 | a response stored in any named cache is found by `caches.match` |
| ServiceWorker.MatchAllFirst | public/sw.js:91 | when exactly one cache holds the URL, `caches.match` returns that cache's response |
| ServiceWorker.PutIntoSoleHolder | public/sw.js:86-91 | after a put into storage that lacked the URL, `caches.match` returns the stored response, or still nothing when the response was partial |
| ServiceWorker.Without | public/sw.js:31-37 | removing a set of cache names keeps exactly the caches whose name is outside the set; a single cache is kept exactly when its name is outside the set |
| ServiceWorker.WithoutAppend | public/sw.js:31-37 | deleting from a list of caches deletes from each part in place, so the surviving caches keep their order |
| ServiceWorker.WithoutKeepsUniqueNames | public/sw.js:31-37 | deleting caches keeps the cache names unique |
| ServiceWorker.WithoutWithout | public/sw.js:31-37 | deleting two sets of names in turn equals deleting their union |
| ServiceWorker.WithoutAgree | public/sw.js:31-37 | two name sets that agree on every present cache delete the same caches |
| ServiceWorker.DeleteEachIsWithout | public/sw.js:31-37 | deleting the stale names one by one, as the `Promise.all` of deletes does, removes exactly the set of those names |
| ServiceWorker.WithoutEmpty | public/sw.js:31-37 | deleting no names changes nothing |
| ServiceWorker.StaleNames | public/sw.js:31-34 | the names to delete are exactly the listed names that start with `pantheon-` and are none of the three current cache names |
| ServiceWorker.StaleNamesOfCurrent | public/sw.js:31-34 | a storage holding only current caches deletes nothing |
| ServiceWorker.Activate | public/sw.js:27-45 | activation deletes exactly the stale names and leaves the remaining caches in their order, as removing the stale names does |
| ServiceWorker.ActivateKeepsUniqueNames | public/sw.js:27-45 | activation keeps the cache names unique |
| ServiceWorker.ActivateIdempotent | public/sw.js:27-45 | a second activation deletes nothing and leaves the storage as the first left it |
| ServiceWorker.Classify | public/sw.js:48-74 | a non-GET or non-http request is bypassed; a GET whose path contains `/functions/` or `/rest/`, or whose host contains `supabase`, is an API request; a static route is a static-asset path; the default route is not |
| ServiceWorker.LastDot | public/sw.js:77-79 | finds the last `.` of a path, or reports that there is none |
| ServiceWorker.NoDotInExtensions | public/sw.js:78 | none of the twelve asset extensions contains a dot |
| ServiceWorker.StaticAssetByExtension | public/sw.js:77-79 | a path is a static asset exactly when the text after its last dot is one of the twelve listed extensions |
| ServiceWorker.NetworkFirst | public/sw.js:82-98 | always tries the network and answers with its response; stores the response in the API cache exactly when it is ok and not partial; offline, falls back to the first cache holding the URL, and rejects when nothing is cached |
| ServiceWorker.CacheFirst | public/sw.js:101-118 | a cached URL is answered from the cache without using the network; otherwise the network answers; an ok, non-partial response is stored in the static cache; a failure with nothing cached rejects |
| ServiceWorker.StaleWhileRevalidate | public/sw.js:121-133 | never rejects; prefers the main cache's copy, then the network's response, and otherwise resolves with no response; the main cache is opened; only an ok, non-partial network response is stored |
| ServiceWorker.HandleFetch | public/sw.js:48-118 | the fetch listener's routing: bypassed requests never touch the caches; API requests go to the network first, an ok answer other than 206 is kept in the API cache, and a failure falls back to any cache; a cached static asset is served offline, a missing one is fetched and its ok answer other than 206 kept in the static cache; other requests are never rejected; only a static hit avoids the network; each route is exactly its strategy |
| ServiceWorker.HandleFetchKeepsUniqueNames | public/sw.js:48-133 | handling any request keeps the cache names unique |
| ServiceWorker.CacheFirstSecondHitIsOffline | public/sw.js:101-118 | after a first fetch of a static asset returned ok, a second fetch is served from the cache without the network, whatever the network does; after a partial response the second fetch uses the network again |
| ServiceWorker.NetworkFirstOfflineFallback | public/sw.js:82-98 | after an ok API response, the same URL is still answered with that response when the network then fails; after a partial one the failure is rethrown |
| ServiceWorker.PutEach | public/sw.js:20 | storing the fetched assets one after another leaves every other entry alone; each URL holds its last fetched response |
| ServiceWorker.Install | public/sw.js:15-24 | `cache.addAll` is all-or-nothing: the static cache exists afterwards; install succeeds exactly when every asset fetch is ok and not partial (206); on failure no stored response changes; on success each of the five asset paths, resolved against the origin, holds its response and no other entry changes |
| Xp.ThresholdsClosedForm | src/hooks/useXP.ts:22-28 | the fifty level thresholds are 25·i·(i+3) for level i+1 |
| Xp.ThresholdsIncreasing | src/hooks/useXP.ts:22-28 | the thresholds strictly increase |
| Xp.CalculateLevel | src/hooks/useXP.ts:106-113 | the level is between 1 and 50; it is one past the highest threshold the XP reaches; the XP is below the next threshold |
| Xp.LevelOfRange | src/hooks/useXP.ts:106-113 | any XP in the range from threshold k up to the next threshold is level k+1 |
| Xp.LevelAtThreshold | src/hooks/useXP.ts:106-113 | reaching a threshold exactly gives that threshold's level |
| Xp.LevelMonotone | src/hooks/useXP.ts:106-113 | more XP never gives a lower level |
| Xp.NextLevelXp | src/hooks/useXP.ts:116-120 | the XP still needed is 0 exactly at the top level; otherwise it is positive, gaining it raises the level by one, and one point less does not |
| Xp.NextLevelReached | src/hooks/useXP.ts:116-120 | the next threshold is the first XP value of the next level |
| Xp.LevelProgress | src/hooks/useXP.ts:123-131 | progress to the next level is a percentage from 0 to 100; it is 100 exactly at the top level, and 0 at a level's threshold |
| Xp.LoadXp | src/hooks/useXP.ts:134-174 | as written: with no user the state shown stays as it was; a missing row is inserted with the initial values while the state shown still stays as it was; an existing row's totals are taken as stored, and its badges only when they form an array |
| Xp.LoadXpReset | src/hooks/useXP.ts:134-174 | corrected: with no user, or a freshly inserted record, the state shown is the initial one; an initial record is inserted exactly for a signed-in user without a row; a stored row loads as before |
| Xp.LoadReadsBackRow | src/hooks/useXP.ts:151-159 | the row the hook writes for a state loads back as that state, whatever was shown before |
| Xp.StaleXpCarriesOver | src/hooks/useXP.ts:136-168 | as written, a user without a row keeps showing the previous totals and the next award writes them plus the award; with the corrected load only the award is written |
| Xp.InitialXpConsistent | src/hooks/useXP.ts:98-102 | the initial state (0 XP, level 1) agrees with the level formula |
| Xp.AddXp | src/hooks/useXP.ts:177-218 | with a user, the total grows by the amount, the level is recomputed from it and the badges are kept; the XP toast shows exactly when the write succeeded; a level-up toast shows exactly when the write succeeded and the level rose; after a successful write the toasts are the XP toast and then, when the level rose, the level-up toast for the new level; a failed write shows none; with no user nothing happens |
| Xp.AddXpComposes | src/hooks/useXP.ts:177-218 | two awards in a row leave the same data as one award of their sum |
| Xp.NoLevelUpWithoutGain | src/hooks/useXP.ts:177-218 | a non-positive amount never announces a level-up |
| Xp.FindDef | src/hooks/useXP.ts:31-83 | a badge id is found in the eight definitions, or none of them has it |
| Xp.FindDefIff | src/hooks/useXP.ts:31-83 | the lookup finds a definition exactly for the ids of the eight definitions |
| Xp.AwardBadge | src/hooks/useXP.ts:221-263 | an unknown or already-held badge, or a missing user, changes nothing; otherwise the badge is appended as earned now, with XP and level kept; held ids stay unique; a failed write shows no toast; a successful one shows the badge toast, followed by the era toast when the badge unlocks an era |
| Xp.AwardFound | src/hooks/useXP.ts:221-263 | the award once the id has been looked up: nothing changes without a user, a definition or with the badge already held; otherwise exactly the looked-up definition, earned now, is appended, the toasts following the write's outcome |
| Xp.AwardBadgeIdempotent | src/hooks/useXP.ts:221-263 | awarding the same badge twice changes nothing the second time |
| Xp.RuleBadge | src/hooks/useXP.ts:288-309 | each badge rule names a defined badge; none of them names `course_completer` |
| Xp.RuleBadgeInjective | src/hooks/useXP.ts:288-309 | no two rules name the same badge |
| Xp.CheckOrderComplete | src/hooks/useXP.ts:288-309 | the checking order lists every rule |
| Xp.CountType | src/hooks/useXP.ts:277-286 | a per-type count never exceeds the number of completions |
| Xp.CountDifficulty | src/hooks/useXP.ts:277-286 | a per-difficulty count never exceeds the number of completions |
| Xp.EligibleIds | src/hooks/useXP.ts:288-309 | a rule's badge is eligible exactly when the rule holds (1 completion; 3 crypto, forensics or web; one of each; 10 advanced; level 25); every eligible id is defined, and `course_completer` never is |
| Xp.AwardEach | src/hooks/useXP.ts:288-309 | awarding several badges in turn keeps the earlier badges, XP and level, holds every defined id afterwards, keeps ids unique, and appends only badges among the ids, each earned now |
| Xp.AwardEachHeld | src/hooks/useXP.ts:288-309 | awarding ids that are all held already changes nothing |
| Xp.CheckBadges | src/hooks/useXP.ts:266-310 | checking badges with the award state threaded through keeps XP and level, holds every eligible badge afterwards, loses none held before, appends only eligible badges earned now, and keeps ids unique; with no user or no completion data nothing changes |
| Xp.CheckBadgesIdempotent | src/hooks/useXP.ts:266-310 | checking the same completions again, at any later time, changes nothing |
| Xp.CheckBadgesAsWritten | src/hooks/useXP.ts:266-310 | as written, each award starts again from the badges of the snapshot, so one check adds at most one badge |
| Xp.CheckBadgesLosesEarlierAward | src/hooks/useXP.ts:266-310 | from no badges and three crypto completions, the code as written cannot end holding both `first_blood` and `crypto_rookie`, while the corrected check holds both |
| Theme.EraOf | src/contexts/ThemeContext.tsx:25-30 | only the four table badges unlock an era, and each unlocks one of the four eras |
| Theme.EraTablesAgree | src/contexts/ThemeContext.tsx:25-30 | the era table agrees with the `unlocksEra` field of every badge definition that has one |
| Theme.Unlocks | src/contexts/ThemeContext.tsx:65-66 | the era each held badge unlocks through the table, position by position |
| Theme.FirstUnlock | src/contexts/ThemeContext.tsx:65-68 | the position of the first badge that unlocks an era: that badge unlocks it and none before it does |
| Theme.DerivedEras | src/contexts/ThemeContext.tsx:64-69 | the derived list starts with `2020s`, has no duplicates, holds exactly the default era and the eras of the held badges, and lists the others in the order of the first badge that unlocks each |
| Theme.Collect | src/contexts/ThemeContext.tsx:64-69 | the loop appends each newly seen era once: the result extends the start list, has no duplicates, holds exactly the start list's and the badges' eras, and orders the appended ones by their first unlocking badge |
| Theme.CollectOrder | src/contexts/ThemeContext.tsx:65-69 | one step of the loop keeps the appended eras ordered by their first unlocking badge |
| Theme.UnlockedErasAsWritten | src/contexts/ThemeContext.tsx:64-76 | as written, the last of the state updates wins: the eras left unlocked are exactly the default and the held badges' table eras; a holder of `pantheon_elite` does get the full list assigned first, and it is then overwritten |
| Theme.PantheonEliteUnlocksAllAsWrittenFails | src/contexts/ThemeContext.tsx:71-76 | as written, holding only `pantheon_elite` leaves `1990s` and `2000s` locked |
| Theme.UnlockedEras | src/contexts/ThemeContext.tsx:64-76 | corrected: holding `pantheon_elite` unlocks every era; otherwise exactly the derived eras are unlocked; `2020s` is always unlocked and nothing outside the four eras ever is |
| Theme.LoadTheme | src/contexts/ThemeContext.tsx:40-85 | as written: a signed-in user takes a non-empty profile era; an anonymous user takes a non-empty saved era; otherwise the era is kept; stored badges, when an array, replace the badges and the unlocked eras become the as-written list |
| Theme.LoadThemeEliteAsWrittenFails | src/contexts/ThemeContext.tsx:59-76 | as written, loading a holder of only `pantheon_elite` leaves `1990s` locked |
| Theme.LoadThemeCorrected | src/contexts/ThemeContext.tsx:40-85 | corrected: the same era and badges as the load as written, with the unlocked eras computed by the corrected unlock when badges are stored |
| Theme.SetEra | src/contexts/ThemeContext.tsx:95-107 | choosing a locked era changes and writes nothing; an unlocked era becomes current and is saved locally, and also to the profile exactly when signed in; the current era is always unlocked, or the state is unchanged |
| Theme.ChosenEraSurvivesReload | src/contexts/ThemeContext.tsx:40-107 | an era chosen by `setEra` is the current era after the next load, signed in or not |
| Theme.PantheonEliteCanChooseAnyEra | src/contexts/ThemeContext.tsx:59-107 | after the corrected load, a holder of `pantheon_elite` can choose any of the four eras |
| TrainingProgress.FetchProgress | src/hooks/useTrainingProgress.ts:14-35 | with no user the list is emptied; a successful read replaces it; a failed read keeps it and reports the error |
| TrainingProgress.ProgressFor | src/hooks/useTrainingProgress.ts:88-90 | finds the first row for the course, or reports that no row has it |
| TrainingProgress.StartCourse | src/hooks/useTrainingProgress.ts:41-60 | with no user, an authentication error; when the insert fails, the list is kept; otherwise the new row (module 0, no modules done) is appended |
| TrainingProgress.ReplaceById | src/hooks/useTrainingProgress.ts:82 | the row with the id is replaced in place, and all other rows are kept |
| TrainingProgress.ModuleCompleted | src/hooks/useTrainingProgress.ts:68-69 | the module is appended to the completed list, the current module moves one past it, and id, course and completion time are kept |
| TrainingProgress.CompleteModule | src/hooks/useTrainingProgress.ts:62-86 | no user, or no row for the course, returns an error and changes nothing; a failed update keeps the list; a successful one replaces only that row, and the course's row then has the module appended |
| TrainingProgress.FirstRowAfterReplace | src/hooks/useTrainingProgress.ts:82-90 | after its first row is replaced, the course's row is the new one |
| TrainingProgress.CalculateCompletion | src/hooks/useTrainingProgress.ts:92-96 | 0 with no row or no modules; otherwise the done-to-total ratio, as a percentage rounded to the nearest integer with halves up |
| TrainingProgress.CompletionBounds | src/hooks/useTrainingProgress.ts:92-96 | at most 100 while no more modules are done than exist; exactly 100 when all are done |
| TrainingProgress.CompleteModuleRaisesCompletion | src/hooks/useTrainingProgress.ts:62-96 | completing a module never lowers the course's completion |
| TrainingProgress.CompletionCanExceedHundred | src/hooks/useTrainingProgress.ts:62-96 | completing a module again on a finished course pushes the completion over 100, because the list is appended to without a duplicate check |
| Exercises.FetchExercises | src/hooks/useExercises.ts:42-64 | a successful read keeps every row, in the backend's order, field for field, and leaves the error flag as it was; a failure keeps the list and records the error |
| Exercises.FetchErrorSticks | src/hooks/useExercises.ts:42-64 | after any run of reads the error is reported exactly when it was already reported or some read failed: a later success never clears it |
| Exercises.FetchCompletions | src/hooks/useExercises.ts:66-84 | with no user the completions are cleared; a successful read replaces them; a failure keeps them |
| Exercises.GetCompletion | src/hooks/useExercises.ts:136-138 | finds the first completion for the exercise, or reports that none exists |
| Exercises.IsCompletedIffCompletion | src/hooks/useExercises.ts:132-138 | an exercise counts as completed exactly when it has a completion record |
| Exercises.NextAttempt | src/hooks/useExercises.ts:103 | the attempt count goes up by one, counting from 0 when it was never set |
| Exercises.MarkComplete | src/hooks/useExercises.ts:91-130 | with no user, an authentication error and no write; a completed exercise is updated (one more attempt, the new score or else the old one, a new time); otherwise a first record with one attempt is inserted; the error is reported exactly when the write fails |
| Exercises.ApplyWrite | src/hooks/useExercises.ts:98-125 | an update rewrites every record of the exercise with the new attempts, score and time and leaves the other records in place; an insert appends the new record |
| Exercises.MarkCompleteThenCompleted | src/hooks/useExercises.ts:91-138 | after a successful write the exercise is completed, with the expected attempt count and score |
| ExerciseRunner.FindExercise | src/components/training/ExerciseRunner.tsx:32 | finds an exercise with the id, or reports that none has it |
| ExerciseRunner.AutoSelect | src/components/training/ExerciseRunner.tsx:25-29 | the first exercise is selected when none is selected and the list is non-empty; otherwise nothing changes |
| ExerciseRunner.SelectExercise | src/components/training/ExerciseRunner.tsx:31-40 | an unknown id changes nothing; a known one selects it and clears the answer, result, hints and hint count |
| ExerciseRunner.RevealHint | src/components/training/ExerciseRunner.tsx:79-83 | one more hint is revealed while some remain; otherwise nothing changes |
| ExerciseRunner.Reset | src/components/training/ExerciseRunner.tsx:85-90 | keeps the selection and clears the answer, result, hints and hint count |
| ExerciseRunner.HintsStayWithinBounds | src/components/training/ExerciseRunner.tsx:31-90 | revealing, resetting and selecting never reveal more hints than the exercise has |
| ExerciseRunner.ExpectedOutput | src/components/training/ExerciseRunner.tsx:50 | no solution, or no `expected_output` field, expects the empty string; a string field is expected as is |
| ExerciseRunner.Normalize | src/components/training/ExerciseRunner.tsx:51-52 | the normalised text is no longer than the input, has no capital letters, and neither starts nor ends with white space |
| ExerciseRunner.XpForDifficulty | src/components/training/ExerciseRunner.tsx:64-68 | advanced earns 200 XP, intermediate 100, anything else 50 |
| ExerciseRunner.HandleCheck | src/components/training/ExerciseRunner.tsx:42-77 | no selection or a blank answer does nothing; a selected exercise with a non-blank answer is always checked, or throws when its expected output is not text; when checked, the verdict is pass exactly when the normalised texts match; a save of the selected exercise with score 100 is requested exactly on a pass when signed in; XP for the difficulty is awarded, and badges checked for the exercise's type and difficulty, exactly when that save succeeds |
| ExerciseRunner.PassIsSavedWithFullScore | src/components/training/ExerciseRunner.tsx:58-59 | a passing check's save, written through `markComplete` and read back, leaves the selected exercise completed with score 100 |
| ExerciseRunner.NoSolutionNeverPasses | src/components/training/ExerciseRunner.tsx:43-54 | an exercise with no solution skips a blank answer and checks a non-blank one as a fail, never a pass |
| ExerciseRunner.CheckIgnoresCase | src/components/training/ExerciseRunner.tsx:51-54 | the check ignores the letter case of the answer |
| ExerciseRunner.TrimToLowerCommute | src/components/training/ExerciseRunner.tsx:51-52 | trimming and lowercasing commute |
| ExerciseRunner.CompletedExercises | src/components/training/ExerciseRunner.tsx:165 | the counted exercises are exactly the completed ones on the list, one per completed position; none exactly when no exercise is completed, all exactly when every one is |
| ExerciseRunner.CompletedAppend | src/components/training/ExerciseRunner.tsx:165 | filtering two lists in turn gives the completed exercises of the first, then those of the second, so the filter keeps list order |
| ExerciseRunner.CompletedCounter | src/components/training/ExerciseRunner.tsx:165 | the counter reads done/total, where done is the number of positions whose exercise is completed; done is 0 exactly when none is completed, and equals total exactly when all are |
| CourseViewer.ParseSyllabus | src/components/training/CourseViewer.tsx:24-27 | a syllabus that is an array lists its modules; anything else lists none |
| CourseViewer.CompletedModules | src/components/training/CourseViewer.tsx:37 | with no progress nothing is completed; otherwise the row's completed modules, or none when the field is unset |
| CourseViewer.StatusOf | src/components/training/CourseViewer.tsx:177-178 | a module is finished exactly when it is in the completed list, and locked exactly when the course is not started and it is not the first; the first module is never locked |
| CourseViewer.ButtonsExclusive | src/components/training/CourseViewer.tsx:143-216 | "Start" and "Mark Complete" never show together; a finished module shows no "Mark Complete"; "Mark Complete" shows only on an open module |
| CourseViewer.HandleStartCourse | src/components/training/CourseViewer.tsx:39-54 | signed out, asks to sign in and changes nothing; otherwise starts the course and reports success exactly when the insert succeeded |
| CourseViewer.HandleCompleteModule | src/components/training/CourseViewer.tsx:56-76 | signed out, asks to sign in; not started, asks to start first; otherwise completes the module and reports success exactly when the write succeeded |
| CourseViewer.GuardsCoverHookErrors | src/components/training/CourseViewer.tsx:56-76 | after the component's own checks, the hook never reports missing authentication or a missing row |
| CourseViewer.MarkCompleteKeepsWellFormed | src/components/training/CourseViewer.tsx:56-76 | completing an open module of the syllabus keeps the completed list free of duplicates and within the syllabus |
| CourseViewer.DistinctBounded | src/components/training/CourseViewer.tsx:36 | distinct module indices below n number at most n |
| CourseViewer.WellFormedWithinHundred | src/components/training/CourseViewer.tsx:36 | a duplicate-free completed list within the syllabus never shows more than 100% |
| ProgressTracker.SyllabusLength | src/components/training/ProgressTracker.tsx:14-17 | a course's module count is the length of its parsed syllabus |
| ProgressTracker.FindCourse | src/components/training/ProgressTracker.tsx:96 | finds the course with the id, or reports that none has it |
| ProgressTracker.ModulesDone | src/components/training/ProgressTracker.tsx:60-63 | the "Modules Done" total is at least any single row's count, and 0 exactly when no row lists a module |
| ProgressTracker.CoursesDone | src/components/training/ProgressTracker.tsx:64 | the completed-course count is the number of rows whose completion time is set and non-empty; it is 0 exactly when none is, and equals the row count exactly when all are |
| ProgressTracker.CardFor | src/components/training/ProgressTracker.tsx:95-103 | a row with an unknown course gets no card; otherwise the card shows that course, its module count, the row's completed count and whether it is finished |
| ProgressTracker.Cards | src/components/training/ProgressTracker.tsx:95-103 | the cards are exactly the cards of rows whose course is known, no more than the rows; a single row gives its own card or none |
| ProgressTracker.CardsAppend | src/components/training/ProgressTracker.tsx:95-103 | the cards of two row lists are the first list's cards followed by the second's, so there is one card per known row, in row order |
| ProgressTracker.Render | src/components/training/ProgressTracker.tsx:24-64 | signed out, a sign-in prompt; loading, the loading view; no rows, the "nothing started" view; signed in, loaded and with rows, always the overview, in which the started count is the row count, the completed count is the number of completed rows, the modules total and the cards |
| ProgressTracker.CardAgreesWithCompletion | src/components/training/ProgressTracker.tsx:95-113 | a card's percentage is the hook's completion for that course |
| ProgressTracker.ModulesDoneReplace | src/components/training/ProgressTracker.tsx:60-63 | replacing one row changes the modules total by the difference in that row's count |
| ProgressTracker.ReplaceNothing | src/hooks/useTrainingProgress.ts:82 | replacing an id no row has changes nothing |
| ProgressTracker.CompleteModuleAddsOneModule | src/components/training/ProgressTracker.tsx:60-63 | with distinct row ids, completing a module adds exactly one to "Modules Done" |
| LevelBadges.FirstHeld | src/components/features/LevelBadges.tsx:15 | finds the held badge with the id at the lowest position, none before it having that id, or reports that none is held |
| LevelBadges.FirstIndex | src/components/features/LevelBadges.tsx:15 | the scan `find` performs: the first position from a start that holds the id, or none when no later position does |
| LevelBadges.EntryFor | src/components/features/LevelBadges.tsx:12-16 | a card is earned exactly when its id is held, and then shows the first such badge's time |
| LevelBadges.Entries | src/components/features/LevelBadges.tsx:12-16 | one card per definition, in definition order |
| LevelBadges.SortEntries | src/components/features/LevelBadges.tsx:19-23 | the sort is a permutation of the cards, and sorted: earned first, then by name |
| LevelBadges.EarnedFirst | src/components/features/LevelBadges.tsx:19-23 | in a sorted gallery no unearned card comes before an earned one |
| LevelBadges.Render | src/components/features/LevelBadges.tsx:10-31 | the gallery shows every definition's card once, sorted with earned first; the counter reads held badges over the 8 definitions |
| LevelBadges.EveryDefinitionShown | src/components/features/LevelBadges.tsx:12-16 | every definition's card is in the gallery |
| LevelBadges.CounterWithinTotal | src/components/features/LevelBadges.tsx:31 | with unique, defined badge ids, the counter never shows more held badges than exist |
| ConversationSidebar.Preview | src/components/chat/ConversationSidebar.tsx:70 | the preview is the first 50 characters of the latest user message; "New conversation" when there is none or it is empty; never empty |
| ConversationSidebar.Fetch | src/components/chat/ConversationSidebar.tsx:44-81 | signed out or on a failed read, the list is kept; otherwise each row read becomes one conversation, in order, with its preview |
| ConversationSidebar.Filter | src/components/chat/ConversationSidebar.tsx:107-113 | the listed conversations are exactly those whose lowercased preview contains the lowercased query and that belong to the current assistant, when one is set |
| ConversationSidebar.FilterAppend | src/components/chat/ConversationSidebar.tsx:107-113 | filtering keeps list order |
| ConversationSidebar.EmptyQueryKeepsPreviews | src/components/chat/ConversationSidebar.tsx:107-113 | the empty query lists every conversation with a preview, subject only to the assistant filter |
| ConversationSidebar.QueryCaseIgnored | src/components/chat/ConversationSidebar.tsx:108-110 | the query's letter case does not matter |
| ConversationSidebar.ByKey | src/components/chat/ConversationSidebar.tsx:115-120 | an assistant's group holds exactly its conversations; a single conversation is its group exactly when it is that assistant's |
| ConversationSidebar.ByKeyAppend | src/components/chat/ConversationSidebar.tsx:115-120 | selecting an assistant's conversations from two lists in turn gives those of the first, then those of the second, so groups keep list order |
| ConversationSidebar.Group | src/components/chat/ConversationSidebar.tsx:115-120 | the grouping has a key for each assistant that occurs, and each group is that assistant's conversations in list order |
| ConversationSidebar.GroupPartitions | src/components/chat/ConversationSidebar.tsx:115-120 | every conversation lands in its assistant's group and in no other |
| ConversationSidebar.FirstPos | src/components/chat/ConversationSidebar.tsx:115-120 | the position of an assistant's first conversation, with no earlier one of that assistant, or the length when it has none |
| ConversationSidebar.GroupKeys | src/components/chat/ConversationSidebar.tsx:115-167 | the groups are shown for exactly the occurring assistants, ordered by each assistant's first conversation, the order in which the record received its keys |
| ConversationSidebar.Without | src/components/chat/ConversationSidebar.tsx:99 | exactly the conversations with another id are kept; a single conversation is kept exactly when its id differs |
| ConversationSidebar.WithoutAppend | src/components/chat/ConversationSidebar.tsx:99 | removing an id from two lists in turn keeps what is left of each in place, so the list keeps its order |
| ConversationSidebar.WithoutIdempotent | src/components/chat/ConversationSidebar.tsx:99 | removing an id twice removes nothing more |
| ConversationSidebar.WithoutAbsent | src/components/chat/ConversationSidebar.tsx:99 | removing an id no conversation has keeps the list |
| ConversationSidebar.Delete | src/components/chat/ConversationSidebar.tsx:83-105 | a successful row delete removes the conversation and shows the success toast; a failure keeps the list and shows the failure toast |
| ConversationSidebar.MessagesOutcomeIgnored | src/components/chat/ConversationSidebar.tsx:86-89 | the outcome of deleting the messages never changes the result |
| ConversationSidebar.DeletedNotListed | src/components/chat/ConversationSidebar.tsx:99-113 | after a successful delete the conversation is not listed, whatever the search |
| ConversationStarters.Label | src/components/chat/ConversationStarters.tsx:30 | a label is at most 45 characters; a longer starter keeps its first 42 and ends with "..."; a shorter one is shown whole |
| ConversationStarters.LabelIdempotent | src/components/chat/ConversationStarters.tsx:30 | shortening a label again changes nothing |
| ConversationStarters.LongLabelsCollide | src/components/chat/ConversationStarters.tsx:30 | two long starters share a label exactly when their first 42 characters agree |
| ConversationStarters.Render | src/components/chat/ConversationStarters.tsx:11-30 | nothing renders exactly when the assistant has no starters or an empty list; otherwise one button per starter, in order |
| ConversationStarters.PressSendsFullStarter | src/components/chat/ConversationStarters.tsx:27-30 | a button sends its starter untruncated while showing it whole or starting with its first 42 characters |
| VoiceAssistant.SimulatedCommand | src/components/features/VoiceAssistant.tsx:24-28 | the simulated command carries the clock's timestamp |
| VoiceAssistant.Toggle | src/components/features/VoiceAssistant.tsx:18-32 | listening flips; a command is scheduled exactly when listening turns on; the call flag and commands are kept |
| VoiceAssistant.PhoneCall | src/components/features/VoiceAssistant.tsx:34-36 | the call flag flips; nothing else changes |
| VoiceAssistant.ToggleTwice | src/components/features/VoiceAssistant.tsx:18-32 | toggling twice restores the panel and schedules exactly one command |
| VoiceAssistant.TogglesCommute | src/components/features/VoiceAssistant.tsx:18-36 | the two toggles commute |
| VoiceAssistant.Fire | src/components/features/VoiceAssistant.tsx:29 | the new command comes first, followed by the earlier ones in order, at most five in all |
| VoiceAssistant.FireAllKeepsNewest | src/components/features/VoiceAssistant.tsx:29 | after any number of commands, the list holds the newest ones, newest first, never more than five |
| VoiceAssistant.RecentBounded | src/components/features/VoiceAssistant.tsx:14-29 | from the initial panel the list never exceeds five entries |
| OfflineAI.Initialize | src/lib/offlineAI.ts:12-39 | with a generator loaded or a load under way, nothing changes and the current generator is returned; otherwise the loading flag is raised during the load and lowered afterwards; success stores and returns the generator; failure rethrows and leaves none |
| OfflineAI.InitializeSettles | src/lib/offlineAI.ts:12-39 | after a call the engine is not loading, and is ready exactly when it was ready or the load succeeded |
| OfflineAI.CallDuringLoadGetsNothing | src/lib/offlineAI.ts:13 | a second call while the first loads starts no load and returns no generator |
| OfflineAI.SystemText | src/lib/offlineAI.ts:50 | a given system prompt, even an empty one, is used; a missing one falls back to the default |
| OfflineAI.BuildPrompt | src/lib/offlineAI.ts:51 | the prompt starts with the system tag, ends with the end tag and then the assistant marker, and holds the system text and the message in their places |
| OfflineAI.Find | src/lib/offlineAI.ts:63 | finds the first occurrence of a pattern, or reports that there is none |
| OfflineAI.SecondPiece | src/lib/offlineAI.ts:63 | the second piece of a split on a non-empty separator (the answer uses the marker): none exactly when there is no separator; otherwise it starts right after the first separator, holds no separator, and runs to the next separator or the end |
| OfflineAI.PieceInText | src/lib/offlineAI.ts:63 | the text from a position up to the next separator lies in the generated text, has no separator starting inside it, and is followed by a separator or the end |
| OfflineAI.PieceHasNoSeparator | src/lib/offlineAI.ts:63 | the second piece of a split on a non-empty separator holds no occurrence of it |
| OfflineAI.ExtractResponse | src/lib/offlineAI.ts:62-64 | generated text without the marker yields the apology; otherwise the reply is the trimmed second piece of the split, or the apology when that piece is blank; the reply is never empty |
| OfflineAI.ExtractedHasNoMarker | src/lib/offlineAI.ts:62-64 | a reply other than the apology holds no marker and neither starts nor ends with white space |
| OfflineAI.Continuation | src/lib/offlineAI.ts:63-64 | the reply to a continuation is its trimmed text or the apology |
| OfflineAI.Generate | src/lib/offlineAI.ts:41-71 | without a generator it fails before building a prompt; otherwise it frames the message with the chosen system text; a model error fails; generated text gives the extracted reply |
| OfflineAI.GenerateNeedsReady | src/lib/offlineAI.ts:45-47 | the "not initialized" error happens exactly when no generator is loaded |
| OfflineAI.FramingHasNoMarker | src/lib/offlineAI.ts:51 | framing marker-free text with the tags introduces no assistant marker |
| OfflineAI.FirstMarkerAfter | src/lib/offlineAI.ts:63 | in marker-free text followed by the marker, the first marker is the appended one |
| OfflineAI.ExtractAfterPrompt | src/lib/offlineAI.ts:51-64 | when the system text, message and model continuation hold no marker, the reply is the trimmed continuation, or the apology when that is blank |
| InstallBanner.ParseInt | src/components/ui/pwa-install-banner.tsx:15 | `parseInt(s, 10)` is NaN exactly when no digits follow the leading white space and sign; an unsigned number is not negative |
| InstallBanner.NatToString | src/components/ui/pwa-install-banner.tsx:33 | a time's decimal text is all digits, denotes that time, and has no leading zero |
| InstallBanner.ParseIntNatToString | src/components/ui/pwa-install-banner.tsx:15-33 | reading back a stored time gives that time |
| InstallBanner.DismissedAt | src/components/ui/pwa-install-banner.tsx:13-19 | a dismissal is in force exactly when the stored value is non-empty, parses, and is less than a day old; unparsable text never dismisses |
| InstallBanner.DetectPlatform | src/components/ui/pwa-install-banner.tsx:22-29 | Android exactly when the lowercased user agent contains `android`; iOS exactly when it does not but names an iPhone, iPad or iPod |
| InstallBanner.Mount | src/components/ui/pwa-install-banner.tsx:11-30 | the mount effect records the stored dismissal and the detected platform |
| InstallBanner.Render | src/components/ui/pwa-install-banner.tsx:43-74 | nothing shows once installed or dismissed; iOS shows the instructions, installable or not; elsewhere the prompt shows exactly when installable |
| InstallBanner.HandleDismiss | src/components/ui/pwa-install-banner.tsx:32-35 | dismissing hides the banner and stores text that parses back to the current time |
| InstallBanner.HandleInstall | src/components/ui/pwa-install-banner.tsx:37-40 | installing ends as dismissing does, whatever the user chose, and the banner no longer shows |
| InstallBanner.DismissalLastsOneDay | src/components/ui/pwa-install-banner.tsx:13-35 | a dismissal keeps the banner hidden on every mount for one day, and no longer |
| InstallBanner.GarbageDoesNotDismiss | src/components/ui/pwa-install-banner.tsx:13-19 | a stored value without digits never hides the banner |
| InstallBanner.AndroidWins | src/components/ui/pwa-install-banner.tsx:23-26 | a user agent naming Android is Android, even when it also names an iPhone |
| Common.ToLower | src/components/chat/ConversationSidebar.tsx:108-110 | `toLowerCase` maps each character on its own, leaves the length alone and leaves no capital letters |
| Common.ToLowerIdempotent | src/components/chat/ConversationSidebar.tsx:108-110 | lowercasing twice is lowercasing once |
| Common.Trim | src/components/training/ExerciseRunner.tsx:43-52 | `trim` returns a stretch of the input that neither starts nor ends with white space |
| Common.TrimEmptyIff | src/components/training/ExerciseRunner.tsx:43 | an answer trims to empty exactly when it is all white space |
| Common.RoundPercent | src/hooks/useTrainingProgress.ts:95 | `Math.round(c / t * 100)`: the integer within half a point of the exact percentage, halves rounded up |
| Common.RoundPercentUnique | src/hooks/useTrainingProgress.ts:95 | that integer is unique |
| Common.RoundPercentMonotone | src/hooks/useTrainingProgress.ts:95 | more modules done never gives a lower percentage |
| Common.RoundPercentBounds | src/hooks/useTrainingProgress.ts:95 | 0 done is 0%, all done is 100%, and at most all done is at most 100% |

## Left out

- The service worker's `sync`, `push` and `notificationclick` listeners (public/sw.js:136-172) act on browser notifications and background sync, which have no state in this model.
- `skipWaiting` and `clients.claim`, and the promise scheduling of `event.waitUntil` and `respondWith`, are browser lifecycle calls with no observable state here.
- Every `cache.put` takes effect at once and in program order, including the background write of stale-while-revalidate.
- `Request.clone` and `Response.clone` are the identity here: bodies are values.
- Concurrency is left out. React state updates, overlapping fetches and the two-second voice timer are applied one at a time, in the order given.
- Floating point is left out:
  - levels, the level progress and percentages use exact integers and rationals;
  - `Math.round` of a JavaScript double may differ from the exact rounding at a tie;
  - `parseInt` results too large for a double are not modelled.
- JavaScript strings are UTF-16. Here characters are Unicode scalars, so `substring(0, 50)`, `substring(0, 42)` and `length` count code points.
- `trim` and `parseInt` skip ASCII white space only; `toLowerCase` folds only A to Z.
- `localeCompare` in the badge sort is modelled as code-point order.
- Lookups through object prototypes (a badge id such as `constructor` in `BADGE_DEFINITIONS[id]` or `BADGE_ERA_UNLOCKS[id]`, or a `Record` key in the grouping) are not modelled.
- ConversationSidebar.GroupKeys: JavaScript lists integer-like record keys (such as `"7"`) before the others, in numeric order. The model keeps first-occurrence order for every key, because the `AssistantKey` type (src/lib/assistants.ts:1) admits only the five assistant names.
- The badge definitions' display names, descriptions and icons are data, not logic.
- Xp.AwardBadge: the row the backend returns after a write is taken to be the local row with the update applied.
- TrainingProgress.CompleteModule: the row the update returns is taken to be the existing row with the new current module and completed list; likewise the row `StartCourse` inserts is the one it sent, with the id the backend assigned.
- Exercises.ApplyWrite: the same assumption for exercise completions; the refetch after the write (src/hooks/useExercises.ts:125) is modelled as applying the write.
- Exercises.FetchExercises: ordering by difficulty is the backend's; the rows arrive already ordered.
- ExerciseRunner.ExpectedOutput: a truthy `expected_output` that is not a string makes the source throw at `.trim()`. This is modelled as `None`, and `HandleCheck` then reports `Threw`.
- The 500 ms check delay, the loading flags and toast texts are presentation and are not modelled.
- No modelled operation sets `completed_at` on a progress row; it is read as stored.
- InstallBanner.Render: the first render before the mount effect runs (not dismissed, desktop) is not modelled; `Render` takes the state after `Mount`.
- The install prompt itself (`installApp`, src/hooks/usePWA.ts) and the `isInstallable` and `isInstalled` flags are inputs; src/hooks/usePWA.ts is not part of this model.
- The assistants' starter lists (src/lib/assistants.ts) are not part of this model. The starters of the current assistant are an input.
- The transformers pipeline, its options (tokens, temperature, sampling) and the generated text are inputs.
- OfflineAI.ExtractAfterPrompt: proved only when the system text, the message and the model's continuation contain no `<|assistant|>`. Otherwise `split` picks another segment, which `SecondPiece` characterises but no lemma relates to the continuation.
- The clock (`Date.now()`, `new Date().toISOString()`) is a parameter everywhere.
- Authentication is a `user` flag.
- Supabase queries are their result rows or an error; the `profiles.theme_era` write in `setEra` is returned as a value, not performed.
- The completion badge checks in src/hooks/useXP.ts:266-310 read completions from the backend. The modelled rule list is the code's; the `course_completer` badge has no rule in the source, so no check awards it.

## Findings

| source | as written | input that shows it | evidently intended | confidence | as-written member | corrected member |
|---|---|---|---|---|---|---|
| src/hooks/useXP.ts:266-310 | every `awardBadge` call in one `checkBadges` run starts from the same `xpData.badges` snapshot captured by the callback, so each award overwrites the previous one and only the last badge survives | no badges held, three crypto completions: `first_blood` and `crypto_rookie` are both due, only `crypto_rookie` is kept | every eligible badge is awarded, each award building on the previous one | not executed | Xp.CheckBadgesLosesEarlierAward | Xp.CheckBadges |
| src/contexts/ThemeContext.tsx:71-76 | the `pantheon_elite` branch sets all four eras unlocked, but the unconditional `setUnlockedEras(unlocked)` after the loop replaces that with the derived list | badges `[pantheon_elite]`: unlocked eras are `2020s` and `1980s`; `1990s` and `2000s` stay locked | holding `pantheon_elite` unlocks every era, as the table comment says | not executed | Theme.PantheonEliteUnlocksAllAsWrittenFails | Theme.UnlockedEras |
| src/hooks/useXP.ts:134-174 | `loadXP` returns early without a user (lines 136-139) and, for a user without a row, inserts the initial record (lines 160-168) without resetting the state, so the totals shown are the previous user's | a signed-in user with 120 XP signs out and another user without a row signs in: the second user is shown 120 XP, and the next award of 50 writes 170 into their new record | the state shown is the current user's stored record: the initial one for a user without a row or for no user | not executed | Xp.StaleXpCarriesOver | Xp.LoadXpReset |

=== FILE: common.dfy ===
/**
 * Shared vocabulary of the model: optional values, outcomes of calls into the
 * backend or the platform (supplied by the caller), a small JSON value type,
 * and the string and rounding helpers that stand in for the JavaScript
 * built-ins the application relies on.
 *
 * Strings are sequences of characters. `trim`, `toLowerCase`, `includes`,
 * `startsWith`, `endsWith` and `substring` are modelled over ASCII rules.
 */
module Common {

  datatype Option<T> = None | Some(value: T)

  /** The outcome of a backend, storage or platform call, chosen by the caller. */
  datatype Outcome<T> = Ok(data: T) | Err

  /** A stored JSON value (database `Json` columns, parsed local data). */
  datatype Json =
    | JNull
    | JBool(b: bool)
    | JNum(n: int)
    | JStr(s: string)
    | JArr(items: seq<Json>)
    | JObj(fields: map<string, Json>)

  // ---------------------------------------------------------------------------
  // Substring tests

  /** `s.startsWith(p)` */
  predicate StartsWith(s: string, p: string) {
    |p| <= |s| && s[..|p|] == p
  }

  /** `s.endsWith(p)`, also what a regular expression anchored with `$` tests for a literal suffix */
  predicate EndsWith(s: string, p: string) {
    |p| <= |s| && s[|s| - |p|..] == p
  }

  /** `p` occurs in `s` starting at position `i` */
  predicate OccursAt(s: string, p: string, i: int) {
    0 <= i <= |s| - |p| && s[i..i + |p|] == p
  }

  /** `s.includes(p)`: `p` occurs at some position of `s` */
  predicate Contains(s: string, p: string) {
    exists i :: 0 <= i <= |s| && OccursAt(s, p, i)
  }

  // ---------------------------------------------------------------------------
  // Case folding (ASCII)

  function LowerChar(c: char): (r: char)
    ensures 'A' <= c <= 'Z' ==> r as int == c as int + 32
    ensures !('A' <= c <= 'Z') ==> r == c
    ensures !('A' <= r <= 'Z')
    ensures IsSpace(r) <==> IsSpace(c)
  {
    if 'A' <= c <= 'Z' then (c as int + 32) as char else c
  }

  /** `s.toLowerCase()` restricted to ASCII letters */
  function ToLower(s: string): (r: string)
    ensures |r| == |s|
    ensures forall i :: 0 <= i < |s| ==> r[i] == LowerChar(s[i])
  {
    seq(|s|, i requires 0 <= i < |s| => LowerChar(s[i]))
  }

  lemma ToLowerIdempotent(s: string)
    ensures ToLower(ToLower(s)) == ToLower(s)
  {
  }

  // ---------------------------------------------------------------------------
  // Trimming (ASCII white space)

  predicate IsSpace(c: char) {
    c == ' ' || c == '\t' || c == '\n' || c == '\r' || c == '\U{000B}' || c == '\U{000C}'
  }

  function TrimStart(s: string): (r: string)
    ensures |r| <= |s| && r == s[|s| - |r|..]
    ensures r == [] || !IsSpace(r[0])
    ensures forall i :: 0 <= i < |s| - |r| ==> IsSpace(s[i])
  {
    if |s| > 0 && IsSpace(s[0]) then TrimStart(s[1..]) else s
  }

  function TrimEnd(s: string): (r: string)
    ensures |r| <= |s| && r == s[..|r|]
    ensures r == [] || !IsSpace(r[|r| - 1])
    ensures forall i :: |r| <= i < |s| ==> IsSpace(s[i])
  {
    if |s| > 0 && IsSpace(s[|s| - 1]) then TrimEnd(s[..|s| - 1]) else s
  }

  /** `s.trim()`: the longest slice of `s` with no white space at either end */
  function Trim(s: string): (r: string)
    ensures |r| <= |s|
    ensures exists a :: 0 <= a <= |s| && OccursAt(s, r, a) &&
                        (forall i :: 0 <= i < a ==> IsSpace(s[i])) &&
                        (forall i :: a + |r| <= i < |s| ==> IsSpace(s[i]))
    ensures r == [] || (!IsSpace(r[0]) && !IsSpace(r[|r| - 1]))
  {
    var t := TrimStart(s);
    var r := TrimEnd(t);
    TrimAt(s, t, r);
    r
  }

  /** A slice with white space before it in `s` and after it in the rest of `s` is a trimmed stretch of `s`. */
  lemma TrimAt(s: string, t: string, r: string)
    requires |t| <= |s| && t == s[|s| - |t|..]
    requires forall i :: 0 <= i < |s| - |t| ==> IsSpace(s[i])
    requires |r| <= |t| && r == t[..|r|]
    requires forall i :: |r| <= i < |t| ==> IsSpace(t[i])
    ensures exists a :: 0 <= a <= |s| && OccursAt(s, r, a) &&
                        (forall i :: 0 <= i < a ==> IsSpace(s[i])) &&
                        (forall i :: a + |r| <= i < |s| ==> IsSpace(s[i]))
  {
    TrimAtParts(s, t, r);
    var a := |s| - |t|;
    assert OccursAt(s, r, a);
  }

  /** A prefix of a suffix of `s` occurs in `s` where the suffix starts. */
  lemma TrimAtParts(s: string, t: string, r: string)
    requires |t| <= |s| && t == s[|s| - |t|..]
    requires |r| <= |t| && r == t[..|r|]
    requires forall i :: |r| <= i < |t| ==> IsSpace(t[i])
    ensures OccursAt(s, r, |s| - |t|)
    ensures forall i :: |s| - |t| + |r| <= i < |s| ==> IsSpace(s[i])
  {
    var a := |s| - |t|;
    assert s[a..a + |r|] == r;
    forall i | a + |r| <= i < |s| ensures IsSpace(s[i]) {
      assert s[i] == t[i - a];
    }
  }

  /** A string made only of white space trims to the empty string, and nothing else does. */
  lemma {:induction false} TrimEmptyIff(s: string)
    ensures Trim(s) == [] <==> forall i :: 0 <= i < |s| ==> IsSpace(s[i])
  {
    var t := TrimStart(s);
    if !forall i :: 0 <= i < |s| ==> IsSpace(s[i]) {
      var k :| 0 <= k < |s| && !IsSpace(s[k]);
      assert |s| - |t| <= k;
      assert t[k - (|s| - |t|)] == s[k];
    }
  }

  // ---------------------------------------------------------------------------
  // Sequences

  /** Position of the first occurrence of `x` in `xs`, as `Array.prototype.indexOf` finds it */
  function IndexOf<T(==)>(xs: seq<T>, x: T): (r: Option<nat>)
    ensures r.Some? <==> x in xs
    ensures r.Some? ==> r.value < |xs| && xs[r.value] == x && x !in xs[..r.value]
  {
    if |xs| == 0 then None
    else if xs[0] == x then Some(0)
    else match IndexOf(xs[1..], x)
      case None => None
      case Some(k) => assert xs[..k + 1] == [xs[0]] + xs[1..][..k]; Some(k + 1)
  }

  /** Appending an element does not move the first occurrence of anything already present. */
  lemma IndexOfAppend<T>(xs: seq<T>, y: T, x: T)
    ensures IndexOf(xs + [y], x) ==
      if x in xs then IndexOf(xs, x) else if x == y then Some(|xs|) else None
  {
    if x in xs {
      var k := IndexOf(xs, x).value;
      assert (xs + [y])[k] == x;
      assert (xs + [y])[..k] == xs[..k];
    } else if x == y {
      assert (xs + [y])[..|xs|] == xs;
    }
  }

  function Take<T>(s: seq<T>, n: nat): (r: seq<T>)
    ensures |r| == if n < |s| then n else |s|
    ensures r <= s
  {
    if n < |s| then s[..n] else s
  }

  // ---------------------------------------------------------------------------
  // Rounding

  /**
   * `Math.round(c / t * 100)` for a non-negative count `c` over a positive
   * total `t`, computed exactly on rationals: the integer nearest to
   * 100c/t, halves rounded up.
   */
  function RoundPercent(c: nat, t: nat): (r: nat)
    requires t > 0
    ensures 2 * t * r <= 200 * c + t < 2 * t * (r + 1)
  {
    (200 * c + t) / (2 * t)
  }

  lemma MulMonotone(k: nat, a: int, b: int)
    requires a <= b
    ensures k * a <= k * b
  {
  }

  /** The rounding is the unique integer within one half of 100c/t. */
  lemma RoundPercentUnique(c: nat, t: nat, r: int)
    requires t > 0
    requires 2 * t * r <= 200 * c + t < 2 * t * (r + 1)
    ensures r == RoundPercent(c, t)
  {
    var q := RoundPercent(c, t);
    if r < q {
      MulMonotone(2 * t, r + 1, q);
    } else if r > q {
      MulMonotone(2 * t, q + 1, r);
    }
  }

  /** More completed items never give a smaller percentage. */
  lemma RoundPercentMonotone(a: nat, b: nat, t: nat)
    requires t > 0 && a <= b
    ensures RoundPercent(a, t) <= RoundPercent(b, t)
  {
    var ra, rb := RoundPercent(a, t), RoundPercent(b, t);
    if ra > rb {
      MulMonotone(2 * t, rb + 1, ra);
    }
  }

  lemma RoundPercentBounds(c: nat, t: nat)
    requires t > 0
    ensures c <= t ==> RoundPercent(c, t) <= 100
    ensures c == t ==> RoundPercent(c, t) == 100
    ensures c == 0 ==> RoundPercent(c, t) == 0
  {
    var r := RoundPercent(c, t);
    if c <= t && r > 100 {
      MulMonotone(2 * t, 101, r);
    }
    if c == t {
      RoundPercentUnique(c, t, 100);
    }
    if c == 0 {
      RoundPercentUnique(c, t, 0);
    }
  }
}

=== FILE: conversation_sidebar.dfy ===
/**
 * The chat history sidebar (src/components/chat/ConversationSidebar.tsx):
 * each conversation's preview line, the search and assistant filter, the
 * grouping by assistant, and the list after a delete.
 */
module ConversationSidebar {
  import opened Common

  /** A `conversations` row with the preview the sidebar derives for it. */
  datatype Conversation = Conversation(
    id: string,
    assistantKey: string,
    createdAt: string,
    updatedAt: string,
    preview: Option<string>)

  /** A `conversations` row as read, with the content of its latest user message, if any was read. */
  datatype Row = Row(id: string, assistantKey: string, createdAt: string, updatedAt: string, latestMessage: Option<string>)

  const NoPreview: string := "New conversation"
  const PreviewLength: nat := 50

  /**
   * The preview: the first 50 characters of the latest user message; the
   * fixed text when there is no such message or it is empty.
   */
  function Preview(latest: Option<string>): (r: string)
    ensures latest.Some? && latest.value != [] ==>
      r <= latest.value && |r| == (if |latest.value| < PreviewLength then |latest.value| else PreviewLength)
    ensures latest.None? || latest.value == [] ==> r == NoPreview
    ensures 0 < |r| <= PreviewLength
  {
    if latest.Some? && Take(latest.value, PreviewLength) != [] then Take(latest.value, PreviewLength)
    else NoPreview
  }

  /**
   * `fetchConversations`: without a user, or when the read fails, the list
   * stays as it was; otherwise it becomes the rows read, each with its preview.
   */
  function Fetch(user: bool, prev: seq<Conversation>, rows: Outcome<seq<Row>>): (r: seq<Conversation>)
    ensures !user || rows.Err? ==> r == prev
    ensures user && rows.Ok? ==> |r| == |rows.data|
    ensures user && rows.Ok? ==> forall i :: 0 <= i < |r| ==>
      var row := rows.data[i];
      r[i] == Conversation(row.id, row.assistantKey, row.createdAt, row.updatedAt, Some(Preview(row.latestMessage)))
  {
    if !user || rows.Err? then prev
    else
      seq(|rows.data|, i requires 0 <= i < |rows.data| =>
        var row := rows.data[i];
        Conversation(row.id, row.assistantKey, row.createdAt, row.updatedAt, Some(Preview(row.latestMessage))))
  }

  // ---------------------------------------------------------------------------
  // Filtering

  /**
   * A conversation is listed when its lowercased preview contains the
   * lowercased query (a conversation without a preview never is) and, when
   * an assistant is current, it belongs to that assistant.
   */
  predicate Keeps(c: Conversation, query: string, current: string) {
    && c.preview.Some? && Contains(ToLower(c.preview.value), ToLower(query))
    && (current == [] || c.assistantKey == current)
  }

  /** `filteredConversations`: the listed conversations, in list order. */
  function Filter(cs: seq<Conversation>, query: string, current: string): (r: seq<Conversation>)
    ensures |r| <= |cs|
    ensures forall c :: c in r <==> c in cs && Keeps(c, query, current)
  {
    if |cs| == 0 then []
    else
      var rest := Filter(cs[1..], query, current);
      assert forall c :: c in cs <==> c == cs[0] || c in cs[1..];
      (if Keeps(cs[0], query, current) then [cs[0]] else []) + rest
  }

  /** Filtering a concatenation filters each part in place: the listed conversations keep their order. */
  lemma {:induction false} FilterAppend(a: seq<Conversation>, b: seq<Conversation>, query: string, current: string)
    ensures Filter(a + b, query, current) == Filter(a, query, current) + Filter(b, query, current)
  {
    if |a| > 0 {
      assert (a + b)[0] == a[0];
      assert (a + b)[1..] == a[1..] + b;
      FilterAppend(a[1..], b, query, current);
    } else {
      assert a + b == b;
    }
  }

  /** The empty query lists every conversation that has a preview, subject only to the assistant. */
  lemma EmptyQueryKeepsPreviews(c: Conversation, current: string)
    ensures Keeps(c, "", current) <==> c.preview.Some? && (current == [] || c.assistantKey == current)
  {
    if c.preview.Some? {
      assert OccursAt(ToLower(c.preview.value), ToLower(""), 0);
    }
  }

  /** The search ignores letter case in the query. */
  lemma QueryCaseIgnored(c: Conversation, query: string, current: string)
    ensures Keeps(c, ToLower(query), current) <==> Keeps(c, query, current)
  {
    ToLowerIdempotent(query);
  }

  // ---------------------------------------------------------------------------
  // Grouping

  /** The conversations of one assistant, in list order (see `ByKeyAppend`). */
  function ByKey(cs: seq<Conversation>, key: string): (r: seq<Conversation>)
    ensures forall c :: c in r <==> c in cs && c.assistantKey == key
    ensures |cs| == 1 ==> r == if cs[0].assistantKey == key then cs else []
  {
    if |cs| == 0 then []
    else
      var last := cs[|cs| - 1];
      var rest := ByKey(cs[..|cs| - 1], key);
      assert forall c :: c in cs <==> c == last || c in cs[..|cs| - 1];
      rest + (if last.assistantKey == key then [last] else [])
  }

  /** Selecting one assistant's conversations from two lists in turn: those of the first, then those of the second. */
  lemma {:induction false} ByKeyAppend(a: seq<Conversation>, b: seq<Conversation>, key: string)
    ensures ByKey(a + b, key) == ByKey(a, key) + ByKey(b, key)
    decreases |b|
  {
    if |b| > 0 {
      var b' := b[..|b| - 1];
      assert (a + b)[..|a + b| - 1] == a + b';
      assert (a + b)[|a + b| - 1] == b[|b| - 1];
      ByKeyAppend(a, b', key);
    } else {
      assert a + b == a;
    }
  }

  /** The assistant keys that occur in the list. */
  function Keys(cs: seq<Conversation>): set<string> {
    set i | 0 <= i < |cs| :: cs[i].assistantKey
  }

  /**
   * `groupedConversations`: the list folded from the left into a record
   * keyed by assistant, each conversation appended to its key's group.
   */
  function Group(cs: seq<Conversation>): (r: map<string, seq<Conversation>>)
    ensures r.Keys == Keys(cs)
    ensures forall k :: k in r ==> r[k] == ByKey(cs, k)
  {
    if |cs| == 0 then map[]
    else
      var init := cs[..|cs| - 1];
      var c := cs[|cs| - 1];
      var g := Group(init);
      KeysSnoc(cs);
      ByKeyAbsent(init, c.assistantKey);
      g[c.assistantKey := (if c.assistantKey in g then g[c.assistantKey] else []) + [c]]
  }

  /** The position of the first conversation with the key, or the length when there is none. */
  function FirstPos(cs: seq<Conversation>, k: string): (r: nat)
    ensures r <= |cs|
    ensures r < |cs| ==> cs[r].assistantKey == k
    ensures forall j :: 0 <= j < r ==> cs[j].assistantKey != k
    ensures r == |cs| <==> k !in Keys(cs)
  {
    if |cs| == 0 then 0
    else if cs[|cs| - 1].assistantKey == k && k !in Keys(cs[..|cs| - 1]) then
      KeysSnoc(cs);
      |cs| - 1
    else
      var init := cs[..|cs| - 1];
      KeysSnoc(cs);
      var p := FirstPos(init, k);
      assert p < |init| ==> cs[p] == init[p];
      assert forall j :: 0 <= j < p ==> cs[j] == init[j];
      if p < |init| then p
      else
        assert cs[|cs| - 1].assistantKey != k;
        |cs|
  }

  /**
   * `Object.entries(groupedConversations)`: the keys of the grouping in the
   * order the record received them, that is, by each assistant's first
   * conversation in the list.
   */
  function GroupKeys(cs: seq<Conversation>): (r: seq<string>)
    ensures forall k :: k in r <==> k in Keys(cs)
    ensures forall i, j :: 0 <= i < j < |r| ==> FirstPos(cs, r[i]) < FirstPos(cs, r[j])
  {
    if |cs| == 0 then []
    else
      var init := cs[..|cs| - 1];
      var c := cs[|cs| - 1];
      var g := GroupKeys(init);
      KeysSnoc(cs);
      FirstPosSnoc(cs);
      if c.assistantKey in Keys(init) then g
      else
        var r := g + [c.assistantKey];
        assert forall i :: 0 <= i < |g| ==> FirstPos(cs, r[i]) < |init|;
        assert FirstPos(cs, c.assistantKey) == |init|;
        r
  }

  /** Adding a conversation at the end leaves the first position of every key seen before. */
  lemma FirstPosSnoc(cs: seq<Conversation>)
    requires |cs| > 0
    ensures forall k :: k in Keys(cs[..|cs| - 1]) ==> FirstPos(cs, k) == FirstPos(cs[..|cs| - 1], k) < |cs| - 1
  {
    var init := cs[..|cs| - 1];
    forall k | k in Keys(init) ensures FirstPos(cs, k) == FirstPos(init, k) < |cs| - 1 {
      var q := FirstPos(init, k);
      assert cs[q] == init[q];
    }
  }

  lemma KeysSnoc(cs: seq<Conversation>)
    requires |cs| > 0
    ensures Keys(cs) == Keys(cs[..|cs| - 1]) + {cs[|cs| - 1].assistantKey}
  {
    var init := cs[..|cs| - 1];
    forall k | k in Keys(cs) ensures k in Keys(init) + {cs[|cs| - 1].assistantKey} {
      var i :| 0 <= i < |cs| && cs[i].assistantKey == k;
      if i < |cs| - 1 {
        assert init[i] == cs[i];
      }
    }
    forall k | k in Keys(init) ensures k in Keys(cs) {
      var i :| 0 <= i < |init| && init[i].assistantKey == k;
      assert cs[i] == init[i];
    }
  }

  /** A key no conversation has has an empty group. */
  lemma {:induction false} ByKeyAbsent(cs: seq<Conversation>, key: string)
    ensures key !in Keys(cs) ==> ByKey(cs, key) == []
  {
    if |cs| > 0 {
      KeysSnoc(cs);
      ByKeyAbsent(cs[..|cs| - 1], key);
    }
  }

  /** Every conversation shown lands in exactly one group: its assistant's. */
  lemma GroupPartitions(cs: seq<Conversation>, c: Conversation)
    ensures c in cs ==> c.assistantKey in Group(cs) && c in Group(cs)[c.assistantKey]
    ensures forall k :: k in Group(cs) && c in Group(cs)[k] ==> k == c.assistantKey && c in cs
  {
    if c in cs {
      var i :| 0 <= i < |cs| && cs[i] == c;
      assert c.assistantKey in Keys(cs);
    }
  }

  // ---------------------------------------------------------------------------
  // Deleting

  datatype DeleteToast = Deleted | DeleteFailed

  datatype Deletion = Deletion(conversations: seq<Conversation>, toast: DeleteToast)

  /** Every conversation except those with the given id, in list order (see `WithoutAppend`). */
  function Without(cs: seq<Conversation>, id: string): (r: seq<Conversation>)
    ensures |r| <= |cs|
    ensures forall c :: c in r <==> c in cs && c.id != id
    ensures |cs| == 1 ==> r == if cs[0].id != id then cs else []
  {
    if |cs| == 0 then []
    else
      var rest := Without(cs[1..], id);
      assert forall c :: c in cs <==> c == cs[0] || c in cs[1..];
      (if cs[0].id != id then [cs[0]] else []) + rest
  }

  /** Removing an id from two lists in turn: what is left of the first, then what is left of the second. */
  lemma {:induction false} WithoutAppend(a: seq<Conversation>, b: seq<Conversation>, id: string)
    ensures Without(a + b, id) == Without(a, id) + Without(b, id)
    decreases |a|
  {
    if |a| > 0 {
      assert (a + b)[0] == a[0];
      assert (a + b)[1..] == a[1..] + b;
      WithoutAppend(a[1..], b, id);
    } else {
      assert a + b == b;
    }
  }

  /** Removing an id twice removes nothing more. */
  lemma {:induction false} WithoutIdempotent(cs: seq<Conversation>, id: string)
    ensures Without(Without(cs, id), id) == Without(cs, id)
  {
    if |cs| > 0 {
      WithoutIdempotent(cs[1..], id);
      var w := Without(cs, id);
      if cs[0].id != id {
        assert w == [cs[0]] + Without(cs[1..], id);
        assert |w| > 0 && w[0] == cs[0] && w[1..] == Without(cs[1..], id);
        assert Without(w, id) == [cs[0]] + Without(Without(cs[1..], id), id);
      } else {
        assert w == Without(cs[1..], id);
      }
    }
  }

  /** Removing an id that no conversation has leaves the list as it was. */
  lemma {:induction false} WithoutAbsent(cs: seq<Conversation>, id: string)
    requires forall i :: 0 <= i < |cs| ==> cs[i].id != id
    ensures Without(cs, id) == cs
  {
    if |cs| > 0 {
      WithoutAbsent(cs[1..], id);
      assert cs == [cs[0]] + cs[1..];
    }
  }

  /**
   * `deleteConversation`: the messages are deleted first, whatever that
   * returns; when deleting the conversation row succeeds the list loses that
   * id and a success toast shows, otherwise the list is kept and a failure
   * toast shows.
   */
  function Delete(cs: seq<Conversation>, id: string, messagesDeleted: Outcome<()>, rowDeleted: Outcome<()>): (r: Deletion)
    ensures rowDeleted.Ok? ==> r.toast == Deleted && r.conversations == Without(cs, id)
    ensures rowDeleted.Err? ==> r == Deletion(cs, DeleteFailed)
  {
    if rowDeleted.Err? then Deletion(cs, DeleteFailed)
    else Deletion(Without(cs, id), Deleted)
  }

  /** The outcome of deleting the messages never changes what the sidebar shows. */
  lemma MessagesOutcomeIgnored(cs: seq<Conversation>, id: string, m1: Outcome<()>, m2: Outcome<()>, rowDeleted: Outcome<()>)
    ensures Delete(cs, id, m1, rowDeleted) == Delete(cs, id, m2, rowDeleted)
  {
  }

  /** After a successful delete the conversation is no longer listed, whatever the search. */
  lemma DeletedNotListed(cs: seq<Conversation>, id: string, m: Outcome<()>, query: string, current: string)
    ensures forall c :: c in Filter(Delete(cs, id, m, Ok(())).conversations, query, current) ==> c.id != id
  {
  }
}

=== FILE: conversation_starters.dfy ===
/**
 * The quick-prompt buttons (src/components/chat/ConversationStarters.tsx):
 * one button per starter of the current assistant, its label shortened to
 * at most 45 characters, sending the full starter when pressed.
 *
 * The assistants' starter lists (src/lib/assistants.ts) are not part of this
 * model; the list of the current assistant, if it has one, is an input.
 */
module ConversationStarters {
  import opened Common

  const MaxLabel: nat := 45
  const KeptPrefix: nat := 42
  const Ellipsis: string := "..."

  /** A button's label: a starter over 45 characters is cut to its first 42 and an ellipsis. */
  function Label(starter: string): (r: string)
    ensures |r| <= MaxLabel
    ensures |starter| > MaxLabel ==> |r| == MaxLabel && r[..KeptPrefix] == starter[..KeptPrefix] && EndsWith(r, Ellipsis)
    ensures |starter| <= MaxLabel ==> r == starter
  {
    if |starter| > MaxLabel then starter[..KeptPrefix] + Ellipsis else starter
  }

  /** A label is its own label: shortening never needs to happen twice. */
  lemma LabelIdempotent(starter: string)
    ensures Label(Label(starter)) == Label(starter)
  {
  }

  /** Two long starters share a label exactly when they share their first 42 characters. */
  lemma LongLabelsCollide(a: string, b: string)
    requires |a| > MaxLabel && |b| > MaxLabel
    ensures Label(a) == Label(b) <==> a[..KeptPrefix] == b[..KeptPrefix]
  {
    if Label(a) == Label(b) {
      assert Label(a)[..KeptPrefix] == Label(b)[..KeptPrefix];
    }
  }

  /** A button: what it shows and what it sends. */
  datatype Button = Button(caption: string, sends: string)

  /**
   * The quick prompts: nothing when the assistant has no starter list or an
   * empty one; otherwise one button per starter, in order.
   */
  function Render(starters: Option<seq<string>>): (r: Option<seq<Button>>)
    ensures r.None? <==> starters.None? || starters.value == []
    ensures r.Some? ==> |r.value| == |starters.value|
    ensures r.Some? ==> forall i :: 0 <= i < |r.value| ==> r.value[i] == Button(Label(starters.value[i]), starters.value[i])
  {
    if starters.None? || starters.value == [] then None
    else Some(seq(|starters.value|, i requires 0 <= i < |starters.value| =>
      Button(Label(starters.value[i]), starters.value[i])))
  }

  /**
   * Pressing the i-th button sends the i-th starter untruncated, while its
   * caption is either that starter or begins with its first 42 characters.
   */
  lemma PressSendsFullStarter(starters: seq<string>, index: nat)
    requires index < |starters|
    ensures Render(Some(starters)).Some?
    ensures Render(Some(starters)).value[index].sends == starters[index]
    ensures var shown := Render(Some(starters)).value[index].caption;
      shown == starters[index] || (|starters[index]| > MaxLabel && shown[..KeptPrefix] <= starters[index])
  {
  }
}

=== FILE: course_viewer.dfy ===
/**
 * The course screen (src/components/training/CourseViewer.tsx): the
 * syllabus, each module's status, and starting a course or completing a
 * module through the progress hook.
 */
module CourseViewer {
  import opened Common
  import opened TrainingProgress

  /** `parseSyllabus`: a JSON array is taken as the list of modules; anything else gives none. */
  function ParseSyllabus(syllabus: Json): (r: seq<Json>)
    ensures syllabus.JArr? ==> r == syllabus.items
    ensures !syllabus.JArr? ==> r == []
  {
    if syllabus.JArr? then syllabus.items else []
  }

  /** The completed modules the screen shows: none without a row, an absent list counting as empty. */
  function CompletedModules(progress: Option<Progress>): (r: seq<int>)
    ensures progress.None? ==> r == []
    ensures progress.Some? ==> r == Completed(progress.value)
  {
    if progress.Some? then Completed(progress.value) else []
  }

  datatype ModuleStatus = Finished | Locked | Open

  /**
   * A module's icon: finished when its index is listed as completed; otherwise
   * locked when the course is not started and it is not the first module.
   */
  function StatusOf(progress: Option<Progress>, index: nat): (r: ModuleStatus)
    ensures r == Finished <==> index in CompletedModules(progress)
    ensures r == Locked <==> progress.None? && index > 0
    ensures index == 0 ==> r != Locked
  {
    if index in CompletedModules(progress) then Finished
    else if progress.None? && index > 0 then Locked
    else Open
  }

  /** "Start Course" shows until the course has a row. */
  predicate ShowsStart(progress: Option<Progress>) {
    progress.None?
  }

  /** "Mark Complete" shows for a started course's modules that are not completed yet. */
  predicate ShowsMarkComplete(progress: Option<Progress>, index: nat) {
    progress.Some? && index !in CompletedModules(progress)
  }

  /** The two buttons never show together, and a completed module never offers "Mark Complete". */
  lemma ButtonsExclusive(progress: Option<Progress>, index: nat)
    ensures !(ShowsStart(progress) && ShowsMarkComplete(progress, index))
    ensures StatusOf(progress, index) == Finished ==> !ShowsMarkComplete(progress, index)
    ensures ShowsMarkComplete(progress, index) ==> StatusOf(progress, index) == Open
  {
  }

  datatype Notice = SignInFirst | StartFirst | Failed | Succeeded

  /** The screen's notice and the progress list after a press. */
  datatype Press = Press(notice: Notice, progress: seq<Progress>)

  /**
   * `handleStartCourse`: anonymous users are asked to sign in and nothing
   * is written; otherwise the course is started and the outcome shown.
   */
  function HandleStartCourse(user: bool, progress: seq<Progress>, courseId: string, inserted: Outcome<string>): (r: Press)
    ensures !user ==> r == Press(SignInFirst, progress)
    ensures user ==> r.progress == StartCourse(true, progress, courseId, inserted).progress
    ensures user ==> (r.notice == Succeeded <==> inserted.Ok?) && (r.notice == Failed <==> inserted.Err?)
  {
    if !user then Press(SignInFirst, progress)
    else
      var c := StartCourse(true, progress, courseId, inserted);
      Press(if c.status == Done then Succeeded else Failed, c.progress)
  }

  /**
   * `handleCompleteModule`: anonymous users are asked to sign in, and a
   * course without a row asks to be started first; otherwise the module is
   * completed and the outcome shown.
   */
  function HandleCompleteModule(user: bool, progress: seq<Progress>, courseId: string, index: nat, db: Outcome<()>): (r: Press)
    ensures !user ==> r == Press(SignInFirst, progress)
    ensures user && ProgressFor(progress, courseId).None? ==> r == Press(StartFirst, progress)
    ensures user && ProgressFor(progress, courseId).Some? ==>
      r.progress == CompleteModule(true, progress, courseId, index, db).progress &&
      (r.notice == Succeeded <==> db.Ok?) && (r.notice == Failed <==> db.Err?)
  {
    if !user then Press(SignInFirst, progress)
    else if ProgressFor(progress, courseId).None? then Press(StartFirst, progress)
    else
      var c := CompleteModule(true, progress, courseId, index, db);
      Press(if c.status == Done then Succeeded else Failed, c.progress)
  }

  /** Past the screen's guards, the hook never reports a missing user or a missing row. */
  lemma GuardsCoverHookErrors(progress: seq<Progress>, courseId: string, index: nat, db: Outcome<()>)
    requires ProgressFor(progress, courseId).Some?
    ensures CompleteModule(true, progress, courseId, index, db).status !in {NotAuthenticated, ProgressNotFound}
  {
  }

  // ---------------------------------------------------------------------------
  // Completion stays within 100% through the screen

  predicate Distinct(xs: seq<int>) {
    forall i, j :: 0 <= i < j < |xs| ==> xs[i] != xs[j]
  }

  /**
   * The screen's own invariant on a course row: its completed modules are
   * distinct indices of the syllabus.
   */
  predicate WellFormed(p: Progress, modules: nat) {
    Distinct(Completed(p)) && forall i :: 0 <= i < |Completed(p)| ==> 0 <= Completed(p)[i] < modules
  }

  /**
   * Completing a module through "Mark Complete" (offered only for a module
   * of the syllabus that is not completed) keeps the row well formed.
   */
  lemma MarkCompleteKeepsWellFormed(progress: seq<Progress>, courseId: string, index: nat, modules: nat)
    requires ProgressFor(progress, courseId).Some?
    requires WellFormed(ProgressFor(progress, courseId).value, modules)
    requires ShowsMarkComplete(ProgressFor(progress, courseId), index) && index < modules
    ensures var after := HandleCompleteModule(true, progress, courseId, index, Ok(())).progress;
      ProgressFor(after, courseId).Some? && WellFormed(ProgressFor(after, courseId).value, modules)
  {
    var p := ProgressFor(progress, courseId).value;
    assert Completed(ModuleCompleted(p, index)) == Completed(p) + [index];
  }

  /** Distinct indices below `n` number at most `n`. */
  lemma {:induction false} DistinctBounded(xs: seq<int>, n: nat)
    requires Distinct(xs)
    requires forall i :: 0 <= i < |xs| ==> 0 <= xs[i] < n
    ensures |xs| <= n
    decreases n
  {
    if |xs| > 0 {
      assert 0 <= xs[0] < n;
      // drop the occurrence of n - 1, if any, and bound the rest by n - 1
      if k :| 0 <= k < |xs| && xs[k] == n - 1 {
        var rest := xs[..k] + xs[k + 1..];
        assert forall i :: 0 <= i < |rest| ==> rest[i] == (if i < k then xs[i] else xs[i + 1]);
        assert forall i :: 0 <= i < |rest| ==> 0 <= rest[i] < n - 1;
        DistinctBounded(rest, n - 1);
      } else {
        assert forall i :: 0 <= i < |xs| ==> 0 <= xs[i] < n - 1;
        DistinctBounded(xs, n - 1);
      }
    }
  }

  /** A well-formed row never shows more than 100% completion. */
  lemma WellFormedWithinHundred(progress: seq<Progress>, courseId: string, modules: nat)
    requires ProgressFor(progress, courseId).Some?
    requires WellFormed(ProgressFor(progress, courseId).value, modules)
    ensures CalculateCompletion(progress, courseId, modules) <= 100
  {
    var p := ProgressFor(progress, courseId).value;
    DistinctBounded(Completed(p), modules);
    if modules > 0 {
      CompletionBounds(progress, courseId, modules);
    }
  }
}

=== FILE: exercise_runner.dfy ===
/**
 * The practice lab screen (src/components/training/ExerciseRunner.tsx):
 * choosing an exercise, checking an answer, hints, and the completed count.
 */
module ExerciseRunner {
  import opened Common
  import opened Exercises
  import Xp

  datatype Verdict = Pass | Fail

  /** The screen's local state. */
  datatype Runner = Runner(
    selected: Option<Exercise>,
    answer: string,
    result: Option<Verdict>,
    showHints: bool,
    hintsRevealed: nat)

  const Fresh: Runner := Runner(None, "", None, false, 0)

  // ---------------------------------------------------------------------------
  // Selection, hints, reset

  /** The first exercise with the given id. */
  function FindExercise(exercises: seq<Exercise>, id: string): (r: Option<Exercise>)
    ensures r.None? <==> forall i :: 0 <= i < |exercises| ==> exercises[i].id != id
    ensures r.Some? ==> r.value in exercises && r.value.id == id
  {
    if |exercises| == 0 then None
    else if exercises[0].id == id then Some(exercises[0])
    else FindExercise(exercises[1..], id)
  }

  /** Until something is chosen, the first exercise of a non-empty list is selected. */
  function AutoSelect(exercises: seq<Exercise>, st: Runner): (r: Runner)
    ensures st.selected.None? && |exercises| > 0 ==> r == st.(selected := Some(exercises[0]))
    ensures st.selected.Some? || |exercises| == 0 ==> r == st
  {
    if |exercises| > 0 && st.selected.None? then st.(selected := Some(exercises[0])) else st
  }

  /**
   * `handleSelectExercise`: a known id selects that exercise and clears the
   * answer, the verdict and the hints; an unknown one changes nothing.
   */
  function SelectExercise(exercises: seq<Exercise>, st: Runner, id: string): (r: Runner)
    ensures FindExercise(exercises, id).None? ==> r == st
    ensures FindExercise(exercises, id).Some? ==>
      r == Runner(FindExercise(exercises, id), "", None, false, 0)
  {
    match FindExercise(exercises, id)
    case None => st
    case Some(ex) => Runner(Some(ex), "", None, false, 0)
  }

  /** The number of hints the selected exercise has (none when nothing is selected or hints are null). */
  function HintCount(selected: Option<Exercise>): nat {
    if selected.Some? && selected.value.hints.Some? then |selected.value.hints.value| else 0
  }

  /** `handleRevealHint`: one more hint, while some remain. */
  function RevealHint(st: Runner): (r: Runner)
    ensures st.hintsRevealed < HintCount(st.selected) ==> r == st.(hintsRevealed := st.hintsRevealed + 1)
    ensures st.hintsRevealed >= HintCount(st.selected) ==> r == st
  {
    if st.selected.Some? && st.selected.value.hints.Some? && st.hintsRevealed < |st.selected.value.hints.value|
    then st.(hintsRevealed := st.hintsRevealed + 1)
    else st
  }

  /** `handleReset`: the answer, verdict and hints are cleared; the selection stays. */
  function Reset(st: Runner): (r: Runner)
    ensures r.selected == st.selected
    ensures r.answer == "" && r.result.None? && !r.showHints && r.hintsRevealed == 0
  {
    Runner(st.selected, "", None, false, 0)
  }

  /** No more hints are revealed than the selected exercise has. */
  predicate HintsWithinBounds(st: Runner) {
    st.hintsRevealed <= HintCount(st.selected)
  }

  /** Every action of the screen keeps the revealed hints within the selected exercise's hints. */
  lemma HintsStayWithinBounds(exercises: seq<Exercise>, st: Runner, id: string)
    requires HintsWithinBounds(st)
    ensures HintsWithinBounds(RevealHint(st))
    ensures HintsWithinBounds(Reset(st))
    ensures HintsWithinBounds(SelectExercise(exercises, st, id))
  {
  }

  // ---------------------------------------------------------------------------
  // Checking an answer

  /** JavaScript truthiness of a JSON value (NaN aside). */
  predicate Truthy(j: Json) {
    match j
    case JNull => false
    case JBool(b) => b
    case JNum(n) => n != 0
    case JStr(s) => s != ""
    case JArr(_) => true
    case JObj(_) => true
  }

  /**
   * `solution?.expected_output || ""` as the string the check compares
   * against. None stands for a truthy value that is not a string, on which
   * the following `trim()` throws.
   */
  function ExpectedOutput(solution: Option<Json>): (r: Option<string>)
    ensures solution.None? ==> r == Some("")
    ensures solution.Some? && solution.value.JObj? && "expected_output" in solution.value.fields &&
            solution.value.fields["expected_output"].JStr? ==>
      r == Some(solution.value.fields["expected_output"].s)
    ensures solution.Some? && !(solution.value.JObj? && "expected_output" in solution.value.fields) ==> r == Some("")
  {
    match solution
    case None => Some("")
    case Some(JObj(fields)) =>
      if "expected_output" !in fields then Some("")
      else
        var v := fields["expected_output"];
        if v.JStr? then Some(v.s)
        else if Truthy(v) then None
        else Some("")
    case Some(_) => Some("")
  }

  /** Answers are compared after trimming and lower-casing both sides. */
  function Normalize(s: string): (r: string)
    ensures |r| <= |s|
    ensures forall i :: 0 <= i < |r| ==> !('A' <= r[i] <= 'Z')
    ensures r == [] || (!IsSpace(r[0]) && !IsSpace(r[|r| - 1]))
  {
    var t := Trim(s);
    LowerKeepsEnds(t);
    ToLower(t)
  }

  /** Lower-casing keeps a text free of white space at its ends. */
  lemma LowerKeepsEnds(t: string)
    requires t == [] || (!IsSpace(t[0]) && !IsSpace(t[|t| - 1]))
    ensures var r := ToLower(t); r == [] || (!IsSpace(r[0]) && !IsSpace(r[|r| - 1]))
  {
    if |t| > 0 {
      assert ToLower(t)[0] == LowerChar(t[0]);
      assert ToLower(t)[|t| - 1] == LowerChar(t[|t| - 1]);
    }
  }

  function Matches(answer: string, expected: string): bool {
    Normalize(answer) == Normalize(expected)
  }

  /** `XP_REWARDS` by difficulty: advanced and intermediate by name, anything else as beginner. */
  function XpForDifficulty(difficulty: string): (r: int)
    ensures difficulty == "advanced" ==> r == Xp.RewardAdvanced
    ensures difficulty == "intermediate" ==> r == Xp.RewardIntermediate
    ensures difficulty != "advanced" && difficulty != "intermediate" ==> r == Xp.RewardBeginner
    ensures r in {50, 100, 200}
  {
    if difficulty == "advanced" then Xp.RewardAdvanced
    else if difficulty == "intermediate" then Xp.RewardIntermediate
    else Xp.RewardBeginner
  }

  /** The score a passing answer is saved with. */
  const PassScore: int := 100

  /** The completion `markComplete` is asked to save. */
  datatype SaveRequest = SaveRequest(exerciseId: string, score: int)

  /** The badge check asked for: the exercise's type and difficulty. */
  datatype BadgeCheck = BadgeCheck(exerciseType: string, difficulty: string)

  /** What one press of "check" does. */
  datatype CheckRun =
    | Skipped
    | Threw
    | Checked(verdict: Verdict, saveRequest: Option<SaveRequest>, xpAwarded: Option<int>, badgeCheck: Option<BadgeCheck>)

  /**
   * `handleCheck`: nothing happens without a selection or with a blank
   * answer. Otherwise the verdict is Pass exactly when the normalised
   * answer equals the normalised expected output; a passing answer of a
   * signed-in user is saved for the selected exercise with score 100, and
   * only once that save succeeds are the difficulty's XP awarded and the
   * badges checked for the exercise's type and difficulty.
   */
  function HandleCheck(user: bool, st: Runner, save: Outcome<()>): (r: CheckRun)
    ensures st.selected.None? || Trim(st.answer) == [] ==> r == Skipped
    ensures st.selected.Some? && Trim(st.answer) != [] ==>
      if ExpectedOutput(st.selected.value.solution).Some? then r.Checked? else r.Threw?
    ensures r.Checked? ==> st.selected.Some? && ExpectedOutput(st.selected.value.solution).Some?
    ensures r.Checked? ==>
      (r.verdict == Pass <==> Matches(st.answer, ExpectedOutput(st.selected.value.solution).value))
    ensures r.Checked? ==> (r.saveRequest.Some? <==> r.verdict == Pass && user)
    ensures r.Checked? && r.saveRequest.Some? ==> r.saveRequest.value == SaveRequest(st.selected.value.id, PassScore)
    ensures r.Checked? ==> (r.xpAwarded.Some? <==> r.saveRequest.Some? && save.Ok?)
    ensures r.Checked? && r.xpAwarded.Some? ==> r.xpAwarded.value == XpForDifficulty(st.selected.value.difficulty)
    ensures r.Checked? ==> (r.badgeCheck.Some? <==> r.xpAwarded.Some?)
    ensures r.Checked? && r.badgeCheck.Some? ==>
      r.badgeCheck.value == BadgeCheck(st.selected.value.exerciseType, st.selected.value.difficulty)
    ensures r.Threw? ==> ExpectedOutput(st.selected.value.solution).None?
  {
    if st.selected.None? || Trim(st.answer) == [] then Skipped
    else
      var ex := st.selected.value;
      match ExpectedOutput(ex.solution)
      case None => Threw
      case Some(expected) =>
        var passed := Matches(st.answer, expected);
        var verdict := if passed then Pass else Fail;
        if passed && user then
          var req := Some(SaveRequest(ex.id, PassScore));
          if save.Ok? then Checked(verdict, req, Some(XpForDifficulty(ex.difficulty)), Some(BadgeCheck(ex.exerciseType, ex.difficulty)))
          else Checked(verdict, req, None, None)
        else Checked(verdict, None, None, None)
  }

  /**
   * A passing check saves through `markComplete`: once that write and the
   * re-read have happened, the exercise is completed with score 100.
   */
  lemma PassIsSavedWithFullScore(st: Runner, cs: seq<Completion>, now: string, stamp: string)
    ensures var c := HandleCheck(true, st, Ok(()));
      c.Checked? && c.verdict == Pass ==>
      var req := c.saveRequest.value;
      var m := MarkComplete(true, cs, req.exerciseId, Some(req.score), now, Ok(()));
      var after := ApplyWrite(cs, m.write.value, stamp);
      && req.exerciseId == st.selected.value.id
      && IsCompleted(after, req.exerciseId)
      && GetCompletion(after, req.exerciseId).value.score == Some(PassScore)
  {
    var c := HandleCheck(true, st, Ok(()));
    if c.Checked? && c.verdict == Pass {
      var req := c.saveRequest.value;
      MarkCompleteThenCompleted(cs, req.exerciseId, Some(req.score), now, stamp);
    }
  }

  /**
   * Without a stored solution no answer passes: the expected output is "",
   * a blank answer is skipped, and a non-blank one is checked and fails,
   * since it never normalises to "".
   */
  lemma NoSolutionNeverPasses(user: bool, st: Runner, save: Outcome<()>)
    requires st.selected.Some? && st.selected.value.solution.None?
    ensures HandleCheck(user, st, save) == Skipped || HandleCheck(user, st, save).verdict == Fail
    ensures Trim(st.answer) != [] ==>
      HandleCheck(user, st, save).Checked? && HandleCheck(user, st, save).verdict == Fail
  {
    if Trim(st.answer) != [] {
      assert Normalize("") == [];
      assert |Normalize(st.answer)| == |Trim(st.answer)| > 0;
    }
  }

  /** Changing the case of the answer's letters does not change the verdict. */
  lemma CheckIgnoresCase(answer: string, expected: string)
    ensures Matches(ToLower(answer), expected) == Matches(answer, expected)
  {
    TrimToLowerCommute(answer);
    ToLowerIdempotent(Trim(answer));
  }

  /** Lower-casing and trimming commute, since lower-casing keeps white space as it is. */
  lemma {:induction false} TrimToLowerCommute(s: string)
    ensures Trim(ToLower(s)) == ToLower(Trim(s))
  {
    TrimStartToLower(s);
    TrimEndToLower(TrimStart(s));
  }

  lemma {:induction false} TrimStartToLower(s: string)
    ensures TrimStart(ToLower(s)) == ToLower(TrimStart(s))
    decreases |s|
  {
    if |s| > 0 {
      var t := ToLower(s);
      assert t[1..] == ToLower(s[1..]);
      assert IsSpace(t[0]) <==> IsSpace(s[0]);
      if IsSpace(s[0]) {
        TrimStartToLower(s[1..]);
      }
    }
  }

  lemma {:induction false} TrimEndToLower(s: string)
    ensures TrimEnd(ToLower(s)) == ToLower(TrimEnd(s))
    decreases |s|
  {
    if |s| > 0 {
      var t := ToLower(s);
      assert t[..|s| - 1] == ToLower(s[..|s| - 1]);
      assert IsSpace(t[|s| - 1]) <==> IsSpace(s[|s| - 1]);
      if IsSpace(s[|s| - 1]) {
        TrimEndToLower(s[..|s| - 1]);
      }
    }
  }

  // ---------------------------------------------------------------------------
  // Completed count

  /** The positions of the exercises the user has completed. */
  function CompletedPositions(exercises: seq<Exercise>, cs: seq<Completion>): set<int> {
    set i | 0 <= i < |exercises| && IsCompleted(cs, exercises[i].id)
  }

  /** The exercises the user has completed, in list order: one entry per completed position. */
  function CompletedExercises(exercises: seq<Exercise>, cs: seq<Completion>): (r: seq<Exercise>)
    ensures |r| == |CompletedPositions(exercises, cs)|
    ensures |r| <= |exercises|
    ensures forall e :: e in r <==> e in exercises && IsCompleted(cs, e.id)
    ensures |r| == |exercises| <==> forall i :: 0 <= i < |exercises| ==> IsCompleted(cs, exercises[i].id)
    ensures |r| == 0 <==> forall i :: 0 <= i < |exercises| ==> !IsCompleted(cs, exercises[i].id)
    ensures |exercises| == 1 ==> r == if IsCompleted(cs, exercises[0].id) then exercises else []
  {
    if |exercises| == 0 then []
    else
      var n := |exercises| - 1;
      CompletedPositionsSnoc(exercises, cs);
      CompletedExercises(exercises[..n], cs) + (if IsCompleted(cs, exercises[n].id) then [exercises[n]] else [])
  }

  /** The completed exercises of two lists in turn: those of the first, then those of the second, so list order is kept. */
  lemma {:induction false} CompletedAppend(a: seq<Exercise>, b: seq<Exercise>, cs: seq<Completion>)
    ensures CompletedExercises(a + b, cs) == CompletedExercises(a, cs) + CompletedExercises(b, cs)
    decreases |b|
  {
    if |b| > 0 {
      var b', x := b[..|b| - 1], b[|b| - 1];
      var last := if IsCompleted(cs, x.id) then [x] else [];
      assert (a + b)[..|a + b| - 1] == a + b';
      assert (a + b)[|a + b| - 1] == x;
      calc {
        CompletedExercises(a + b, cs);
        CompletedExercises(a + b', cs) + last;
        { CompletedAppend(a, b', cs); }
        CompletedExercises(a, cs) + CompletedExercises(b', cs) + last;
        CompletedExercises(a, cs) + CompletedExercises(b, cs);
      }
    } else {
      assert a + b == a;
    }
  }

  /** Adding an exercise at the end adds its position when it is completed. */
  lemma CompletedPositionsSnoc(exercises: seq<Exercise>, cs: seq<Completion>)
    requires |exercises| > 0
    ensures var n := |exercises| - 1;
      && |CompletedPositions(exercises, cs)| ==
           |CompletedPositions(exercises[..n], cs)| + (if IsCompleted(cs, exercises[n].id) then 1 else 0)
      && exercises == exercises[..n] + [exercises[n]]
      && (forall i :: 0 <= i < n ==> exercises[..n][i] == exercises[i])
  {
    var n := |exercises| - 1;
    assert forall i :: 0 <= i < n ==> exercises[..n][i] == exercises[i];
    assert CompletedPositions(exercises, cs) ==
      CompletedPositions(exercises[..n], cs) + (if IsCompleted(cs, exercises[n].id) then {n} else {});
  }

  /**
   * The "done / total Complete" counter: done counts the completed
   * exercises of the list, so it is at most the total, 0 exactly when none
   * is completed and the total exactly when all are.
   */
  function CompletedCounter(exercises: seq<Exercise>, cs: seq<Completion>): (r: (nat, nat))
    ensures r.1 == |exercises|
    ensures r.0 == |set i | 0 <= i < |exercises| && IsCompleted(cs, exercises[i].id)|
    ensures r.0 <= r.1
    ensures r.0 == r.1 <==> forall i :: 0 <= i < |exercises| ==> IsCompleted(cs, exercises[i].id)
    ensures r.0 == 0 <==> forall i :: 0 <= i < |exercises| ==> !IsCompleted(cs, exercises[i].id)
  {
    (|CompletedExercises(exercises, cs)|, |exercises|)
  }
}

=== FILE: exercises.dfy ===
/**
 * Practice exercises and the user's completions (src/hooks/useExercises.ts).
 *
 * Writes are returned as values; the backend's answer to each is an input
 * outcome, and `ApplyWrite` is the effect a successful write has on the
 * stored completions, which the hook reads back afterwards.
 */
module Exercises {
  import opened Common

  /** A `practice_exercises` row; `content` and `solution` stay JSON (the hook casts them unchecked). */
  datatype Exercise = Exercise(
    id: string,
    title: string,
    description: string,
    exerciseType: string,
    difficulty: string,
    hints: Option<seq<string>>,
    content: Json,
    solution: Option<Json>)

  /** A completion as the hook selects it; `attempts` and `score` are nullable columns. */
  datatype Completion = Completion(exerciseId: string, completedAt: string, attempts: Option<int>, score: Option<int>)

  /** The write `markComplete` issues. */
  datatype Write =
    | UpdateCompletion(exerciseId: string, attempts: int, score: Option<int>, completedAt: string)
    | InsertCompletion(exerciseId: string, attempts: int, score: Option<int>)

  datatype MarkError = NotAuthenticated | WriteFailed

  /** The write issued (if any) and the error reported (if any). */
  datatype Marked = Marked(write: Option<Write>, error: Option<MarkError>)

  /** The exercise list and whether its last read failed. */
  datatype ExerciseList = ExerciseList(exercises: seq<Exercise>, failed: bool)

  /**
   * `fetchExercises`: the rows read, in the order the backend returns them,
   * become the list, each kept field for field (content and solution are
   * only retyped); a failed read keeps the list and records the error. A
   * successful read never clears an earlier error.
   */
  function FetchExercises(prev: ExerciseList, rows: Outcome<seq<Exercise>>): (r: ExerciseList)
    ensures rows.Ok? ==> |r.exercises| == |rows.data|
    ensures rows.Ok? ==> forall i :: 0 <= i < |rows.data| ==> r.exercises[i] == rows.data[i]
    ensures rows.Ok? ==> r.failed == prev.failed
    ensures rows.Err? ==> r.failed && r.exercises == prev.exercises
  {
    match rows
    case Ok(data) => prev.(exercises := data)
    case Err => prev.(failed := true)
  }

  /** Any run of fetches from a given list: the list and error flag left behind. */
  function FetchAll(prev: ExerciseList, results: seq<Outcome<seq<Exercise>>>): ExerciseList
    decreases |results|
  {
    if |results| == 0 then prev else FetchAll(FetchExercises(prev, results[0]), results[1..])
  }

  /**
   * Once a read has failed the error stays reported through any later
   * reads, successful or not; with no failure it is never reported.
   */
  lemma {:induction false} FetchErrorSticks(prev: ExerciseList, results: seq<Outcome<seq<Exercise>>>)
    ensures FetchAll(prev, results).failed <==> prev.failed || exists i :: 0 <= i < |results| && results[i].Err?
    decreases |results|
  {
    if |results| > 0 {
      FetchErrorSticks(FetchExercises(prev, results[0]), results[1..]);
      assert forall i :: 1 <= i < |results| ==> results[i] == results[1..][i - 1];
      if exists i :: 0 <= i < |results| && results[i].Err? {
        var i :| 0 <= i < |results| && results[i].Err?;
        if i > 0 { assert results[1..][i - 1].Err?; }
      }
    }
  }

  /**
   * `fetchCompletions`: without a user the list empties; otherwise the
   * rows read replace it, and a failed read leaves it as it was.
   */
  function FetchCompletions(user: bool, prev: seq<Completion>, rows: Outcome<seq<Completion>>): (r: seq<Completion>)
    ensures !user ==> r == []
    ensures user && rows.Ok? ==> r == rows.data
    ensures user && rows.Err? ==> r == prev
  {
    if !user then []
    else match rows
      case Ok(data) => data
      case Err => prev
  }

  /** `getCompletion`: the first completion of the exercise. */
  function GetCompletion(cs: seq<Completion>, exerciseId: string): (r: Option<Completion>)
    ensures r.None? <==> forall i :: 0 <= i < |cs| ==> cs[i].exerciseId != exerciseId
    ensures r.Some? ==> r.value in cs && r.value.exerciseId == exerciseId
    ensures r.Some? ==> exists i :: 0 <= i < |cs| && cs[i] == r.value &&
                          forall j :: 0 <= j < i ==> cs[j].exerciseId != exerciseId
  {
    if |cs| == 0 then None
    else if cs[0].exerciseId == exerciseId then Some(cs[0])
    else
      var r := GetCompletion(cs[1..], exerciseId);
      assert r.Some? ==> exists i :: 0 <= i < |cs| && cs[i] == r.value &&
                          forall j :: 0 <= j < i ==> cs[j].exerciseId != exerciseId by {
        if r.Some? {
          var i :| 0 <= i < |cs[1..]| && cs[1..][i] == r.value &&
                   forall j :: 0 <= j < i ==> cs[1..][j].exerciseId != exerciseId;
          assert cs[i + 1] == r.value;
          assert forall j :: 1 <= j < i + 1 ==> cs[j] == cs[1..][j - 1];
        }
      }
      r
  }

  /** `isCompleted`: some completion is for the exercise. */
  predicate IsCompleted(cs: seq<Completion>, exerciseId: string) {
    exists i :: 0 <= i < |cs| && cs[i].exerciseId == exerciseId
  }

  /** An exercise is completed exactly when it has a completion to show. */
  lemma IsCompletedIffCompletion(cs: seq<Completion>, exerciseId: string)
    ensures IsCompleted(cs, exerciseId) <==> GetCompletion(cs, exerciseId).Some?
  {
  }

  /** `attempts + 1` in JavaScript, where a null count adds up to 1. */
  function NextAttempt(attempts: Option<int>): (r: int)
    ensures attempts.None? ==> r == 1
    ensures attempts.Some? ==> r == attempts.value + 1
  {
    if attempts.Some? then attempts.value + 1 else 1
  }

  /**
   * `markComplete`: without a user nothing is written. A completed
   * exercise gets its attempts raised by one, the given score (or its old
   * one when none is given) and the current time; a new one is inserted
   * with one attempt and the given score, if any. A failed write is
   * reported.
   */
  function MarkComplete(user: bool, cs: seq<Completion>, exerciseId: string, score: Option<int>,
                        now: string, db: Outcome<()>): (r: Marked)
    ensures !user ==> r == Marked(None, Some(NotAuthenticated))
    ensures user ==> r.write.Some? && r.write.value.exerciseId == exerciseId
    ensures user ==> (r.error.None? <==> db.Ok?) && (r.error.Some? ==> r.error == Some(WriteFailed))
    ensures user && GetCompletion(cs, exerciseId).Some? ==>
      var old_ := GetCompletion(cs, exerciseId).value;
      r.write == Some(UpdateCompletion(exerciseId, NextAttempt(old_.attempts),
                                       if score.Some? then score else old_.score, now))
    ensures user && !IsCompleted(cs, exerciseId) ==> r.write == Some(InsertCompletion(exerciseId, 1, score))
  {
    if !user then Marked(None, Some(NotAuthenticated))
    else
      var w := match GetCompletion(cs, exerciseId)
        case Some(existing) =>
          UpdateCompletion(exerciseId, NextAttempt(existing.attempts), if score.Some? then score else existing.score, now)
        case None => InsertCompletion(exerciseId, 1, score);
      Marked(Some(w), if db.Ok? then None else Some(WriteFailed))
  }

  /**
   * The stored completions after a successful write: an update rewrites
   * every row of the exercise with the new attempts, score and time and
   * leaves the other rows alone, an insert adds one (stamped by the backend
   * with `stamp`).
   */
  function ApplyWrite(cs: seq<Completion>, w: Write, stamp: string): (r: seq<Completion>)
    ensures w.UpdateCompletion? ==> |r| == |cs|
    ensures w.UpdateCompletion? ==> forall i :: 0 <= i < |cs| && cs[i].exerciseId != w.exerciseId ==> r[i] == cs[i]
    ensures w.UpdateCompletion? ==> forall i :: 0 <= i < |cs| && cs[i].exerciseId == w.exerciseId ==>
      r[i] == Completion(w.exerciseId, w.completedAt, Some(w.attempts), w.score)
    ensures w.InsertCompletion? ==> r == cs + [Completion(w.exerciseId, stamp, Some(w.attempts), w.score)]
  {
    match w
    case UpdateCompletion(id, attempts, score, at) =>
      seq(|cs|, i requires 0 <= i < |cs| =>
        if cs[i].exerciseId == id then Completion(id, at, Some(attempts), score) else cs[i])
    case InsertCompletion(id, attempts, score) =>
      cs + [Completion(id, stamp, Some(attempts), score)]
  }

  /**
   * After a successful `markComplete` and the re-read that follows it, the
   * exercise is completed, its attempts count one more than before (one for
   * a first completion), and its score is the given one or, when none is
   * given, the one it had.
   */
  lemma MarkCompleteThenCompleted(cs: seq<Completion>, exerciseId: string, score: Option<int>, now: string, stamp: string)
    ensures var m := MarkComplete(true, cs, exerciseId, score, now, Ok(()));
      var after := ApplyWrite(cs, m.write.value, stamp);
      var prev := GetCompletion(cs, exerciseId);
      && IsCompleted(after, exerciseId)
      && GetCompletion(after, exerciseId).value.attempts ==
           Some(if prev.Some? then NextAttempt(prev.value.attempts) else 1)
      && GetCompletion(after, exerciseId).value.score ==
           (if score.Some? then score else if prev.Some? then prev.value.score else None)
  {
    var m := MarkComplete(true, cs, exerciseId, score, now, Ok(()));
    var after := ApplyWrite(cs, m.write.value, stamp);
    var prev := GetCompletion(cs, exerciseId);
    if prev.Some? {
      var i :| 0 <= i < |cs| && cs[i] == prev.value;
      assert after[i].exerciseId == exerciseId;
    } else {
      assert after[|cs|].exerciseId == exerciseId;
    }
  }
}

=== FILE: install_banner.dfy ===
/**
 * The install banner (src/components/ui/pwa-install-banner.tsx): whether a
 * dismissal from the last 24 hours is on record, which platform the user
 * agent names, which banner (if any) shows, and what dismissing and
 * installing store.
 *
 * The install hook (src/hooks/usePWA.ts) is not part of this model; its
 * `isInstallable` and `isInstalled` flags are inputs. Local storage is the
 * stored value passed in and the value written returned; the clock is the
 * `now` argument, in milliseconds.
 */
module InstallBanner {
  import opened Common

  const DismissedKey: string := "pwa_banner_dismissed"

  /** `24 * 60 * 60 * 1000` */
  const DismissPeriod: int := 86400000

  // ---------------------------------------------------------------------------
  // Decimal text

  predicate IsDigit(c: char) {
    '0' <= c <= '9'
  }

  predicate AllDigits(s: string) {
    forall i :: 0 <= i < |s| ==> IsDigit(s[i])
  }

  function DigitValue(c: char): (r: nat)
    requires IsDigit(c)
    ensures r < 10
  {
    (c as int) - ('0' as int)
  }

  function DigitChar(d: nat): (r: char)
    requires d < 10
    ensures IsDigit(r) && DigitValue(r) == d
  {
    (('0' as int) + d) as char
  }

  /** The number a run of decimal digits denotes. */
  function Value(s: string): (r: nat)
    requires AllDigits(s)
  {
    if |s| == 0 then 0 else Value(s[..|s| - 1]) * 10 + DigitValue(s[|s| - 1])
  }

  /** The longest run of digits at the start of `s`. */
  function LeadingDigits(s: string): (r: string)
    ensures r <= s && AllDigits(r)
    ensures |r| == |s| || !IsDigit(s[|r|])
  {
    if |s| > 0 && IsDigit(s[0]) then [s[0]] + LeadingDigits(s[1..]) else []
  }

  /**
   * `parseInt(s, 10)`: leading white space skipped, an optional sign, then
   * the longest run of digits; no digits gives NaN, modelled as `None`.
   */
  function ParseInt(s: string): (r: Option<int>)
    ensures r.None? <==> LeadingDigits(Unsigned(TrimStart(s))) == []
    ensures r.Some? && Sign(TrimStart(s)) == 1 ==> r.value >= 0
  {
    var t := TrimStart(s);
    var digits := LeadingDigits(Unsigned(t));
    if digits == [] then None else Some(Sign(t) * Value(digits))
  }

  /** The text after a leading sign, if there is one. */
  function Unsigned(t: string): (r: string)
    ensures r == t || (|t| > 0 && (t[0] == '+' || t[0] == '-') && r == t[1..])
  {
    if |t| > 0 && (t[0] == '+' || t[0] == '-') then t[1..] else t
  }

  function Sign(t: string): (r: int)
    ensures r == -1 <==> |t| > 0 && t[0] == '-'
    ensures r == 1 || r == -1
  {
    if |t| > 0 && t[0] == '-' then -1 else 1
  }

  /** `n.toString()` for a non-negative integer: its decimal digits, without leading zeros. */
  function NatToString(n: nat): (r: string)
    ensures |r| > 0 && AllDigits(r)
    ensures Value(r) == n
    ensures r[0] != '0' || n == 0
  {
    if n < 10 then [DigitChar(n)]
    else
      var init := NatToString(n / 10);
      var r := init + [DigitChar(n % 10)];
      assert r[..|r| - 1] == init;
      r
  }

  /** The run of digits at the start of a digit string is all of it. */
  lemma {:induction false} LeadingDigitsAll(s: string)
    requires AllDigits(s)
    ensures LeadingDigits(s) == s
  {
    if |s| > 0 {
      LeadingDigitsAll(s[1..]);
    }
  }

  /** Reading back a stored time gives that time. */
  lemma ParseIntNatToString(n: nat)
    ensures ParseInt(NatToString(n)) == Some(n)
  {
    var s := NatToString(n);
    assert !IsSpace(s[0]) && s[0] != '+' && s[0] != '-';
    assert TrimStart(s) == s;
    LeadingDigitsAll(s);
  }

  // ---------------------------------------------------------------------------
  // The banner

  /** The value stored under the key is a dismissal still in force: it parses and is under a day old. */
  function DismissedAt(stored: Option<string>, now: int): (r: bool)
    ensures r <==> stored.Some? && stored.value != [] && ParseInt(stored.value).Some? &&
                   now - ParseInt(stored.value).value < DismissPeriod
    ensures stored.Some? && ParseInt(stored.value).None? ==> !r
  {
    if stored.None? || stored.value == [] then false
    else match ParseInt(stored.value)
      case None => false
      case Some(t) => now - t < DismissPeriod
  }

  datatype Platform = Android | Ios | Desktop

  /** The platform the lowercased user agent names, android checked first. */
  function DetectPlatform(userAgent: string): (r: Platform)
    ensures var ua := ToLower(userAgent);
      && (r == Android <==> Contains(ua, "android"))
      && (r == Ios <==> !Contains(ua, "android") && (Contains(ua, "iphone") || Contains(ua, "ipad") || Contains(ua, "ipod")))
  {
    var ua := ToLower(userAgent);
    if Contains(ua, "android") then Android
    else if Contains(ua, "iphone") || Contains(ua, "ipad") || Contains(ua, "ipod") then Ios
    else Desktop
  }

  /** The banner's own state once its mount effect has run. */
  datatype Banner = Banner(isDismissed: bool, platform: Platform)

  /** The mount effect: the stored dismissal is checked against the clock and the platform detected. */
  function Mount(stored: Option<string>, now: int, userAgent: string): (r: Banner)
    ensures r.isDismissed == DismissedAt(stored, now)
    ensures r.platform == DetectPlatform(userAgent)
  {
    Banner(DismissedAt(stored, now), DetectPlatform(userAgent))
  }

  datatype View = Hidden | IosInstructions | InstallPrompt(platform: Platform)

  /**
   * What renders: nothing once installed or dismissed; the share-sheet
   * instructions on iOS, installable or not; elsewhere the install prompt,
   * only when the browser offered installation.
   */
  function Render(b: Banner, isInstallable: bool, isInstalled: bool): (r: View)
    ensures isInstalled || b.isDismissed ==> r == Hidden
    ensures !isInstalled && !b.isDismissed && b.platform == Ios ==> r == IosInstructions
    ensures !isInstalled && !b.isDismissed && b.platform != Ios ==>
      (r == Hidden <==> !isInstallable) && (r != Hidden ==> r == InstallPrompt(b.platform))
  {
    if isInstalled || b.isDismissed then Hidden
    else if b.platform == Ios then IosInstructions
    else if !isInstallable then Hidden
    else InstallPrompt(b.platform)
  }

  /** The banner after a press, and the value it writes to local storage. */
  datatype Pressed = Pressed(banner: Banner, stored: string)

  /** `handleDismiss`: the current time is stored and the banner hides. */
  function HandleDismiss(b: Banner, now: nat): (r: Pressed)
    ensures r.banner == b.(isDismissed := true)
    ensures ParseInt(r.stored) == Some(now)
  {
    ParseIntNatToString(now);
    Pressed(b.(isDismissed := true), NatToString(now))
  }

  /** `handleInstall`: the install prompt runs, and the banner is dismissed afterwards whatever the user chose. */
  function HandleInstall(b: Banner, now: nat, accepted: bool): (r: Pressed)
    ensures r == HandleDismiss(b, now)
    ensures Render(r.banner, true, false) == Hidden
  {
    HandleDismiss(b, now)
  }

  /**
   * A dismissal at `t` keeps the banner hidden on every later mount before
   * `t` plus one day, and no longer from then on.
   */
  lemma DismissalLastsOneDay(b: Banner, t: nat, later: int, userAgent: string, isInstallable: bool)
    ensures var stored := Some(HandleDismiss(b, t).stored);
      (Mount(stored, later, userAgent).isDismissed <==> later < t + DismissPeriod) &&
      (later < t + DismissPeriod ==> Render(Mount(stored, later, userAgent), isInstallable, false) == Hidden)
  {
    ParseIntNatToString(t);
  }

  /** An unreadable stored value never hides the banner. */
  lemma GarbageDoesNotDismiss(stored: string, now: int)
    requires LeadingDigits(Unsigned(TrimStart(stored))) == []
    ensures !DismissedAt(Some(stored), now)
  {
  }

  /** A user agent naming both Android and an iPhone is taken as Android. */
  lemma AndroidWins(userAgent: string)
    requires Contains(ToLower(userAgent), "android")
    ensures DetectPlatform(userAgent) == Android
  {
  }
}

=== FILE: level_badges.dfy ===
/**
 * The badge gallery (src/components/features/LevelBadges.tsx): every
 * defined badge, marked earned or not, earned ones first and then by name,
 * with an earned-of-all counter.
 */
module LevelBadges {
  import opened Common
  import Xp

  /** One gallery card. */
  datatype Entry = Entry(def: Xp.BadgeDef, earned: bool, earnedAt: Option<string>)

  /** The first held badge with the given id. */
  function FirstHeld(badges: seq<Xp.Badge>, id: string): (r: Option<Xp.Badge>)
    ensures r.None? <==> id !in Xp.Ids(badges)
    ensures r.Some? ==> r.value in badges && r.value.id == id
    ensures r.Some? ==> exists i :: 0 <= i < |badges| && badges[i] == r.value &&
                                    forall j :: 0 <= j < i ==> badges[j].id != id
  {
    match FirstIndex(badges, id, 0)
    case None => None
    case Some(i) => Some(badges[i])
  }

  /** The first position from `k` on that holds a badge with the given id, as `find` scans. */
  function FirstIndex(badges: seq<Xp.Badge>, id: string, k: nat): (r: Option<nat>)
    requires k <= |badges|
    ensures r.Some? ==> k <= r.value < |badges| && badges[r.value].id == id &&
                        forall j :: k <= j < r.value ==> badges[j].id != id
    ensures r.None? ==> forall j :: k <= j < |badges| ==> badges[j].id != id
    decreases |badges| - k
  {
    if k == |badges| then None
    else if badges[k].id == id then Some(k)
    else FirstIndex(badges, id, k + 1)
  }

  /** The card of one definition: earned when a held badge has its id, with that badge's date. */
  function EntryFor(badges: seq<Xp.Badge>, def: Xp.BadgeDef): (r: Entry)
    ensures r.def == def
    ensures r.earned <==> def.id in Xp.Ids(badges)
    ensures r.earnedAt.Some? <==> r.earned
    ensures r.earned ==> r.earnedAt == Some(FirstHeld(badges, def.id).value.earnedAt)
    ensures r.earned ==>
      exists i :: 0 <= i < |badges| && badges[i].id == def.id && r.earnedAt == Some(badges[i].earnedAt) &&
                  forall j :: 0 <= j < i ==> badges[j].id != def.id
  {
    var held := FirstHeld(badges, def.id);
    Entry(def, held.Some?, if held.Some? then Some(held.value.earnedAt) else None)
  }

  /** The cards in definition order, before sorting. */
  function Entries(badges: seq<Xp.Badge>): (r: seq<Entry>)
    ensures |r| == |Xp.BadgeDefinitions|
    ensures forall i :: 0 <= i < |r| ==> r[i] == EntryFor(badges, Xp.BadgeDefinitions[i])
  {
    seq(|Xp.BadgeDefinitions|, i requires 0 <= i < |Xp.BadgeDefinitions| => EntryFor(badges, Xp.BadgeDefinitions[i]))
  }

  // ---------------------------------------------------------------------------
  // Ordering

  /** Names compared character by character (code-point order). */
  predicate LexLe(a: string, b: string) {
    |a| == 0 || (|b| > 0 && (a[0] < b[0] || (a[0] == b[0] && LexLe(a[1..], b[1..]))))
  }

  lemma {:induction false} LexLeTotal(a: string, b: string)
    ensures LexLe(a, b) || LexLe(b, a)
  {
    if |a| > 0 && |b| > 0 && a[0] == b[0] {
      LexLeTotal(a[1..], b[1..]);
    }
  }

  /** The comparator's "not after": earned cards before unearned ones, then names in order. */
  predicate Before(a: Entry, b: Entry) {
    (a.earned && !b.earned) || (a.earned == b.earned && LexLe(a.def.name, b.def.name))
  }

  lemma BeforeTotal(a: Entry, b: Entry)
    ensures Before(a, b) || Before(b, a)
  {
    LexLeTotal(a.def.name, b.def.name);
  }

  predicate Sorted(s: seq<Entry>) {
    forall i :: 0 <= i < |s| - 1 ==> Before(s[i], s[i + 1])
  }

  function Insert(x: Entry, s: seq<Entry>): (r: seq<Entry>)
    requires Sorted(s)
    ensures Sorted(r)
    ensures multiset(r) == multiset(s) + multiset{x}
    ensures |r| == |s| + 1
    ensures r[0] == x || (|s| > 0 && r[0] == s[0])
  {
    if |s| == 0 then [x]
    else if Before(x, s[0]) then [x] + s
    else
      BeforeTotal(x, s[0]);
      var rest := Insert(x, s[1..]);
      assert s == [s[0]] + s[1..];
      [s[0]] + rest
  }

  /**
   * The sorted gallery: the same cards, ordered by the comparator (a
   * stable sort; every comparison the sort makes is modelled by `Before`).
   */
  function SortEntries(s: seq<Entry>): (r: seq<Entry>)
    ensures Sorted(r)
    ensures multiset(r) == multiset(s)
    ensures |r| == |s|
  {
    if |s| == 0 then []
    else
      assert s == [s[0]] + s[1..];
      Insert(s[0], SortEntries(s[1..]))
  }

  /** In a sorted gallery every earned card comes before every unearned one. */
  lemma {:induction false} EarnedFirst(s: seq<Entry>)
    requires Sorted(s)
    ensures forall i, j :: 0 <= i < j < |s| && s[j].earned ==> s[i].earned
  {
    if |s| > 1 {
      EarnedFirst(s[1..]);
      forall i, j | 0 <= i < j < |s| && s[j].earned ensures s[i].earned {
        if i > 0 {
          assert s[1..][i - 1] == s[i] && s[1..][j - 1] == s[j];
        } else if j > 1 {
          assert s[1..][0] == s[1] && s[1..][j - 1] == s[j];
        }
      }
    }
  }

  /** The gallery as shown: one card per definition, earned ones first, and the counter. */
  datatype Gallery = Gallery(cards: seq<Entry>, held: nat, total: nat)

  /**
   * The gallery: the definitions' cards sorted; the counter shows the number
   * of held badges over the number of definitions.
   */
  function Render(badges: seq<Xp.Badge>): (r: Gallery)
    ensures multiset(r.cards) == multiset(Entries(badges))
    ensures Sorted(r.cards)
    ensures forall i, j :: 0 <= i < j < |r.cards| && r.cards[j].earned ==> r.cards[i].earned
    ensures r.held == |badges| && r.total == |Xp.BadgeDefinitions| == 8
  {
    var cards := SortEntries(Entries(badges));
    EarnedFirst(cards);
    Gallery(cards, |badges|, |Xp.BadgeDefinitions|)
  }

  /** Every definition has exactly one card, and it says whether that badge is held. */
  lemma EveryDefinitionShown(badges: seq<Xp.Badge>, k: nat)
    requires k < |Xp.BadgeDefinitions|
    ensures EntryFor(badges, Xp.BadgeDefinitions[k]) in Render(badges).cards
  {
    var e := Entries(badges);
    assert e[k] in multiset(e);
  }

  /** A list of distinct ids holds as many ids as its length. */
  lemma {:induction false} DistinctSetSize(xs: seq<string>)
    requires forall i, j :: 0 <= i < j < |xs| ==> xs[i] != xs[j]
    ensures |set x | x in xs| == |xs|
  {
    if |xs| > 0 {
      var rest := xs[1..];
      DistinctSetSize(rest);
      assert xs[0] !in rest by {
        forall k | 0 <= k < |rest| ensures rest[k] != xs[0] {
          assert rest[k] == xs[k + 1];
        }
      }
      assert (set x | x in xs) == {xs[0]} + (set x | x in rest);
    }
  }

  /** A list never holds more distinct ids than its length. */
  lemma {:induction false} SetSizeAtMost(xs: seq<string>)
    ensures |set x | x in xs| <= |xs|
  {
    if |xs| > 0 {
      SetSizeAtMost(xs[1..]);
      assert (set x | x in xs) == {xs[0]} + (set x | x in xs[1..]);
    }
  }

  /**
   * For badges held once each and all defined (what awarding keeps), the
   * counter never shows more held badges than there are definitions.
   */
  lemma CounterWithinTotal(badges: seq<Xp.Badge>)
    requires Xp.UniqueIds(badges)
    requires forall i :: 0 <= i < |badges| ==> Xp.FindDef(badges[i].id).Some?
    ensures Render(badges).held <= Render(badges).total
  {
    var ids := Xp.Ids(badges);
    DistinctSetSize(ids);
    SetSizeAtMost(Xp.BadgeIds());
    var a := set x | x in ids;
    var b := set x | x in Xp.BadgeIds();
    forall x | x in a ensures x in b {
      var k :| 0 <= k < |ids| && ids[k] == x;
      Xp.FindDefIff(badges[k].id);
    }
    assert b == a + (b - a);
  }
}

=== FILE: offline_ai.dfy ===
/**
 * The in-browser fallback model (src/lib/offlineAI.ts): the load guard and
 * loading flag, the chat framing of the prompt, and the extraction of the
 * answer from the generated text.
 *
 * The model itself (the transformers pipeline) is outside the model: loading
 * it and running it are outcomes passed in.
 */
module OfflineAI {
  import opened Common

  /** A loaded text generator, known only by name. */
  datatype Generator = Generator(name: string)

  /** The module-level state: the generator, once loaded, and whether a load is under way. */
  datatype Engine = Engine(generator: Option<Generator>, isLoading: bool)

  const Unloaded: Engine := Engine(None, false)

  const DefaultSystemPrompt: string :=
    "You are DarkBERT, an AI assistant in Lady Violet's Cyberpunk Cafe. Be helpful, creative, and technically precise. Keep responses concise but informative. Follow lawful and ethical guidelines; decline harmful or illegal instructions."

  const Apology: string := "I apologize, but I encountered an issue processing your request."

  const SystemTag: string := "<|system|>"
  const UserTag: string := "<|end|><|user|>"
  const EndTag: string := "<|end|>"
  const Marker: string := "<|assistant|>"

  // ---------------------------------------------------------------------------
  // Loading

  /**
   * A call of `initializeOfflineModel`: whether it started a load, the state
   * while the load runs, the state afterwards, what it returned, and whether
   * it threw.
   */
  datatype Init = Init(loadStarted: bool, during: Engine, after: Engine, returned: Option<Generator>, threw: bool)

  /**
   * `initializeOfflineModel`: with a generator loaded or a load under way it
   * returns the current generator (none while loading) and changes nothing;
   * otherwise it loads with the loading flag raised, and lowers the flag
   * afterwards whether the load succeeded or threw.
   */
  function Initialize(e: Engine, load: Outcome<Generator>): (r: Init)
    ensures e.generator.Some? || e.isLoading ==>
      !r.loadStarted && r.during == e && r.after == e && r.returned == e.generator && !r.threw
    ensures e.generator.None? && !e.isLoading ==>
      r.loadStarted && r.during == Engine(None, true) && !r.after.isLoading
    ensures e.generator.None? && !e.isLoading && load.Ok? ==>
      r.after.generator == Some(load.data) && r.returned == Some(load.data) && !r.threw
    ensures e.generator.None? && !e.isLoading && load.Err? ==>
      r.after == Unloaded && r.returned.None? && r.threw
  {
    if e.generator.Some? || e.isLoading then Init(false, e, e, e.generator, false)
    else match load
      case Ok(g) => Init(true, Engine(None, true), Engine(Some(g), false), Some(g), false)
      case Err => Init(true, Engine(None, true), Unloaded, None, true)
  }

  /** `isOfflineModelReady`: a generator is loaded. */
  predicate IsReady(e: Engine) {
    e.generator.Some?
  }

  /** `isOfflineModelLoading` */
  predicate IsLoading(e: Engine) {
    e.isLoading
  }

  /**
   * A finished load leaves the flag down, and the engine is ready afterwards
   * exactly when it was ready before or the load succeeded; a load never
   * replaces a generator already loaded.
   */
  lemma InitializeSettles(e: Engine, load: Outcome<Generator>)
    requires !e.isLoading
    ensures !IsLoading(Initialize(e, load).after)
    ensures IsReady(Initialize(e, load).after) <==> IsReady(e) || load.Ok?
    ensures IsReady(e) ==> Initialize(e, load).after.generator == e.generator
  {
  }

  /** A second call made while the first load runs starts nothing and returns no generator. */
  lemma CallDuringLoadGetsNothing(load: Outcome<Generator>, second: Outcome<Generator>)
    ensures var during := Initialize(Unloaded, load).during;
      !Initialize(during, second).loadStarted && Initialize(during, second).returned.None?
  {
  }

  // ---------------------------------------------------------------------------
  // Prompt framing

  /** `opts?.systemPrompt ?? DEFAULT_SYSTEM_PROMPT`: the default only when none is given; an empty one is kept. */
  function SystemText(systemPrompt: Option<string>): (r: string)
    ensures systemPrompt.Some? ==> r == systemPrompt.value
    ensures systemPrompt.None? ==> r == DefaultSystemPrompt
  {
    if systemPrompt.Some? then systemPrompt.value else DefaultSystemPrompt
  }

  /** The part of the prompt before the assistant marker. */
  function Framing(system: string, message: string): string {
    SystemTag + system + UserTag + message + EndTag
  }

  /**
   * The prompt: the system text after the system tag, the message after the
   * user tag, and the assistant marker last.
   */
  function BuildPrompt(system: string, message: string): (r: string)
    ensures |r| == |SystemTag| + |system| + |UserTag| + |message| + |EndTag| + |Marker|
    ensures StartsWith(r, SystemTag) && EndsWith(r, Marker)
    ensures r[|SystemTag|..|SystemTag| + |system|] == system
    ensures r[|SystemTag| + |system|..|SystemTag| + |system| + |UserTag|] == UserTag
    ensures r[|SystemTag| + |system| + |UserTag|..|SystemTag| + |system| + |UserTag| + |message|] == message
    ensures r[|r| - |Marker| - |EndTag|..|r| - |Marker|] == EndTag
  {
    Framing(system, message) + Marker
  }

  // ---------------------------------------------------------------------------
  // Answer extraction

  /** The first position where `p` occurs in `s`, as `indexOf` finds it. */
  function Find(s: string, p: string): (r: Option<nat>)
    ensures r.None? <==> !Contains(s, p)
    ensures r.Some? ==> OccursAt(s, p, r.value) && forall j :: 0 <= j < r.value ==> !OccursAt(s, p, j)
    decreases |s|
  {
    if |s| < |p| then None
    else if s[..|p|] == p then (assert OccursAt(s, p, 0); Some(0))
    else
      var rest := Find(s[1..], p);
      assert !OccursAt(s, p, 0);
      assert forall j :: 1 <= j <= |s| - |p| ==> (OccursAt(s, p, j) <==> OccursAt(s[1..], p, j - 1)) by {
        forall j | 1 <= j <= |s| - |p| {
          OccursShift(s, p, j);
        }
      }
      match rest
      case None => None
      case Some(k) =>
        OccursShift(s, p, k + 1);
        Some(k + 1)
  }

  lemma OccursShift(s: string, p: string, j: int)
    requires 1 <= j <= |s| - |p|
    ensures OccursAt(s, p, j) <==> OccursAt(s[1..], p, j - 1)
  {
    var a := s[j..j + |p|];
    var b := s[1..][j - 1..j - 1 + |p|];
    forall i | 0 <= i < |a| ensures a[i] == b[i] {
      assert a[i] == s[j + i];
      assert b[i] == s[1..][j - 1 + i];
    }
    assert a == b;
  }

  /**
   * `s.split(sep)[1]` for a non-empty separator (an empty one splits into
   * single characters instead): the piece after the first separator, as its
   * start in the text and its contents, which run up to the next separator or
   * to the end; None when there is no separator.
   */
  function SecondPiece(s: string, sep: string): (r: Option<(nat, string)>)
    requires |sep| > 0
    ensures r.None? <==> !Contains(s, sep)
    ensures r.Some? ==> var start, text := r.value.0, r.value.1;
      && start >= |sep| && OccursAt(s, sep, start - |sep|)
      && (forall j :: 0 <= j < start - |sep| ==> !OccursAt(s, sep, j))
      && OccursAt(s, text, start)
      && (forall k :: start <= k < start + |text| ==> !OccursAt(s, sep, k))
      && (start + |text| == |s| || OccursAt(s, sep, start + |text|))
  {
    match Find(s, sep)
    case None => None
    case Some(i) =>
      var start := i + |sep|;
      var text := PieceAt(s, sep, start);
      SecondPieceAt(s, sep, i, start, text);
      Some((start, text))
  }

  /** With the first separator at `i`, the piece after it has the properties of the second piece. */
  lemma SecondPieceAt(s: string, sep: string, i: nat, start: nat, text: string)
    requires OccursAt(s, sep, i) && forall j :: 0 <= j < i ==> !OccursAt(s, sep, j)
    requires start == i + |sep| && text == PieceAt(s, sep, start)
    ensures start >= |sep| && OccursAt(s, sep, start - |sep|)
    ensures forall j :: 0 <= j < start - |sep| ==> !OccursAt(s, sep, j)
    ensures OccursAt(s, text, start)
    ensures forall k :: start <= k < start + |text| ==> !OccursAt(s, sep, k)
    ensures start + |text| == |s| || OccursAt(s, sep, start + |text|)
  {
    PieceInText(s, sep, start);
  }

  /** The text from `start` up to the next separator, or to the end when there is none. */
  function PieceAt(s: string, sep: string, start: nat): string
    requires start <= |s|
  {
    var after := s[start..];
    match Find(after, sep) case None => after case Some(j) => after[..j]
  }

  /** The piece from `start` up to the next separator sits in the text with no separator inside it and a separator or the end after it. */
  lemma PieceInText(s: string, sep: string, start: nat)
    requires start <= |s|
    ensures var text := PieceAt(s, sep, start);
      && OccursAt(s, text, start)
      && (forall k :: start <= k < start + |text| ==> !OccursAt(s, sep, k))
      && (start + |text| == |s| || OccursAt(s, sep, start + |text|))
  {
    var after := s[start..];
    var text := PieceAt(s, sep, start);
    assert s[start..start + |text|] == text;
    forall k | start <= k < start + |text| ensures !OccursAt(s, sep, k) {
      OccursSuffix(s, sep, start, k);
    }
    if Find(after, sep).Some? {
      OccursSuffix(s, sep, start, start + |text|);
    }
  }

  /** An occurrence at `k` is one at `k - a` in the text from `a` on. */
  lemma OccursSuffix(s: string, p: string, a: int, k: int)
    requires 0 <= a <= k && a <= |s|
    ensures OccursAt(s, p, k) <==> OccursAt(s[a..], p, k - a)
  {
    if k + |p| <= |s| {
      assert s[a..][k - a..k - a + |p|] == s[k..k + |p|];
    }
  }

  /** The second piece holds no separator (an empty separator occurs everywhere, so it is excluded). */
  lemma PieceHasNoSeparator(s: string, sep: string)
    requires sep != [] && SecondPiece(s, sep).Some?
    ensures !Contains(SecondPiece(s, sep).value.1, sep)
  {
    var (start, text) := SecondPiece(s, sep).value;
    forall k | 0 <= k <= |text| ensures !OccursAt(text, sep, k) {
      if k + |sep| <= |text| {
        OccursInside(s, text, start, sep, k);
      }
    }
  }

  /** An occurrence inside a stretch of a text is an occurrence in the text. */
  lemma OccursInside(s: string, t: string, a: int, p: string, k: int)
    requires OccursAt(s, t, a) && 0 <= k <= |t| - |p|
    ensures OccursAt(t, p, k) <==> OccursAt(s, p, a + k)
  {
    var w, v := t[k..k + |p|], s[a + k..a + k + |p|];
    forall i | 0 <= i < |p| ensures w[i] == v[i] {
      assert t[k + i] == s[a..a + |t|][k + i];
    }
    assert w == v;
  }

  /**
   * `generated.split('<|assistant|>')[1]?.trim() || apology`: the trimmed
   * second piece; the apology when there is no marker or that piece is blank.
   */
  function ExtractResponse(generated: string): (r: string)
    ensures !Contains(generated, Marker) ==> r == Apology
    ensures SecondPiece(generated, Marker).Some? && Trim(SecondPiece(generated, Marker).value.1) == [] ==> r == Apology
    ensures SecondPiece(generated, Marker).Some? && Trim(SecondPiece(generated, Marker).value.1) != [] ==>
      r == Trim(SecondPiece(generated, Marker).value.1)
    ensures r != []
  {
    match SecondPiece(generated, Marker)
    case None => Apology
    case Some((_, text)) =>
      var t := Trim(text);
      if t == [] then Apology else t
  }

  /** A stretch of a text without the pattern holds no occurrence either. */
  lemma InnerNoOccurrence(s: string, t: string, a: int, p: string)
    requires !Contains(s, p) && OccursAt(s, t, a)
    ensures !Contains(t, p)
  {
    forall k | 0 <= k <= |t| ensures !OccursAt(t, p, k) {
      if k <= |t| - |p| {
        OccursInside(s, t, a, p, k);
      }
    }
  }

  /** A reply other than the apology is trimmed text that holds no marker. */
  lemma ExtractedHasNoMarker(generated: string)
    ensures var r := ExtractResponse(generated);
      r == Apology || (!Contains(r, Marker) && !IsSpace(r[0]) && !IsSpace(r[|r| - 1]))
  {
    if SecondPiece(generated, Marker).Some? {
      var text := SecondPiece(generated, Marker).value.1;
      PieceHasNoSeparator(generated, Marker);
      var t := Trim(text);
      var a :| 0 <= a <= |text| && OccursAt(text, t, a);
      InnerNoOccurrence(text, t, a, Marker);
    }
  }

  /** The reply for a continuation free of markers: its trimmed text, or the apology when it is blank. */
  function Continuation(answer: string): (r: string)
    ensures r == Apology || r == Trim(answer)
  {
    if Trim(answer) == [] then Apology else Trim(answer)
  }

  /** A generation: the prompt given to the model, if any, and the reply or the error. */
  datatype Reply = Answer(text: string) | NotInitialized | GenerationFailed

  datatype Generation = Generation(prompt: Option<string>, reply: Reply)

  /**
   * `generateOfflineResponse`: without a generator it throws before building
   * a prompt; otherwise it frames the message, runs the model (whose output
   * or error is `generated`) and extracts the answer, rethrowing a model error.
   */
  function Generate(e: Engine, message: string, systemPrompt: Option<string>, generated: Outcome<string>): (r: Generation)
    ensures e.generator.None? ==> r == Generation(None, NotInitialized)
    ensures e.generator.Some? ==> r.prompt == Some(BuildPrompt(SystemText(systemPrompt), message))
    ensures e.generator.Some? && generated.Err? ==> r.reply == GenerationFailed
    ensures e.generator.Some? && generated.Ok? ==> r.reply == Answer(ExtractResponse(generated.data))
  {
    if e.generator.None? then Generation(None, NotInitialized)
    else
      var prompt := BuildPrompt(SystemText(systemPrompt), message);
      match generated
      case Err => Generation(Some(prompt), GenerationFailed)
      case Ok(text) => Generation(Some(prompt), Answer(ExtractResponse(text)))
  }

  /** Generating needs a loaded generator, and a loaded one always gives an answer or the model's error. */
  lemma GenerateNeedsReady(e: Engine, message: string, systemPrompt: Option<string>, generated: Outcome<string>)
    ensures Generate(e, message, systemPrompt, generated).reply == NotInitialized <==> !IsReady(e)
  {
  }

  // ---------------------------------------------------------------------------
  // The framing is transparent to extraction

  predicate NoMarker(s: string) {
    !Contains(s, Marker)
  }

  /** No non-empty end of `x` is a proper beginning of the marker. */
  predicate SafeEnd(x: string) {
    forall j :: 1 <= j < |Marker| && j <= |x| ==> x[|x| - j..] != Marker[..j]
  }

  /** `y` begins with `<`, which the marker holds only at its start. */
  predicate SafeStart(y: string) {
    |y| > 0 && y[0] == '<'
  }

  lemma MarkerOpensOnce()
    ensures forall j :: 1 <= j < |Marker| ==> Marker[j] != '<'
  {
  }

  /** Joining two marker-free strings makes no marker when the marker cannot straddle the join. */
  lemma Join(x: string, y: string)
    requires NoMarker(x) && NoMarker(y)
    requires SafeEnd(x) || SafeStart(y)
    ensures NoMarker(x + y)
  {
    MarkerOpensOnce();
    var s := x + y;
    forall k | 0 <= k <= |s| - |Marker| ensures !OccursAt(s, Marker, k) {
      var w := s[k..k + |Marker|];
      if k + |Marker| <= |x| {
        assert w == x[k..k + |Marker|];
        assert !OccursAt(x, Marker, k);
      } else if k >= |x| {
        assert w == y[k - |x|..k - |x| + |Marker|];
        assert !OccursAt(y, Marker, k - |x|);
      } else if SafeStart(y) {
        assert w[|x| - k] == y[0];
        assert Marker[|x| - k] != '<';
        assert w != Marker;
      } else {
        var j := |x| - k;
        assert w[..j] == s[k..|x|];
        assert s[k..|x|] == x[k..];
        assert x[|x| - j..] != Marker[..j];
        assert w[..j] != Marker[..j];
        assert w != Marker;
      }
    }
  }

  lemma SystemTagSafe()
    ensures NoMarker(SystemTag) && SafeEnd(SystemTag)
  {
    assert forall i :: 1 <= i < |SystemTag| ==> SystemTag[i] != '<';
    forall j | 1 <= j < |Marker| && j <= |SystemTag| ensures SystemTag[|SystemTag| - j..] != Marker[..j] {
      if j == |SystemTag| {
        assert SystemTag[|SystemTag| - j..][2] != Marker[..j][2];
      } else {
        assert SystemTag[|SystemTag| - j..][0] != Marker[..j][0];
      }
    }
  }

  lemma UserTagSafe()
    ensures NoMarker(UserTag) && SafeEnd(UserTag) && SafeStart(UserTag)
  {
    assert forall i :: 1 <= i < |UserTag| && i != 7 ==> UserTag[i] != '<';
    forall j | 1 <= j < |Marker| && j <= |UserTag| ensures UserTag[|UserTag| - j..] != Marker[..j] {
      if j == 8 {
        assert UserTag[|UserTag| - j..][2] != Marker[..j][2];
      } else {
        assert UserTag[|UserTag| - j..][0] != Marker[..j][0];
      }
    }
    forall k | 0 <= k <= |UserTag| - |Marker| ensures !OccursAt(UserTag, Marker, k) {
      assert UserTag[k..k + |Marker|][2] != Marker[2];
    }
  }

  lemma EndTagSafe()
    ensures NoMarker(EndTag) && SafeStart(EndTag)
  {
  }

  /** With a marker-free system text and message, the framing holds no marker. */
  lemma FramingHasNoMarker(system: string, message: string)
    requires NoMarker(system) && NoMarker(message)
    ensures NoMarker(Framing(system, message))
  {
    SystemTagSafe();
    UserTagSafe();
    EndTagSafe();
    Join(SystemTag, system);
    Join(UserTag, message);
    Join(UserTag + message, EndTag);
    Join(SystemTag + system, UserTag + message + EndTag);
    assert Framing(system, message) == (SystemTag + system) + (UserTag + message + EndTag);
  }

  /** The first marker of `x + Marker + rest`, when `x` holds none, is the one after `x`. */
  lemma FirstMarkerAfter(x: string, rest: string)
    requires NoMarker(x)
    ensures Find(x + Marker + rest, Marker) == Some(|x|)
  {
    MarkerOpensOnce();
    var s := x + Marker + rest;
    assert s[|x|..|x| + |Marker|] == Marker;
    assert OccursAt(s, Marker, |x|);
    forall k | 0 <= k < |x| ensures !OccursAt(s, Marker, k) {
      if k + |Marker| <= |s| {
        var w := s[k..k + |Marker|];
        if k + |Marker| <= |x| {
          assert w == x[k..k + |Marker|];
          assert !OccursAt(x, Marker, k);
        } else {
          assert w[|x| - k] == '<';
        }
      }
    }
  }

  /**
   * For a marker-free system text, message and continuation, the answer
   * extracted from the prompt followed by the continuation is the trimmed
   * continuation (the apology when it is blank).
   */
  lemma ExtractAfterPrompt(system: string, message: string, answer: string)
    requires NoMarker(system) && NoMarker(message) && NoMarker(answer)
    ensures ExtractResponse(BuildPrompt(system, message) + answer) == Continuation(answer)
  {
    var x := Framing(system, message);
    FramingHasNoMarker(system, message);
    FirstMarkerAfter(x, answer);
    var s := BuildPrompt(system, message) + answer;
    assert s == x + Marker + answer;
    assert s[|x| + |Marker|..] == answer;
  }
}

=== FILE: progress_tracker.dfy ===
/**
 * The progress overview (src/components/training/ProgressTracker.tsx):
 * totals over the user's course rows and one card per row whose course is
 * known.
 */
module ProgressTracker {
  import opened Common
  import opened TrainingProgress
  import CourseViewer

  /** A `training_courses` row, as far as the overview reads it. */
  datatype Course = Course(id: string, title: string, syllabus: Json)

  /** `getSyllabusLength`: the length of a JSON array, otherwise 0. */
  function SyllabusLength(syllabus: Json): (r: nat)
    ensures r == |CourseViewer.ParseSyllabus(syllabus)|
  {
    if syllabus.JArr? then |syllabus.items| else 0
  }

  /** The first course with the given id. */
  function FindCourse(courses: seq<Course>, id: string): (r: Option<Course>)
    ensures r.None? <==> forall i :: 0 <= i < |courses| ==> courses[i].id != id
    ensures r.Some? ==> r.value in courses && r.value.id == id
  {
    if |courses| == 0 then None
    else if courses[0].id == id then Some(courses[0])
    else FindCourse(courses[1..], id)
  }

  /** A row counts as a completed course when its completion time is set and non-empty. */
  predicate CourseDone(p: Progress) {
    p.completedAt.Some? && p.completedAt.value != ""
  }

  /** The sum of the rows' completed-module counts: at least any one row's, and zero exactly when no row lists a module. */
  function ModulesDone(progress: seq<Progress>): (r: nat)
    ensures forall i :: 0 <= i < |progress| ==> |Completed(progress[i])| <= r
    ensures r == 0 <==> forall i :: 0 <= i < |progress| ==> Completed(progress[i]) == []
  {
    if |progress| == 0 then 0
    else
      var rest := ModulesDone(progress[1..]);
      assert forall i :: 1 <= i < |progress| ==> progress[i] == progress[1..][i - 1];
      |Completed(progress[0])| + rest
  }

  /** The positions of the rows whose course is completed. */
  function DonePositions(progress: seq<Progress>): set<int> {
    set i | 0 <= i < |progress| && CourseDone(progress[i])
  }

  /** The number of rows whose course is completed. */
  function CoursesDone(progress: seq<Progress>): (r: nat)
    ensures r == |DonePositions(progress)|
    ensures r <= |progress|
    ensures r == 0 <==> forall i :: 0 <= i < |progress| ==> !CourseDone(progress[i])
    ensures r == |progress| <==> forall i :: 0 <= i < |progress| ==> CourseDone(progress[i])
  {
    if |progress| == 0 then 0
    else
      var n := |progress| - 1;
      var rest := CoursesDone(progress[..n]);
      DonePositionsSnoc(progress);
      rest + (if CourseDone(progress[n]) then 1 else 0)
  }

  /** Adding a row at the end adds its position when its course is completed. */
  lemma DonePositionsSnoc(progress: seq<Progress>)
    requires |progress| > 0
    ensures var n := |progress| - 1;
      && DonePositions(progress) == DonePositions(progress[..n]) + (if CourseDone(progress[n]) then {n} else {})
      && |DonePositions(progress)| == |DonePositions(progress[..n])| + (if CourseDone(progress[n]) then 1 else 0)
      && (forall i :: 0 <= i < n ==> progress[..n][i] == progress[i])
  {
    var n := |progress| - 1;
    assert forall i :: 0 <= i < n ==> progress[..n][i] == progress[i];
    assert n !in DonePositions(progress[..n]);
  }

  datatype Stats = Stats(started: nat, completed: nat, modulesDone: nat)

  /** One course card. */
  datatype CourseCard = CourseCard(
    progressId: string,
    course: Course,
    completedCount: nat,
    totalModules: nat,
    percent: nat,
    finished: bool)

  datatype View =
    | SignInPrompt
    | LoadingView
    | NothingStarted
    | Overview(stats: Stats, cards: seq<CourseCard>)

  /** The card of one row, when its course is known. */
  function CardFor(courses: seq<Course>, p: Progress): (r: Option<CourseCard>)
    ensures r.None? <==> FindCourse(courses, p.courseId).None?
    ensures r.Some? ==>
      && r.value.course == FindCourse(courses, p.courseId).value
      && r.value.completedCount == |Completed(p)|
      && r.value.totalModules == SyllabusLength(r.value.course.syllabus)
      && r.value.finished == CourseDone(p)
      && r.value.progressId == p.id
  {
    match FindCourse(courses, p.courseId)
    case None => None
    case Some(course) =>
      var total := SyllabusLength(course.syllabus);
      var done := |Completed(p)|;
      Some(CourseCard(p.id, course, done, total, if total > 0 then RoundPercent(done, total) else 0, CourseDone(p)))
  }

  /** The cards, in row order, skipping rows whose course is not known. */
  function Cards(courses: seq<Course>, progress: seq<Progress>): (r: seq<CourseCard>)
    ensures |r| <= |progress|
    ensures forall c :: c in r <==> exists i :: 0 <= i < |progress| && CardFor(courses, progress[i]) == Some(c)
    ensures |progress| == 1 ==>
      r == if CardFor(courses, progress[0]).Some? then [CardFor(courses, progress[0]).value] else []
  {
    if |progress| == 0 then []
    else
      var head := CardFor(courses, progress[0]);
      var rest := Cards(courses, progress[1..]);
      CardRowsCons(courses, progress);
      (if head.Some? then [head.value] else []) + rest
  }

  /** The cards of two row lists in turn: those of the first, then those of the second, so row order is kept. */
  lemma {:induction false} CardsAppend(courses: seq<Course>, a: seq<Progress>, b: seq<Progress>)
    ensures Cards(courses, a + b) == Cards(courses, a) + Cards(courses, b)
    decreases |a|
  {
    if |a| == 0 {
      assert a + b == b;
    } else {
      assert (a + b)[0] == a[0];
      assert (a + b)[1..] == a[1..] + b;
      CardsAppend(courses, a[1..], b);
    }
  }

  /** A card comes from some row exactly when it comes from the first row or from a later one. */
  lemma CardRowsCons(courses: seq<Course>, progress: seq<Progress>)
    requires |progress| > 0
    ensures forall c :: (exists i :: 0 <= i < |progress| && CardFor(courses, progress[i]) == Some(c)) <==>
      (CardFor(courses, progress[0]) == Some(c) ||
       exists i :: 0 <= i < |progress[1..]| && CardFor(courses, progress[1..][i]) == Some(c))
  {
    forall c | exists i :: 0 <= i < |progress| && CardFor(courses, progress[i]) == Some(c)
      ensures CardFor(courses, progress[0]) == Some(c) ||
              exists i :: 0 <= i < |progress[1..]| && CardFor(courses, progress[1..][i]) == Some(c)
    {
      var i :| 0 <= i < |progress| && CardFor(courses, progress[i]) == Some(c);
      if i > 0 {
        assert progress[1..][i - 1] == progress[i];
      }
    }
  }

  /**
   * The screen: a sign-in prompt without a user, a loading notice while
   * either list loads, a prompt when no course is started, and otherwise the
   * totals and the cards.
   */
  function Render(user: bool, loading: bool, progress: seq<Progress>, courses: seq<Course>): (r: View)
    ensures !user ==> r == SignInPrompt
    ensures user && loading ==> r == LoadingView
    ensures user && !loading && |progress| == 0 ==> r == NothingStarted
    ensures user && !loading && |progress| > 0 ==> r.Overview?
    ensures r.Overview? ==>
      && r.stats.started == |progress| > 0
      && r.stats.completed == CoursesDone(progress)
      && r.stats.completed <= r.stats.started
      && r.stats.modulesDone == ModulesDone(progress)
      && r.cards == Cards(courses, progress)
  {
    if !user then SignInPrompt
    else if loading then LoadingView
    else if |progress| == 0 then NothingStarted
    else Overview(Stats(|progress|, CoursesDone(progress), ModulesDone(progress)), Cards(courses, progress))
  }

  /**
   * A card shows the same percentage as the course screen's completion for
   * the first row of its course.
   */
  lemma CardAgreesWithCompletion(courses: seq<Course>, progress: seq<Progress>, i: nat)
    requires i < |progress|
    requires ProgressFor(progress, progress[i].courseId) == Some(progress[i])
    requires CardFor(courses, progress[i]).Some?
    ensures var card := CardFor(courses, progress[i]).value;
      card.percent == CalculateCompletion(progress, progress[i].courseId, card.totalModules)
  {
  }

  /** Module totals over rows with distinct ids: rows other than the one with `id` contribute as before. */
  lemma {:induction false} ModulesDoneReplace(progress: seq<Progress>, id: string, row: Progress)
    requires forall i, j :: 0 <= i < j < |progress| ==> progress[i].id != progress[j].id
    requires exists i :: 0 <= i < |progress| && progress[i].id == id
    ensures forall i :: 0 <= i < |progress| && progress[i].id == id ==>
      ModulesDone(ReplaceById(progress, id, row)) + |Completed(progress[i])| == ModulesDone(progress) + |Completed(row)|
  {
    var r := ReplaceById(progress, id, row);
    assert r[1..] == ReplaceById(progress[1..], id, row);
    if progress[0].id == id {
      assert forall i :: 1 <= i < |progress| ==> progress[i].id != id;
      ReplaceNothing(progress[1..], id, row);
      forall i | 0 <= i < |progress| && progress[i].id == id
        ensures ModulesDone(r) + |Completed(progress[i])| == ModulesDone(progress) + |Completed(row)| {
        assert i == 0;
      }
    } else {
      var k :| 0 <= k < |progress| && progress[k].id == id;
      assert progress[1..][k - 1].id == id;
      ModulesDoneReplace(progress[1..], id, row);
      forall i | 0 <= i < |progress| && progress[i].id == id
        ensures ModulesDone(r) + |Completed(progress[i])| == ModulesDone(progress) + |Completed(row)| {
        assert progress[1..][i - 1] == progress[i];
      }
    }
  }

  lemma ReplaceNothing(progress: seq<Progress>, id: string, row: Progress)
    requires forall i :: 0 <= i < |progress| ==> progress[i].id != id
    ensures ReplaceById(progress, id, row) == progress
  {
  }

  /**
   * With distinct row ids, a successful module completion raises the
   * "Modules Done" total by exactly one.
   */
  lemma CompleteModuleAddsOneModule(progress: seq<Progress>, courseId: string, index: int)
    requires forall i, j :: 0 <= i < j < |progress| ==> progress[i].id != progress[j].id
    requires ProgressFor(progress, courseId).Some?
    ensures ModulesDone(CompleteModule(true, progress, courseId, index, Ok(())).progress) == ModulesDone(progress) + 1
  {
    var existing := ProgressFor(progress, courseId).value;
    var k :| 0 <= k < |progress| && progress[k] == existing;
    ModulesDoneReplace(progress, existing.id, ModuleCompleted(existing, index));
    assert progress[k].id == existing.id;
  }
}

=== FILE: service_worker.dfy ===
/**
 * The offline HTTP cache of the service worker (public/sw.js).
 *
 * The browser's cache storage is an ordered list of named caches, each a map
 * from request URL to stored response; `caches.open` appends a new empty
 * cache when the name is absent, and `caches.match` consults every cache in
 * creation order. A network attempt is an input: it either fails (the fetch
 * promise rejects) or yields a response. Each strategy is a pure function
 * returning the reply given to the page and the new cache storage; writes
 * (`cache.put`) take effect immediately and in program order.
 */
module ServiceWorker {
  import opened Common

  // ---------------------------------------------------------------------------
  // Constants

  const CacheName: string := "pantheon-protocol-v2"
  const StaticCache: string := "pantheon-static-v2"
  const ApiCache: string := "pantheon-api-v2"

  /** The URL paths pre-cached on install. */
  const StaticAssets: seq<string> :=
    ["/", "/index.html", "/manifest.json", "/favicon.ico", "/lady-violet-icon.jpg"]

  /** The file extensions recognised as static assets, in the order of the pattern's alternation. */
  const StaticExtensions: seq<string> :=
    ["js", "css", "png", "jpg", "jpeg", "gif", "svg", "ico", "woff", "woff2", "ttf", "eot"]

  // ---------------------------------------------------------------------------
  // Data model

  datatype Response = Response(status: int, body: string)

  /** `Response.ok` of the Fetch standard: the status is in 200..299. */
  predicate IsOk(r: Response) {
    200 <= r.status <= 299
  }

  /** A partial response (status 206), which `cache.put` and `cache.addAll` refuse to store. */
  predicate IsPartial(r: Response) {
    r.status == 206
  }

  /** The parts of an intercepted request the worker looks at. */
  datatype Request = Request(httpMethod: string, url: string, protocol: string, hostname: string, pathname: string)

  datatype NamedCache = NamedCache(name: string, entries: map<string, Response>)

  /** All caches of the origin, in creation order. */
  type Storage = seq<NamedCache>

  /** What one network attempt produced. */
  datatype NetOutcome = NetFail | NetResp(response: Response)

  /** What the page receives: a response, a rejected promise, or a promise resolved with no response. */
  datatype Reply = Respond(response: Response) | Reject | NoResponse

  /** The result of handling one request: the reply, the new storage, and whether the network was contacted. */
  datatype Handled = Handled(reply: Reply, storage: Storage, usedNetwork: bool)

  datatype Route = Bypass | Api | Static | Default

  // ---------------------------------------------------------------------------
  // Cache storage

  function Names(s: Storage): (r: seq<string>)
    ensures |r| == |s|
    ensures forall i :: 0 <= i < |s| ==> r[i] == s[i].name
  {
    seq(|s|, i requires 0 <= i < |s| => s[i].name)
  }

  /** No two caches share a name: the storage keeps this invariant. */
  predicate UniqueNames(s: Storage) {
    forall i, j :: 0 <= i < j < |s| ==> s[i].name != s[j].name
  }

  /** `cache.match(url)` on the cache opened under `name` (none if there is no such cache). */
  function Lookup(s: Storage, name: string, url: string): Option<Response> {
    match IndexOf(Names(s), name)
    case None => None
    case Some(i) => if url in s[i].entries then Some(s[i].entries[url]) else None
  }

  /** `caches.open(name)`: creates an empty cache under `name` when none exists. */
  function Open(s: Storage, name: string): (r: Storage)
    ensures name in Names(r)
    ensures s <= r
    ensures forall n, u :: Lookup(r, n, u) == Lookup(s, n, u)
    ensures UniqueNames(s) ==> UniqueNames(r)
  {
    if name in Names(s) then s
    else
      var r := s + [NamedCache(name, map[])];
      assert Names(r) == Names(s) + [name];
      assert forall n, u :: Lookup(r, n, u) == Lookup(s, n, u) by {
        forall n, u ensures Lookup(r, n, u) == Lookup(s, n, u) {
          IndexOfAppend(Names(s), name, n);
        }
      }
      r
  }

  /** `caches.open(name)` and then storing `resp` under `url` in that cache. Only the entry under (name, url) changes. */
  function StoreInto(s: Storage, name: string, url: string, resp: Response): (r: Storage)
    ensures Names(r) == Names(Open(s, name))
    ensures forall n, u ::
              Lookup(r, n, u) == (if n == name && u == url then Some(resp) else Lookup(s, n, u))
    ensures UniqueNames(s) ==> UniqueNames(r)
  {
    var s1 := Open(s, name);
    var i := IndexOf(Names(s1), name).value;
    var r := s1[i := NamedCache(name, s1[i].entries[url := resp])];
    assert Names(r) == Names(s1);
    r
  }

  /**
   * `caches.open(name)` followed by `cache.put(url, resp)`, not awaited: the
   * put rejects a partial response and stores nothing, but the cache has
   * been opened; any other response becomes the entry under (name, url),
   * and nothing else changes.
   */
  function PutInto(s: Storage, name: string, url: string, resp: Response): (r: Storage)
    ensures Names(r) == Names(Open(s, name))
    ensures forall n, u ::
              Lookup(r, n, u) == (if n == name && u == url && !IsPartial(resp) then Some(resp) else Lookup(s, n, u))
    ensures UniqueNames(s) ==> UniqueNames(r)
  {
    if IsPartial(resp) then Open(s, name) else StoreInto(s, name, url, resp)
  }

  /** `caches.match(url)`: the entry of the first cache, in creation order, that holds `url`. */
  function MatchAll(s: Storage, url: string): (r: Option<Response>)
    ensures r.None? <==> forall i :: 0 <= i < |s| ==> url !in s[i].entries
    ensures r.Some? ==> exists i :: 0 <= i < |s| && url in s[i].entries && r.value == s[i].entries[url] &&
                                    forall j :: 0 <= j < i ==> url !in s[j].entries
  {
    if |s| == 0 then None
    else if url in s[0].entries then Some(s[0].entries[url])
    else
      var r := MatchAll(s[1..], url);
      assert forall i :: 1 <= i < |s| ==> s[i] == s[1..][i - 1];
      if r.Some? then
        var i :| 0 <= i < |s[1..]| && url in s[1..][i].entries && r.value == s[1..][i].entries[url] &&
                 forall j :: 0 <= j < i ==> url !in s[1..][j].entries;
        assert s[i + 1] == s[1..][i];
        assert forall j :: 0 <= j < i + 1 ==> url !in s[j].entries;
        r
      else r
  }

  /** A cache reachable by name is consulted by `caches.match`. */
  lemma LookupFoundByMatchAll(s: Storage, name: string, url: string)
    requires Lookup(s, name, url).Some?
    ensures MatchAll(s, url).Some?
  {
    var i := IndexOf(Names(s), name).value;
    assert url in s[i].entries;
  }

  /** The caches of `s` whose names are not in `dead`, in their order. */
  function Without(s: Storage, dead: set<string>): (r: Storage)
    ensures forall c :: c in r <==> c in s && c.name !in dead
    ensures |s| == 1 ==> (r == s <==> s[0].name !in dead) && (r == [] <==> s[0].name in dead)
  {
    if |s| == 0 then []
    else
      var rest := Without(s[1..], dead);
      assert forall c :: c in s[1..] ==> c in s;
      if s[0].name in dead then rest else [s[0]] + rest
  }

  /** Deleting from a concatenation deletes from each part in place: the surviving caches keep their order. */
  lemma {:induction false} WithoutAppend(a: Storage, b: Storage, dead: set<string>)
    ensures Without(a + b, dead) == Without(a, dead) + Without(b, dead)
  {
    if |a| > 0 {
      assert (a + b)[0] == a[0];
      assert (a + b)[1..] == a[1..] + b;
      WithoutAppend(a[1..], b, dead);
    } else {
      assert a + b == b;
    }
  }

  lemma {:induction false} WithoutKeepsUniqueNames(s: Storage, dead: set<string>)
    requires UniqueNames(s)
    ensures UniqueNames(Without(s, dead))
  {
    if |s| > 0 {
      assert UniqueNames(s[1..]) by {
        forall i, j | 0 <= i < j < |s[1..]| ensures s[1..][i].name != s[1..][j].name {
          assert s[1..][i] == s[i + 1] && s[1..][j] == s[j + 1];
        }
      }
      WithoutKeepsUniqueNames(s[1..], dead);
      var rest := Without(s[1..], dead);
      forall c | c in rest ensures c.name != s[0].name {
        var k :| 0 <= k < |s[1..]| && s[1..][k] == c;
        assert s[k + 1] == c;
      }
    }
  }

  lemma {:induction false} WithoutWithout(s: Storage, a: set<string>, b: set<string>)
    ensures Without(Without(s, a), b) == Without(s, a + b)
  {
    if |s| > 0 {
      WithoutWithout(s[1..], a, b);
      if s[0].name !in a {
        assert Without(s, a)[1..] == Without(s[1..], a);
      }
    }
  }

  lemma {:induction false} WithoutAgree(s: Storage, a: set<string>, b: set<string>)
    requires forall c :: c in s ==> (c.name in a <==> c.name in b)
    ensures Without(s, a) == Without(s, b)
  {
    if |s| > 0 {
      assert forall c :: c in s[1..] ==> c in s;
      WithoutAgree(s[1..], a, b);
    }
  }

  /** `caches.delete(name)` */
  function Delete(s: Storage, name: string): Storage {
    Without(s, {name})
  }

  /** The deletions issued for each of `names`, applied in turn. */
  function DeleteEach(s: Storage, names: seq<string>): Storage
    decreases |names|
  {
    if |names| == 0 then s else DeleteEach(Delete(s, names[0]), names[1..])
  }

  lemma {:induction false} DeleteEachIsWithout(s: Storage, names: seq<string>)
    ensures DeleteEach(s, names) == Without(s, set n | n in names)
    decreases |names|
  {
    if |names| == 0 {
      WithoutAgree(s, {}, set n | n in names);
      assert Without(s, {}) == s by {
        WithoutEmpty(s);
      }
    } else {
      DeleteEachIsWithout(Delete(s, names[0]), names[1..]);
      WithoutWithout(s, {names[0]}, set n | n in names[1..]);
      assert {names[0]} + (set n | n in names[1..]) == set n | n in names;
    }
  }

  lemma {:induction false} WithoutEmpty(s: Storage)
    ensures Without(s, {}) == s
  {
    if |s| > 0 {
      WithoutEmpty(s[1..]);
      assert [s[0]] + s[1..] == s;
    }
  }

  // ---------------------------------------------------------------------------
  // Request classification

  /** The path ends with "." followed by one of the static extensions (the pattern is case-sensitive). */
  predicate IsStaticAsset(pathname: string) {
    exists e :: e in StaticExtensions && EndsWith(pathname, "." + e)
  }

  /**
   * The fetch listener's routing: non-GET and non-http(s) requests are not
   * intercepted; backend traffic goes network-first even when its path has a
   * static extension; static assets go cache-first; everything else is
   * served stale-while-revalidate.
   */
  function Classify(req: Request): (r: Route)
    ensures r == Bypass <==> req.httpMethod != "GET" || !StartsWith(req.protocol, "http")
    ensures r == Api <==>
      req.httpMethod == "GET" && StartsWith(req.protocol, "http") &&
      (Contains(req.pathname, "/functions/") || Contains(req.pathname, "/rest/") || Contains(req.hostname, "supabase"))
    ensures r == Static ==> IsStaticAsset(req.pathname)
    ensures r == Default ==> !IsStaticAsset(req.pathname)
  {
    if req.httpMethod != "GET" then Bypass
    else if !StartsWith(req.protocol, "http") then Bypass
    else if Contains(req.pathname, "/functions/") || Contains(req.pathname, "/rest/") || Contains(req.hostname, "supabase") then Api
    else if IsStaticAsset(req.pathname) then Static
    else Default
  }

  /** Position of the last "." in `p`, if any. */
  function LastDot(p: string): (r: Option<nat>)
    ensures r.Some? ==> r.value < |p| && p[r.value] == '.' && '.' !in p[r.value + 1..]
    ensures r.None? ==> '.' !in p
  {
    if |p| == 0 then None
    else if p[|p| - 1] == '.' then Some(|p| - 1)
    else
      var r := LastDot(p[..|p| - 1]);
      assert p == p[..|p| - 1] + [p[|p| - 1]];
      if r.Some? then
        assert p[r.value + 1..] == p[..|p| - 1][r.value + 1..] + [p[|p| - 1]];
        r
      else r
  }

  /** The file extension: the text after the last "." of the path. */
  function Extension(p: string): Option<string> {
    match LastDot(p)
    case None => None
    case Some(i) => Some(p[i + 1..])
  }

  /** A dot with no dot after it is the last dot. */
  lemma {:induction false} LastDotAt(p: string, i: nat)
    requires i < |p| && p[i] == '.' && '.' !in p[i + 1..]
    ensures LastDot(p) == Some(i)
  {
    if i < |p| - 1 {
      var q := p[..|p| - 1];
      assert p[|p| - 1] == p[i + 1..][|p| - 2 - i];
      assert q[i + 1..] == p[i + 1..][..|p| - 2 - i];
      LastDotAt(q, i);
    }
  }

  lemma NoDotInExtensions()
    ensures forall e :: e in StaticExtensions ==> '.' !in e
  {
  }

  /**
   * An independent reading of the static-asset pattern: the path is static
   * exactly when its extension (the text after its last dot) is one of the
   * listed extensions.
   */
  lemma StaticAssetByExtension(p: string)
    ensures IsStaticAsset(p) <==> Extension(p).Some? && Extension(p).value in StaticExtensions
  {
    NoDotInExtensions();
    if IsStaticAsset(p) {
      var e :| e in StaticExtensions && EndsWith(p, "." + e);
      var i := |p| - |e| - 1;
      assert p[i] == '.';
      assert p[i + 1..] == e;
      LastDotAt(p, i);
    }
    if Extension(p).Some? && Extension(p).value in StaticExtensions {
      var i := LastDot(p).value;
      var e := p[i + 1..];
      assert p[|p| - |"." + e|..] == "." + e;
    }
  }

  // ---------------------------------------------------------------------------
  // Strategies

  /**
   * Network first (API traffic): the network response, ok or not, is returned
   * unchanged and handed to the API cache only when ok (where a partial
   * response is refused); on a failed fetch
   * the first match across all caches is served, and the failure is
   * re-thrown when there is none.
   */
  function NetworkFirst(s: Storage, url: string, net: NetOutcome): (h: Handled)
    ensures h.usedNetwork
    ensures net.NetResp? ==> h.reply == Respond(net.response)
    ensures net.NetResp? && IsOk(net.response) ==>
      forall n, u :: Lookup(h.storage, n, u) ==
        if n == ApiCache && u == url && !IsPartial(net.response) then Some(net.response) else Lookup(s, n, u)
    ensures net.NetResp? && !IsOk(net.response) ==> h.storage == s
    ensures net.NetFail? ==> h.storage == s
    ensures net.NetFail? && MatchAll(s, url).None? ==> h.reply == Reject
    ensures net.NetFail? && MatchAll(s, url).Some? ==> h.reply == Respond(MatchAll(s, url).value)
  {
    match net
    case NetResp(r) =>
      Handled(Respond(r), if IsOk(r) then PutInto(s, ApiCache, url, r) else s, true)
    case NetFail =>
      match MatchAll(s, url)
      case Some(c) => Handled(Respond(c), s, true)
      case None => Handled(Reject, s, true)
  }

  /**
   * Cache first (static assets): a match in any cache is served without
   * contacting the network; on a miss the network response is returned and
   * handed to the static cache only when ok (where a partial response is
   * refused); a failed fetch is re-thrown.
   */
  function CacheFirst(s: Storage, url: string, net: NetOutcome): (h: Handled)
    ensures MatchAll(s, url).Some? ==>
      h == Handled(Respond(MatchAll(s, url).value), s, false)
    ensures MatchAll(s, url).None? ==> h.usedNetwork
    ensures MatchAll(s, url).None? && net.NetFail? ==> h.reply == Reject && h.storage == s
    ensures MatchAll(s, url).None? && net.NetResp? ==> h.reply == Respond(net.response)
    ensures MatchAll(s, url).None? && net.NetResp? && IsOk(net.response) ==>
      forall n, u :: Lookup(h.storage, n, u) ==
        if n == StaticCache && u == url && !IsPartial(net.response) then Some(net.response) else Lookup(s, n, u)
    ensures net.NetResp? && !IsOk(net.response) ==> h.storage == s
  {
    match MatchAll(s, url)
    case Some(c) => Handled(Respond(c), s, false)
    case None =>
      match net
      case NetFail => Handled(Reject, s, true)
      case NetResp(r) => Handled(Respond(r), if IsOk(r) then PutInto(s, StaticCache, url, r) else s, true)
  }

  /**
   * Stale while revalidate (everything else): opens the main cache, serves its
   * entry when present and otherwise the network response; an ok network
   * response other than a partial one is written to the main cache in both
   * cases. A failed fetch is
   * caught and turned into the cached entry, so on a miss the promise
   * resolves with no response instead of rejecting.
   */
  function StaleWhileRevalidate(s: Storage, url: string, net: NetOutcome): (h: Handled)
    ensures h.usedNetwork
    ensures h.reply != Reject
    ensures Lookup(s, CacheName, url).Some? ==> h.reply == Respond(Lookup(s, CacheName, url).value)
    ensures Lookup(s, CacheName, url).None? && net.NetResp? ==> h.reply == Respond(net.response)
    ensures Lookup(s, CacheName, url).None? && net.NetFail? ==> h.reply == NoResponse
    ensures CacheName in Names(h.storage)
    ensures forall n, u ::
              Lookup(h.storage, n, u) ==
                if n == CacheName && u == url && net.NetResp? && IsOk(net.response) && !IsPartial(net.response)
                then Some(net.response)
                else Lookup(s, n, u)
  {
    var s1 := Open(s, CacheName);
    var cached := Lookup(s1, CacheName, url);
    var s2 := if net.NetResp? && IsOk(net.response) then PutInto(s1, CacheName, url, net.response) else s1;
    var fetched := match net
      case NetResp(r) => Respond(r)
      case NetFail => if cached.Some? then Respond(cached.value) else NoResponse;
    var reply := if cached.Some? then Respond(cached.value) else fetched;
    Handled(reply, s2, true)
  }

  /**
   * The fetch listener: a bypassed request goes to the network untouched and
   * never touches the caches; an API request is answered by the network when
   * it answers, its ok response kept in the API cache, and from any cache when
   * offline; a static asset already cached is served without contacting the
   * network, and a missing one is fetched and its ok response kept in the
   * static cache; any other request is never rejected and prefers the main
   * cache's copy.
   */
  function HandleFetch(s: Storage, req: Request, net: NetOutcome): (h: Handled)
    ensures Classify(req) == Bypass ==> h.storage == s
    ensures Classify(req) == Bypass ==> h.reply == (if net.NetResp? then Respond(net.response) else Reject)
    ensures Classify(req) == Api && net.NetResp? ==> h.reply == Respond(net.response)
    ensures Classify(req) == Api && net.NetFail? ==>
      h.reply == (if MatchAll(s, req.url).Some? then Respond(MatchAll(s, req.url).value) else Reject)
    ensures Classify(req) == Static && MatchAll(s, req.url).Some? ==>
      h == Handled(Respond(MatchAll(s, req.url).value), s, false)
    ensures Classify(req) == Default ==> h.reply != Reject
    ensures Classify(req) == Default && Lookup(s, CacheName, req.url).Some? ==>
      h.reply == Respond(Lookup(s, CacheName, req.url).value)
    ensures !h.usedNetwork ==> Classify(req) == Static && h.storage == s
    ensures Classify(req) == Api && net.NetResp? && IsOk(net.response) ==>
      forall n, u :: Lookup(h.storage, n, u) ==
        if n == ApiCache && u == req.url && !IsPartial(net.response) then Some(net.response) else Lookup(s, n, u)
    ensures Classify(req) == Static && MatchAll(s, req.url).None? ==>
      && h.usedNetwork
      && h.reply == (if net.NetResp? then Respond(net.response) else Reject)
      && (net.NetResp? && IsOk(net.response) ==>
            forall n, u :: Lookup(h.storage, n, u) ==
              if n == StaticCache && u == req.url && !IsPartial(net.response) then Some(net.response) else Lookup(s, n, u))
    ensures Classify(req) == Api ==> h == NetworkFirst(s, req.url, net)
    ensures Classify(req) == Static ==> h == CacheFirst(s, req.url, net)
    ensures Classify(req) == Default ==> h == StaleWhileRevalidate(s, req.url, net)
  {
    match Classify(req)
    case Bypass => Handled(if net.NetResp? then Respond(net.response) else Reject, s, true)
    case Api => NetworkFirst(s, req.url, net)
    case Static => CacheFirst(s, req.url, net)
    case Default => StaleWhileRevalidate(s, req.url, net)
  }

  // ---------------------------------------------------------------------------
  // Lifecycle

  /** A cache of this application that the current version no longer uses. */
  predicate IsStale(name: string) {
    StartsWith(name, "pantheon-") && name != CacheName && name != StaticCache && name != ApiCache
  }

  /** The names the activate handler selects for deletion, in `caches.keys()` order. */
  function StaleNames(names: seq<string>): (r: seq<string>)
    ensures forall n :: n in r <==> n in names && IsStale(n)
  {
    if |names| == 0 then []
    else (if IsStale(names[0]) then [names[0]] else []) + StaleNames(names[1..])
  }

  lemma {:induction false} StaleNamesOfCurrent(names: seq<string>)
    requires forall n :: n in names ==> !IsStale(n)
    ensures StaleNames(names) == []
  {
    if |names| > 0 {
      assert names[0] in names;
      assert forall n :: n in names[1..] ==> n in names;
      StaleNamesOfCurrent(names[1..]);
    }
  }

  datatype Activation = Activation(deleted: seq<string>, storage: Storage)

  /** The activate handler: delete every stale cache of this application. */
  function Activate(s: Storage): (a: Activation)
    ensures forall n :: n in a.deleted <==> n in Names(s) && IsStale(n)
    ensures forall c :: c in a.storage <==> c in s && !IsStale(c.name)
    ensures a.storage == Without(s, set n | n in a.deleted)
  {
    var dead := StaleNames(Names(s));
    var r := DeleteEach(s, dead);
    DeleteEachIsWithout(s, dead);
    assert forall c :: c in s ==> c.name in Names(s) by {
      forall c | c in s ensures c.name in Names(s) {
        var i :| 0 <= i < |s| && s[i] == c;
        assert Names(s)[i] == c.name;
      }
    }
    Activation(dead, r)
  }

  lemma ActivateKeepsUniqueNames(s: Storage)
    requires UniqueNames(s)
    ensures UniqueNames(Activate(s).storage)
  {
    var dead := StaleNames(Names(s));
    DeleteEachIsWithout(s, dead);
    WithoutKeepsUniqueNames(s, set n | n in dead);
  }

  /** A second activation deletes nothing and leaves the storage as it is. */
  lemma ActivateIdempotent(s: Storage)
    ensures Activate(Activate(s).storage).deleted == []
    ensures Activate(Activate(s).storage).storage == Activate(s).storage
  {
    var s1 := Activate(s).storage;
    assert forall n :: n in Names(s1) ==> !IsStale(n) by {
      forall n | n in Names(s1) ensures !IsStale(n) {
        var i :| 0 <= i < |s1| && Names(s1)[i] == n;
        assert s1[i] in s1;
      }
    }
    StaleNamesOfCurrent(Names(s1));
  }

  /** addAll's acceptance test: every fetch succeeded with an ok status other than 206. */
  predicate AllCacheable(outs: seq<NetOutcome>) {
    forall i :: 0 <= i < |outs| ==> outs[i].NetResp? && IsOk(outs[i].response) && !IsPartial(outs[i].response)
  }

  function PutEach(s: Storage, name: string, urls: seq<string>, outs: seq<NetOutcome>): (r: Storage)
    requires |urls| == |outs| && forall i :: 0 <= i < |outs| ==> outs[i].NetResp?
    ensures forall n, u :: n != name || u !in urls ==> Lookup(r, n, u) == Lookup(s, n, u)
    ensures forall i :: 0 <= i < |urls| && urls[i] !in urls[i + 1..] ==>
      Lookup(r, name, urls[i]) == Some(outs[i].response)
    decreases |urls|
  {
    if |urls| == 0 then s
    else
      var s1 := StoreInto(s, name, urls[0], outs[0].response);
      var r := PutEach(s1, name, urls[1..], outs[1..]);
      PutEachStep(s, s1, r, name, urls, outs);
      r
  }

  /** Storing the first response and then the rest stores each response whose url does not come again. */
  lemma PutEachStep(s: Storage, s1: Storage, r: Storage, name: string, urls: seq<string>, outs: seq<NetOutcome>)
    requires |urls| == |outs| > 0 && forall i :: 0 <= i < |outs| ==> outs[i].NetResp?
    requires forall n, u :: Lookup(s1, n, u) == (if n == name && u == urls[0] then Some(outs[0].response) else Lookup(s, n, u))
    requires forall n, u :: n != name || u !in urls[1..] ==> Lookup(r, n, u) == Lookup(s1, n, u)
    requires forall i :: 0 <= i < |urls| - 1 && urls[1..][i] !in urls[1..][i + 1..] ==>
      Lookup(r, name, urls[1..][i]) == Some(outs[1..][i].response)
    ensures forall n, u :: n != name || u !in urls ==> Lookup(r, n, u) == Lookup(s, n, u)
    ensures forall i :: 0 <= i < |urls| && urls[i] !in urls[i + 1..] ==>
      Lookup(r, name, urls[i]) == Some(outs[i].response)
  {
    forall n, u | n != name || u !in urls ensures Lookup(r, n, u) == Lookup(s, n, u) {
      if u in urls[1..] {
        assert u in urls;
      }
    }
    forall i | 0 <= i < |urls| && urls[i] !in urls[i + 1..] ensures Lookup(r, name, urls[i]) == Some(outs[i].response) {
      if i > 0 {
        assert urls[i] == urls[1..][i - 1] && urls[i + 1..] == urls[1..][i..];
      } else {
        assert urls[0] !in urls[1..];
      }
    }
  }

  function Resolve(origin: string, path: string): string {
    origin + path
  }

  /** The absolute URLs of the pre-cached assets, in order. */
  function AssetUrls(origin: string): (r: seq<string>)
    ensures |r| == |StaticAssets|
    ensures forall i :: 0 <= i < |r| ==> r[i] == Resolve(origin, StaticAssets[i])
  {
    seq(|StaticAssets|, i requires 0 <= i < |StaticAssets| => Resolve(origin, StaticAssets[i]))
  }

  /** No asset url appears again later in the list. */
  lemma AssetUrlsDistinct(origin: string)
    ensures var urls := AssetUrls(origin);
      forall i :: 0 <= i < |urls| ==> urls[i] !in urls[i + 1..]
  {
    var urls := AssetUrls(origin);
    forall i, j | 0 <= i < j < |urls| ensures urls[j] != urls[i] {
      assert StaticAssets[j] != StaticAssets[i];
      assert urls[i][|origin|..] == StaticAssets[i];
      assert urls[j][|origin|..] == StaticAssets[j];
    }
  }

  datatype Installation = Installation(installed: bool, storage: Storage)

  /**
   * The install handler: open the static cache and add every pre-cached asset
   * (`outs[i]` is the network outcome for `StaticAssets[i]`). The add is
   * all-or-nothing: one failed or unacceptable fetch fails the install and
   * stores none of the assets.
   */
  function Install(s: Storage, origin: string, outs: seq<NetOutcome>): (inst: Installation)
    requires |outs| == |StaticAssets|
    ensures StaticCache in Names(inst.storage)
    ensures inst.installed <==> AllCacheable(outs)
    ensures !inst.installed ==> forall n, u :: Lookup(inst.storage, n, u) == Lookup(s, n, u)
    ensures inst.installed ==> forall i :: 0 <= i < |StaticAssets| ==>
      Lookup(inst.storage, StaticCache, Resolve(origin, StaticAssets[i])) == Some(outs[i].response)
    ensures inst.installed ==> forall n, u :: n != StaticCache || u !in AssetUrls(origin) ==>
      Lookup(inst.storage, n, u) == Lookup(s, n, u)
  {
    var s1 := Open(s, StaticCache);
    if AllCacheable(outs) then
      var urls := AssetUrls(origin);
      var r := PutEach(s1, StaticCache, urls, outs);
      AssetUrlsDistinct(origin);
      assert StaticCache in Names(r) by {
        assert Lookup(r, StaticCache, urls[0]).Some?;
      }
      Installation(true, r)
    else
      Installation(false, s1)
  }

  // ---------------------------------------------------------------------------
  // Properties relating several requests

  /** Every handler keeps cache names unique. */
  lemma HandleFetchKeepsUniqueNames(s: Storage, req: Request, net: NetOutcome)
    requires UniqueNames(s)
    ensures UniqueNames(HandleFetch(s, req, net).storage)
  {
  }

  /**
   * A static asset fetched once with an ok response is served a second time
   * from the cache, with the same response and without a network attempt,
   * whatever the network would do; a partial response was not kept, so the
   * second request goes to the network again.
   */
  lemma CacheFirstSecondHitIsOffline(s: Storage, url: string, r: Response, net2: NetOutcome)
    requires MatchAll(s, url).None?
    requires IsOk(r)
    ensures var h1 := CacheFirst(s, url, NetResp(r));
      !IsPartial(r) ==> CacheFirst(h1.storage, url, net2) == Handled(Respond(r), h1.storage, false)
    ensures var h1 := CacheFirst(s, url, NetResp(r));
      IsPartial(r) ==> CacheFirst(h1.storage, url, net2).usedNetwork
  {
    PutIntoSoleHolder(s, StaticCache, url, r);
  }

  /**
   * An API response stored while online is served from the cache when the
   * network later fails, provided no cache held that url before; a partial
   * response was not kept, so the failure is re-thrown.
   */
  lemma NetworkFirstOfflineFallback(s: Storage, url: string, r: Response)
    requires MatchAll(s, url).None?
    requires IsOk(r)
    ensures var h1 := NetworkFirst(s, url, NetResp(r));
      NetworkFirst(h1.storage, url, NetFail).reply == if IsPartial(r) then Reject else Respond(r)
  {
    PutIntoSoleHolder(s, ApiCache, url, r);
  }

  /**
   * When no cache held `url`, the cache written by `PutInto` is the one
   * `caches.match` finds; after a refused partial response it still finds none.
   */
  lemma PutIntoSoleHolder(s: Storage, name: string, url: string, resp: Response)
    requires MatchAll(s, url).None?
    ensures MatchAll(PutInto(s, name, url, resp), url) == if IsPartial(resp) then None else Some(resp)
  {
    var s1 := Open(s, name);
    assert forall i :: 0 <= i < |s1| ==> url !in s1[i].entries by {
      forall i | 0 <= i < |s1| ensures url !in s1[i].entries {
        if i < |s| {
          assert s1[i] == s[i];
        }
      }
    }
    if !IsPartial(resp) {
      var k := IndexOf(Names(s1), name).value;
      var t := PutInto(s, name, url, resp);
      assert t == s1[k := NamedCache(name, s1[k].entries[url := resp])];
      forall i | 0 <= i < |t| && i != k ensures url !in t[i].entries {
        assert t[i] == s1[i];
      }
      MatchAllFirst(t, url, k);
    }
  }

  lemma {:induction false} MatchAllFirst(t: Storage, url: string, k: nat)
    requires k < |t| && url in t[k].entries
    requires forall i :: 0 <= i < |t| && i != k ==> url !in t[i].entries
    ensures MatchAll(t, url) == Some(t[k].entries[url])
  {
    if k > 0 {
      MatchAllFirst(t[1..], url, k - 1);
    }
  }
}

=== FILE: theme.dfy ===
/**
 * Era themes (src/contexts/ThemeContext.tsx): which eras a user's badges
 * unlock, loading the chosen era and badges, and choosing an era.
 */
module Theme {
  import opened Common
  import Xp

  const DefaultEra: string := "2020s"
  const AllEras: seq<string> := ["1980s", "1990s", "2000s", "2020s"]

  /** The era each badge unlocks; Pantheon Elite is listed with 1980s and is meant to unlock all. */
  const BadgeEraUnlocks: map<string, string> :=
    map["crypto_rookie" := "1990s", "master_hacker" := "1980s", "triple_threat" := "2000s", "pantheon_elite" := "1980s"]

  const PantheonElite: string := "pantheon_elite"

  function EraOf(id: string): (r: Option<string>)
    ensures r.Some? <==> id in BadgeEraUnlocks
    ensures r.Some? ==> r.value in AllEras
  {
    if id in BadgeEraUnlocks then Some(BadgeEraUnlocks[id]) else None
  }

  /** Every badge definition that names an era names the same one here. */
  lemma EraTablesAgree()
    ensures forall def :: def in Xp.BadgeDefinitions && def.unlocksEra.Some? ==>
      EraOf(def.id) == def.unlocksEra
  {
  }

  datatype ThemeState = ThemeState(currentEra: string, unlockedEras: seq<string>, badges: seq<Xp.Badge>)

  const InitialTheme: ThemeState := ThemeState(DefaultEra, [DefaultEra], [])

  // ---------------------------------------------------------------------------
  // Unlocked eras

  predicate NoDuplicates(xs: seq<string>) {
    forall i, j :: 0 <= i < j < |xs| ==> xs[i] != xs[j]
  }

  /** The eras a set of badges unlocks through the table, plus the default. */
  function TableEras(badges: seq<Xp.Badge>): set<string> {
    {DefaultEra} + set i | 0 <= i < |badges| && EraOf(badges[i].id).Some? :: EraOf(badges[i].id).value
  }

  /** The era each badge unlocks through the table, in badge order. */
  function Unlocks(badges: seq<Xp.Badge>): (us: seq<Option<string>>)
    ensures |us| == |badges|
    ensures forall i :: 0 <= i < |badges| ==> us[i] == EraOf(badges[i].id)
  {
    if |badges| == 0 then [] else [EraOf(badges[0].id)] + Unlocks(badges[1..])
  }

  /** The position of the first badge that unlocks `e`, or the number of badges when none does. */
  function FirstUnlock(us: seq<Option<string>>, e: string): (r: nat)
    ensures r <= |us|
    ensures r < |us| ==> us[r] == Some(e)
    ensures forall i :: 0 <= i < r ==> us[i] != Some(e)
  {
    if |us| == 0 then 0
    else if us[0] == Some(e) then 0
    else
      var k := FirstUnlock(us[1..], e);
      assert forall i :: 1 <= i < k + 1 ==> us[i] == us[1..][i - 1];
      k + 1
  }

  /** The loop that builds the list: each newly unlocked era is appended once, in first-seen order. */
  function Collect(acc: seq<string>, us: seq<Option<string>>): (r: seq<string>)
    requires NoDuplicates(acc)
    ensures NoDuplicates(r)
    ensures acc <= r
    ensures forall e :: e in r <==> e in acc || Some(e) in us
    ensures forall i, j :: |acc| <= i < j < |r| ==> FirstUnlock(us, r[i]) < FirstUnlock(us, r[j])
    decreases |us|
  {
    if |us| == 0 then acc
    else
      var acc' := if us[0].Some? && us[0].value !in acc then acc + [us[0].value] else acc;
      var r := Collect(acc', us[1..]);
      CollectOrder(acc, us, acc', r);
      assert us == [us[0]] + us[1..];
      r
  }

  /** One step of the loop keeps the appended eras ordered by their first unlocking badge. */
  lemma CollectOrder(acc: seq<string>, us: seq<Option<string>>, acc': seq<string>, r: seq<string>)
    requires |us| > 0 && NoDuplicates(r)
    requires acc' == if us[0].Some? && us[0].value !in acc then acc + [us[0].value] else acc
    requires acc' <= r
    requires forall i, j :: |acc'| <= i < j < |r| ==> FirstUnlock(us[1..], r[i]) < FirstUnlock(us[1..], r[j])
    ensures forall i, j :: |acc| <= i < j < |r| ==> FirstUnlock(us, r[i]) < FirstUnlock(us, r[j])
  {
    forall i | |acc'| <= i < |r| ensures FirstUnlock(us, r[i]) == FirstUnlock(us[1..], r[i]) + 1 {
      LaterNotFirst(acc, us[0], acc', r, i);
    }
    if |acc'| > |acc| {
      assert acc' == acc + [us[0].value];
      assert r[|acc|] == acc'[|acc|] == us[0].value;
    }
    forall i, j | |acc| <= i < j < |r| ensures FirstUnlock(us, r[i]) < FirstUnlock(us, r[j]) {
      if i < |acc'| {
        assert FirstUnlock(us, r[i]) == 0;
      }
    }
  }

  /** An era appended after `acc'` is not the first badge's era, which `acc'` already holds. */
  lemma LaterNotFirst(acc: seq<string>, era: Option<string>, acc': seq<string>, r: seq<string>, i: int)
    requires acc' == if era.Some? && era.value !in acc then acc + [era.value] else acc
    requires acc' <= r && NoDuplicates(r) && |acc'| <= i < |r|
    ensures era != Some(r[i])
  {
    if era.Some? {
      var k := if era.value in acc then IndexOf(acc, era.value).value else |acc|;
      assert acc'[k] == era.value;
      assert r[k] == era.value;
    }
  }

  /**
   * The eras unlocked by the badges through the table: the default first,
   * each other era once, in the order of the first badge unlocking it; as a
   * set, exactly the default and the eras the badges name.
   */
  function DerivedEras(badges: seq<Xp.Badge>): (r: seq<string>)
    ensures |r| >= 1 && r[0] == DefaultEra
    ensures NoDuplicates(r)
    ensures forall e :: e in r <==> e in TableEras(badges)
    ensures forall i, j :: 1 <= i < j < |r| ==> FirstUnlock(Unlocks(badges), r[i]) < FirstUnlock(Unlocks(badges), r[j])
  {
    var us := Unlocks(badges);
    var r := Collect([DefaultEra], us);
    assert forall e :: e in TableEras(badges) <==> e == DefaultEra || Some(e) in us by {
      forall e | e in TableEras(badges) && e != DefaultEra ensures Some(e) in us {
        var i :| 0 <= i < |badges| && EraOf(badges[i].id).Some? && EraOf(badges[i].id).value == e;
        assert us[i] == Some(e);
      }
      forall e | Some(e) in us ensures e in TableEras(badges) {
        var i :| 0 <= i < |us| && us[i] == Some(e);
        assert EraOf(badges[i].id).Some?;
      }
    }
    r
  }

  predicate HoldsPantheonElite(badges: seq<Xp.Badge>) {
    exists i :: 0 <= i < |badges| && badges[i].id == PantheonElite
  }

  /**
   * The eras `loadTheme` leaves unlocked, as written: the list of
   * assignments it makes in order — the full list when Pantheon Elite is
   * met inside the loop, then the derived list after the loop — ends with
   * the derived list, and the last assignment is the one that stays.
   */
  function UnlockedErasAsWritten(badges: seq<Xp.Badge>): (r: seq<string>)
    ensures r == Last(UnlockAssignments(badges))
    ensures forall e :: e in r <==> e in TableEras(badges)
    ensures HoldsPantheonElite(badges) ==> AllEras in UnlockAssignments(badges) && r != AllEras
  {
    DerivedEras(badges)
  }

  function UnlockAssignments(badges: seq<Xp.Badge>): (r: seq<seq<string>>)
    ensures |r| >= 1
  {
    (if HoldsPantheonElite(badges) then [AllEras] else []) + [DerivedEras(badges)]
  }

  function Last<T>(xs: seq<T>): T
    requires |xs| >= 1
  {
    xs[|xs| - 1]
  }

  /** As written, holding only Pantheon Elite leaves 1990s and 2000s locked. */
  lemma PantheonEliteUnlocksAllAsWrittenFails(b: Xp.Badge)
    requires b.id == PantheonElite
    ensures "1990s" !in UnlockedErasAsWritten([b])
    ensures "2000s" !in UnlockedErasAsWritten([b])
  {
    assert TableEras([b]) == {DefaultEra, "1980s"} by {
      assert EraOf(b.id) == Some("1980s");
    }
  }

  /**
   * The eras unlocked, as intended: all of them for a holder of Pantheon
   * Elite, otherwise the derived list.
   */
  function UnlockedEras(badges: seq<Xp.Badge>): (r: seq<string>)
    ensures HoldsPantheonElite(badges) ==> forall e :: e in AllEras ==> e in r
    ensures !HoldsPantheonElite(badges) ==> forall e :: e in r <==> e in TableEras(badges)
    ensures DefaultEra in r
    ensures forall e :: e in r ==> e in AllEras
  {
    if HoldsPantheonElite(badges) then AllEras else DerivedEras(badges)
  }

  // ---------------------------------------------------------------------------
  // Loading and choosing

  /**
   * `loadTheme`, as written. Signed in: the profile's era replaces the
   * current one when it is non-empty; a stored badge array (None when
   * missing or not an array) replaces the badges, and the unlocked eras
   * become the derived list the loop leaves behind. Anonymous: a non-empty
   * saved era replaces the current one and nothing else changes.
   */
  function LoadTheme(user: bool, st: ThemeState, profileEra: Option<string>,
                     storedBadges: Option<seq<Xp.Badge>>, savedEra: Option<string>): (r: ThemeState)
    ensures user && profileEra.Some? && profileEra.value != "" ==> r.currentEra == profileEra.value
    ensures !user && savedEra.Some? && savedEra.value != "" ==> r.currentEra == savedEra.value
    ensures (user && (profileEra.None? || profileEra.value == "")) || (!user && (savedEra.None? || savedEra.value == "")) ==>
      r.currentEra == st.currentEra
    ensures user && storedBadges.Some? ==>
      r.badges == storedBadges.value && r.unlockedEras == UnlockedErasAsWritten(storedBadges.value)
    ensures !user || storedBadges.None? ==> r.badges == st.badges && r.unlockedEras == st.unlockedEras
  {
    if user then
      var era := if profileEra.Some? && profileEra.value != "" then profileEra.value else st.currentEra;
      match storedBadges
      case None => st.(currentEra := era)
      case Some(bs) => ThemeState(era, UnlockedErasAsWritten(bs), bs)
    else
      st.(currentEra := if savedEra.Some? && savedEra.value != "" then savedEra.value else st.currentEra)
  }

  /** As written, loading a holder of only Pantheon Elite leaves 1990s locked. */
  lemma LoadThemeEliteAsWrittenFails(st: ThemeState, profileEra: Option<string>, b: Xp.Badge)
    requires b.id == PantheonElite
    ensures !IsEraUnlocked(LoadTheme(true, st, profileEra, Some([b]), None), "1990s")
  {
    PantheonEliteUnlocksAllAsWrittenFails(b);
  }

  /**
   * `loadTheme` as intended: the same era and badges, with the unlocked
   * eras computed by `UnlockedEras`, so Pantheon Elite unlocks all of them.
   */
  function LoadThemeCorrected(user: bool, st: ThemeState, profileEra: Option<string>,
                              storedBadges: Option<seq<Xp.Badge>>, savedEra: Option<string>): (r: ThemeState)
    ensures var w := LoadTheme(user, st, profileEra, storedBadges, savedEra);
      r.currentEra == w.currentEra && r.badges == w.badges
    ensures user && storedBadges.Some? ==> r.unlockedEras == UnlockedEras(storedBadges.value)
    ensures !user || storedBadges.None? ==> r.unlockedEras == st.unlockedEras
  {
    var w := LoadTheme(user, st, profileEra, storedBadges, savedEra);
    if user && storedBadges.Some? then w.(unlockedEras := UnlockedEras(storedBadges.value)) else w
  }

  /** `isEraUnlocked` */
  predicate IsEraUnlocked(st: ThemeState, era: string) {
    era in st.unlockedEras
  }

  /** The new state and the values written to local storage and to the profile, if any. */
  datatype EraChange = EraChange(state: ThemeState, savedEra: Option<string>, profileEra: Option<string>)

  /**
   * `setEra`: a locked era changes nothing; an unlocked one becomes current
   * and is saved locally, and also to the profile when signed in.
   */
  function SetEra(user: bool, st: ThemeState, era: string): (r: EraChange)
    ensures !IsEraUnlocked(st, era) ==> r == EraChange(st, None, None)
    ensures IsEraUnlocked(st, era) ==>
      && r.state == st.(currentEra := era)
      && r.savedEra == Some(era)
      && (r.profileEra.Some? <==> user)
      && (user ==> r.profileEra == Some(era))
    ensures IsEraUnlocked(r.state, r.state.currentEra) || r.state == st
  {
    if !IsEraUnlocked(st, era) then EraChange(st, None, None)
    else EraChange(st.(currentEra := era), Some(era), if user then Some(era) else None)
  }

  /**
   * A chosen era survives a reload: reading back what `setEra` saved (local
   * storage when anonymous, the profile when signed in) restores it.
   */
  lemma ChosenEraSurvivesReload(user: bool, st: ThemeState, era: string, before: ThemeState,
                                storedBadges: Option<seq<Xp.Badge>>)
    requires IsEraUnlocked(st, era) && era != ""
    ensures var c := SetEra(user, st, era);
      LoadTheme(user, before, c.profileEra, storedBadges, c.savedEra).currentEra == era
  {
  }

  /** Any era among the ones Pantheon Elite stands for can be chosen once its holder's badges are loaded. */
  lemma PantheonEliteCanChooseAnyEra(st: ThemeState, profileEra: Option<string>, bs: seq<Xp.Badge>, era: string)
    requires HoldsPantheonElite(bs) && era in AllEras
    ensures var loaded := LoadThemeCorrected(true, st, profileEra, Some(bs), None);
      SetEra(true, loaded, era).state.currentEra == era
  {
  }
}

=== FILE: training_progress.dfy ===
/**
 * Course progress of the signed-in user (src/hooks/useTrainingProgress.ts):
 * one `training_progress` row per started course, updated as modules are
 * completed.
 */
module TrainingProgress {
  import opened Common

  /** A `training_progress` row; the nullable columns are options. */
  datatype Progress = Progress(
    id: string,
    courseId: string,
    currentModule: Option<int>,
    completedModules: Option<seq<int>>,
    completedAt: Option<string>)

  /** What the hook's calls report back. */
  datatype Status = Done | NotAuthenticated | ProgressNotFound | BackendError

  /** The hook's list after a call, and the call's status. */
  datatype Change = Change(progress: seq<Progress>, status: Status)

  /** The completed-module list, an absent one counting as empty. */
  function Completed(p: Progress): seq<int> {
    if p.completedModules.Some? then p.completedModules.value else []
  }

  /**
   * `fetchProgress`: without a user the list empties; otherwise the rows
   * read (already ordered by the backend) replace it, and a failed read
   * leaves it as it was.
   */
  function FetchProgress(user: bool, prev: seq<Progress>, rows: Outcome<seq<Progress>>): (r: Change)
    ensures !user ==> r == Change([], Done)
    ensures user && rows.Ok? ==> r == Change(rows.data, Done)
    ensures user && rows.Err? ==> r == Change(prev, BackendError)
  {
    if !user then Change([], Done)
    else match rows
      case Ok(data) => Change(data, Done)
      case Err => Change(prev, BackendError)
  }

  /**
   * `getProgressForCourse`: the first row for the course, as
   * `Array.prototype.find` returns it.
   */
  function ProgressFor(progress: seq<Progress>, courseId: string): (r: Option<Progress>)
    ensures r.None? <==> forall i :: 0 <= i < |progress| ==> progress[i].courseId != courseId
    ensures r.Some? ==> exists i :: 0 <= i < |progress| && progress[i] == r.value &&
                          r.value.courseId == courseId &&
                          forall j :: 0 <= j < i ==> progress[j].courseId != courseId
  {
    if |progress| == 0 then None
    else if progress[0].courseId == courseId then Some(progress[0])
    else
      var r := ProgressFor(progress[1..], courseId);
      assert r.Some? ==> exists i :: 0 <= i < |progress| && progress[i] == r.value &&
                          r.value.courseId == courseId &&
                          forall j :: 0 <= j < i ==> progress[j].courseId != courseId by {
        if r.Some? {
          var i :| 0 <= i < |progress[1..]| && progress[1..][i] == r.value &&
                   forall j :: 0 <= j < i ==> progress[1..][j].courseId != courseId;
          assert progress[i + 1] == r.value;
          assert forall j :: 1 <= j < i + 1 ==> progress[j] == progress[1..][j - 1];
        }
      }
      r
  }

  /**
   * `startCourse`: without a user nothing is written; otherwise a row for
   * the course at module 0 with no completed modules is inserted, and the
   * row the backend returns (with its new id) is appended to the list.
   */
  function StartCourse(user: bool, progress: seq<Progress>, courseId: string, inserted: Outcome<string>): (r: Change)
    ensures !user ==> r == Change(progress, NotAuthenticated)
    ensures user && inserted.Err? ==> r == Change(progress, BackendError)
    ensures user && inserted.Ok? ==>
      && r.status == Done
      && |r.progress| == |progress| + 1 && r.progress[..|progress|] == progress
      && r.progress[|progress|] == Progress(inserted.data, courseId, Some(0), Some([]), None)
  {
    if !user then Change(progress, NotAuthenticated)
    else match inserted
      case Err => Change(progress, BackendError)
      case Ok(id) => Change(progress + [Progress(id, courseId, Some(0), Some([]), None)], Done)
  }

  /** Every row with the given id replaced by `row`. */
  function ReplaceById(progress: seq<Progress>, id: string, row: Progress): (r: seq<Progress>)
    ensures |r| == |progress|
    ensures forall i :: 0 <= i < |r| ==> r[i] == if progress[i].id == id then row else progress[i]
  {
    seq(|progress|, i requires 0 <= i < |progress| => if progress[i].id == id then row else progress[i])
  }

  /** The row `completeModule` writes: the module appended, and the next module current. */
  function ModuleCompleted(p: Progress, moduleIndex: int): (r: Progress)
    ensures r.id == p.id && r.courseId == p.courseId && r.completedAt == p.completedAt
    ensures Completed(r) == Completed(p) + [moduleIndex]
    ensures r.currentModule == Some(moduleIndex + 1)
  {
    p.(currentModule := Some(moduleIndex + 1), completedModules := Some(Completed(p) + [moduleIndex]))
  }

  /**
   * `completeModule`: without a user, or with no row for the course,
   * nothing is written; otherwise the first row for the course gets the
   * module appended (a module completed twice is listed twice) and the next
   * module made current, and once the write succeeds the returned row
   * replaces every row with that id.
   */
  function CompleteModule(user: bool, progress: seq<Progress>, courseId: string, moduleIndex: int, db: Outcome<()>): (r: Change)
    ensures !user ==> r == Change(progress, NotAuthenticated)
    ensures user && ProgressFor(progress, courseId).None? ==> r == Change(progress, ProgressNotFound)
    ensures user && ProgressFor(progress, courseId).Some? && db.Err? ==> r == Change(progress, BackendError)
    ensures user && ProgressFor(progress, courseId).Some? && db.Ok? ==>
      var existing := ProgressFor(progress, courseId).value;
      && r.status == Done
      && |r.progress| == |progress|
      && (forall i :: 0 <= i < |progress| && progress[i].id != existing.id ==> r.progress[i] == progress[i])
      && ProgressFor(r.progress, courseId) == Some(ModuleCompleted(existing, moduleIndex))
  {
    if !user then Change(progress, NotAuthenticated)
    else match ProgressFor(progress, courseId)
      case None => Change(progress, ProgressNotFound)
      case Some(existing) =>
        match db
        case Err => Change(progress, BackendError)
        case Ok(_) =>
          var updated := ModuleCompleted(existing, moduleIndex);
          var r := ReplaceById(progress, existing.id, updated);
          FirstRowAfterReplace(progress, courseId, existing, updated);
          Change(r, Done)
  }

  /** Replacing the first row for a course by a row for the same course makes that row the first. */
  lemma {:induction false} FirstRowAfterReplace(progress: seq<Progress>, courseId: string, existing: Progress, updated: Progress)
    requires ProgressFor(progress, courseId) == Some(existing)
    requires updated.courseId == courseId
    ensures ProgressFor(ReplaceById(progress, existing.id, updated), courseId) == Some(updated)
  {
    var r := ReplaceById(progress, existing.id, updated);
    if progress[0].courseId != courseId && progress[0].id != existing.id {
      assert r[1..] == ReplaceById(progress[1..], existing.id, updated);
      FirstRowAfterReplace(progress[1..], courseId, existing, updated);
    }
  }

  /**
   * `calculateCompletion`: 0 without a row for the course or when the
   * course has no modules; otherwise the share of modules listed as
   * completed, rounded to the nearest percent (halves up).
   */
  function CalculateCompletion(progress: seq<Progress>, courseId: string, totalModules: nat): (r: nat)
    ensures ProgressFor(progress, courseId).None? || totalModules == 0 ==> r == 0
    ensures ProgressFor(progress, courseId).Some? && totalModules > 0 ==>
      var done := |Completed(ProgressFor(progress, courseId).value)|;
      2 * totalModules * r <= 200 * done + totalModules < 2 * totalModules * (r + 1)
  {
    match ProgressFor(progress, courseId)
    case None => 0
    case Some(p) => if totalModules == 0 then 0 else RoundPercent(|Completed(p)|, totalModules)
  }

  /** At most 100% while no more modules are listed than the course has; exactly 100% when all are. */
  lemma CompletionBounds(progress: seq<Progress>, courseId: string, totalModules: nat)
    requires ProgressFor(progress, courseId).Some? && totalModules > 0
    ensures var done := |Completed(ProgressFor(progress, courseId).value)|;
      && (done <= totalModules ==> CalculateCompletion(progress, courseId, totalModules) <= 100)
      && (done == totalModules ==> CalculateCompletion(progress, courseId, totalModules) == 100)
  {
    RoundPercentBounds(|Completed(ProgressFor(progress, courseId).value)|, totalModules);
  }

  /** Completing a module never lowers the course's completion. */
  lemma {:induction false} CompleteModuleRaisesCompletion(progress: seq<Progress>, courseId: string, moduleIndex: int, totalModules: nat)
    requires ProgressFor(progress, courseId).Some?
    ensures var after := CompleteModule(true, progress, courseId, moduleIndex, Ok(())).progress;
      CalculateCompletion(progress, courseId, totalModules) <= CalculateCompletion(after, courseId, totalModules)
  {
    if totalModules > 0 {
      var before := |Completed(ProgressFor(progress, courseId).value)|;
      RoundPercentMonotone(before, before + 1, totalModules);
    }
  }

  /**
   * The hook does not deduplicate: completing a module once more on a row
   * that already lists as many modules as the course has pushes the shown
   * completion past 100% (for courses of at most 200 modules, where the
   * extra module is worth at least half a percent).
   */
  lemma CompletionCanExceedHundred(progress: seq<Progress>, courseId: string, moduleIndex: int, totalModules: nat)
    requires ProgressFor(progress, courseId).Some?
    requires |Completed(ProgressFor(progress, courseId).value)| == totalModules
    requires 0 < totalModules <= 200
    ensures var after := CompleteModule(true, progress, courseId, moduleIndex, Ok(())).progress;
      CalculateCompletion(after, courseId, totalModules) > 100
  {
    var t := totalModules;
    var existing := ProgressFor(progress, courseId).value;
    var after := CompleteModule(true, progress, courseId, moduleIndex, Ok(())).progress;
    assert ProgressFor(after, courseId) == Some(ModuleCompleted(existing, moduleIndex));
    var done := |Completed(ModuleCompleted(existing, moduleIndex))|;
    assert done == t + 1;
    var r := CalculateCompletion(after, courseId, t);
    OverHundred(t, done, r);
  }

  /** With at most 200 modules, rounding one more module than exists gives over 100. */
  lemma OverHundred(t: nat, done: nat, r: int)
    requires 0 < t <= 200 && done == t + 1
    requires 200 * done + t < 2 * t * (r + 1)
    ensures r > 100
  {
    assert 2 * t * (r + 1) - 2 * t * 101 == 2 * t * (r - 100);
    NonPositiveProduct(2 * t, r - 100);
  }

  lemma {:induction false} NonPositiveProduct(k: nat, a: int)
    ensures a <= 0 ==> k * a <= 0
  {
    if k > 0 {
      NonPositiveProduct(k - 1, a);
      assert k * a == (k - 1) * a + a;
    }
  }
}

=== FILE: voice_assistant.dfy ===
/**
 * The voice panel (src/components/features/VoiceAssistant.tsx): the
 * listening and call toggles, and the recent-commands list that keeps the
 * five newest commands, newest first.
 *
 * The two-second timer is a separate step: `Toggle` says whether a command
 * is scheduled, and `Fire` is what the timer does when it runs. The
 * timestamp is the clock's, passed in.
 */
module VoiceAssistant {
  import opened Common

  datatype Command = Command(command: string, action: string, timestamp: string)

  datatype Panel = Panel(isListening: bool, isOnCall: bool, recent: seq<Command>)

  const Initial: Panel := Panel(false, false, [])

  const MaxRecent: nat := 5

  /** The simulated command the timer records. */
  function SimulatedCommand(timestamp: string): (r: Command)
    ensures r.timestamp == timestamp
  {
    Command("Hey DarkBERT, search for cybersecurity trends", "Web Search Initiated", timestamp)
  }

  datatype Toggled = Toggled(panel: Panel, scheduled: bool)

  /**
   * `handleVoiceToggle`: listening flips; a command is scheduled only when
   * listening was off; nothing else changes now.
   */
  function Toggle(p: Panel): (r: Toggled)
    ensures r.panel.isListening == !p.isListening
    ensures r.scheduled <==> !p.isListening && r.panel.isListening
    ensures r.panel.isOnCall == p.isOnCall && r.panel.recent == p.recent
  {
    Toggled(p.(isListening := !p.isListening), !p.isListening)
  }

  /** `handlePhoneCall`: the call flag flips; listening and the commands are untouched. */
  function PhoneCall(p: Panel): (r: Panel)
    ensures r.isOnCall == !p.isOnCall
    ensures r.isListening == p.isListening && r.recent == p.recent
  {
    p.(isOnCall := !p.isOnCall)
  }

  /** Toggling twice restores the panel, and schedules exactly one command. */
  lemma ToggleTwice(p: Panel)
    ensures Toggle(Toggle(p).panel).panel == p
    ensures Toggle(p).scheduled != Toggle(Toggle(p).panel).scheduled
  {
  }

  /** The two toggles act on separate parts of the panel and commute. */
  lemma TogglesCommute(p: Panel)
    ensures PhoneCall(Toggle(p).panel) == Toggle(PhoneCall(p)).panel
  {
  }

  /** The timer: the new command goes first, then the four newest of the earlier ones. */
  function Fire(recent: seq<Command>, c: Command): (r: seq<Command>)
    ensures |r| == (if |recent| < MaxRecent - 1 then |recent| + 1 else MaxRecent)
    ensures r[0] == c
    ensures forall i :: 1 <= i < |r| ==> r[i] == recent[i - 1]
  {
    [c] + Take(recent, MaxRecent - 1)
  }

  /** The list after the timer has fired once for each command, in order. */
  function FireAll(recent: seq<Command>, cs: seq<Command>): (r: seq<Command>)
    decreases |cs|
  {
    if |cs| == 0 then recent else Fire(FireAll(recent, cs[..|cs| - 1]), cs[|cs| - 1])
  }

  function Min(a: int, b: int): int {
    if a < b then a else b
  }

  /**
   * However many commands arrive, the list holds the newest ones, newest
   * first, and never more than five of them.
   */
  lemma {:induction false} FireAllKeepsNewest(recent: seq<Command>, cs: seq<Command>)
    requires |recent| <= MaxRecent
    ensures |FireAll(recent, cs)| == Min(|recent| + |cs|, MaxRecent)
    ensures forall i :: 0 <= i < Min(|cs|, MaxRecent) ==> FireAll(recent, cs)[i] == cs[|cs| - 1 - i]
    decreases |cs|
  {
    if |cs| > 0 {
      var init := cs[..|cs| - 1];
      FireAllKeepsNewest(recent, init);
      var prev := FireAll(recent, init);
      var r := FireAll(recent, cs);
      assert r == Fire(prev, cs[|cs| - 1]);
      forall i | 1 <= i < Min(|cs|, MaxRecent) ensures r[i] == cs[|cs| - 1 - i] {
        assert r[i] == prev[i - 1];
        assert prev[i - 1] == init[|init| - 1 - (i - 1)];
      }
    }
  }

  /** The recent-commands list never exceeds five entries, from the initial panel on. */
  lemma RecentBounded(cs: seq<Command>)
    ensures |FireAll(Initial.recent, cs)| <= MaxRecent
  {
    FireAllKeepsNewest(Initial.recent, cs);
  }
}

=== FILE: xp.dfy ===
/**
 * Experience points, levels and badges (src/hooks/useXP.ts).
 *
 * The hook's state is an `XpData` record; every backend write is an input
 * outcome and the toasts the hook shows are returned as a list, so each
 * operation is a pure function from the old state to the new one.
 */
module Xp {
  import opened Common

  // ---------------------------------------------------------------------------
  // Tables

  /** XP needed to reach level i+1, for levels 1..50. */
  const LevelThresholds: seq<int> :=
    [0, 100, 250, 450, 700, 1000, 1350, 1750, 2200, 2700] +
    [3250, 3850, 4500, 5200, 5950, 6750, 7600, 8500, 9450, 10450] +
    [11500, 12600, 13750, 14950, 16200, 17500, 18850, 20250, 21700, 23200] +
    [24750, 26350, 28000, 29700, 31450, 33250, 35100, 37000, 38950, 40950] +
    [43000, 45100, 47250, 49450, 51700, 54000, 56350, 58750, 61200, 63700]

  const MaxLevel: int := 50

  /** XP rewards by activity. */
  const RewardBeginner: int := 50
  const RewardIntermediate: int := 100
  const RewardAdvanced: int := 200
  const RewardCourseModule: int := 75
  const RewardCourseComplete: int := 500
  const RewardDailyLogin: int := 25

  datatype BadgeDef = BadgeDef(id: string, name: string, description: string, icon: string, unlocksEra: Option<string>)

  /** The badge definitions, in declaration order. */
  const BadgeDefinitions: seq<BadgeDef> := [
    BadgeDef("first_blood", "First Blood", "Complete your first exercise", "\U{1FA78}", None),
    BadgeDef("crypto_rookie", "Crypto Rookie", "Complete 3 crypto exercises", "\U{1F510}", Some("1990s")),
    BadgeDef("forensics_hunter", "Forensics Hunter", "Complete 3 forensics exercises", "\U{1F50D}", None),
    BadgeDef("web_warrior", "Web Warrior", "Complete 3 web exploitation exercises", "\U{1F310}", None),
    BadgeDef("triple_threat", "Triple Threat", "Complete exercises in all categories", "\U{26A1}", Some("2000s")),
    BadgeDef("course_completer", "Course Completer", "Finish your first course", "\U{1F4DA}", None),
    BadgeDef("master_hacker", "Master Hacker", "Complete 10 advanced exercises", "\U{1F480}", Some("1980s")),
    BadgeDef("pantheon_elite", "Pantheon Elite", "Reach level 25", "\U{1F451}", None)
  ]

  // ---------------------------------------------------------------------------
  // State

  datatype Badge = Badge(id: string, name: string, description: string, earnedAt: string, icon: string, unlocksEra: Option<string>)

  datatype XpData = XpData(totalXp: int, level: int, badges: seq<Badge>)

  /** The notifications the hook shows. */
  datatype Toast = XpGained(amount: int) | LevelUp(level: int) | BadgeEarned(name: string) | ThemeUnlocked(era: string)

  /** New state, the values written to the backend (if a write was issued) and the toasts shown. */
  datatype XpUpdate = XpUpdate(data: XpData, wrote: bool, toasts: seq<Toast>)

  function Ids(bs: seq<Badge>): (r: seq<string>)
    ensures |r| == |bs| && forall i :: 0 <= i < |bs| ==> r[i] == bs[i].id
  {
    seq(|bs|, i requires 0 <= i < |bs| => bs[i].id)
  }

  /** No badge is held twice. */
  predicate UniqueIds(bs: seq<Badge>) {
    forall i, j :: 0 <= i < j < |bs| ==> bs[i].id != bs[j].id
  }

  // ---------------------------------------------------------------------------
  // Levels

  /** The thresholds follow a closed form: each level costs 50 XP more than the one before. */
  lemma ThresholdsClosedForm()
    ensures |LevelThresholds| == MaxLevel
    ensures forall i :: 0 <= i < MaxLevel ==> LevelThresholds[i] == 25 * i * (i + 3)
  {
  }

  lemma ThresholdsIncreasing()
    ensures forall i, j :: 0 <= i < j < MaxLevel ==> LevelThresholds[i] < LevelThresholds[j]
  {
    ThresholdsClosedForm();
    forall i, j | 0 <= i < j < MaxLevel ensures LevelThresholds[i] < LevelThresholds[j] {
      ClosedFormIncreasing(i, j);
    }
  }

  lemma ClosedFormIncreasing(i: nat, j: nat)
    requires i < j
    ensures 25 * i * (i + 3) < 25 * j * (j + 3)
  {
    assert j * (j + 3) - i * (i + 3) == (j - i) * (j + i + 3);
    MulMonotone(j + i + 3, 1, j - i);
  }

  /** The loop of `calculateLevel` over indices below `i`, scanning downwards. */
  function ScanDown(xp: int, i: nat): (r: int)
    requires i <= MaxLevel
    ensures 1 <= r <= (if i == 0 then 1 else i)
    ensures forall j :: 0 <= j < i && LevelThresholds[j] <= xp ==> j < r
    ensures r > 1 ==> LevelThresholds[r - 1] <= xp
    ensures i > 0 && LevelThresholds[0] <= xp ==> LevelThresholds[r - 1] <= xp
  {
    if i == 0 then 1
    else if xp >= LevelThresholds[i - 1] then i
    else ScanDown(xp, i - 1)
  }

  /**
   * `calculateLevel`: one more than the largest index whose threshold `xp`
   * reaches, and 1 when none is reached.
   */
  function CalculateLevel(xp: int): (r: int)
    ensures 1 <= r <= MaxLevel
    ensures forall j :: 0 <= j < MaxLevel && LevelThresholds[j] <= xp ==> j < r
    ensures r > 1 ==> LevelThresholds[r - 1] <= xp
    ensures xp >= 0 ==> LevelThresholds[r - 1] <= xp
    ensures r < MaxLevel ==> xp < LevelThresholds[r]
  {
    ScanDown(xp, MaxLevel)
  }

  /** A value in [T[k], T[k+1]) is at level k+1. */
  lemma LevelOfRange(xp: int, k: int)
    requires 0 <= k < MaxLevel
    requires LevelThresholds[k] <= xp
    requires k == MaxLevel - 1 || xp < LevelThresholds[k + 1]
    ensures CalculateLevel(xp) == k + 1
  {
    ThresholdsIncreasing();
  }

  /** Reaching a threshold exactly gives that level. */
  lemma LevelAtThreshold(k: int)
    requires 0 <= k < MaxLevel
    ensures CalculateLevel(LevelThresholds[k]) == k + 1
  {
    ThresholdsIncreasing();
    if k < MaxLevel - 1 {
      assert LevelThresholds[k] < LevelThresholds[k + 1];
    }
    LevelOfRange(LevelThresholds[k], k);
  }

  /** More XP never means a lower level. */
  lemma LevelMonotone(a: int, b: int)
    requires a <= b
    ensures CalculateLevel(a) <= CalculateLevel(b)
  {
    var ra := CalculateLevel(a);
    if ra > 1 {
      assert LevelThresholds[ra - 1] <= b;
    }
  }

  /**
   * `getNextLevelXP`: 0 at the top level; below it, the smallest gain that
   * reaches the next level.
   */
  function NextLevelXp(xp: int): (r: int)
    ensures CalculateLevel(xp) == MaxLevel <==> r == 0
    ensures CalculateLevel(xp) < MaxLevel ==> r > 0
    ensures CalculateLevel(xp) < MaxLevel ==>
      CalculateLevel(xp + r) == CalculateLevel(xp) + 1 && CalculateLevel(xp + r - 1) == CalculateLevel(xp)
  {
    var level := CalculateLevel(xp);
    if level >= |LevelThresholds| then 0
    else
      var r := LevelThresholds[level] - xp;
      NextLevelReached(xp, level);
      r
  }

  lemma NextLevelReached(xp: int, level: int)
    requires level == CalculateLevel(xp) < MaxLevel
    ensures CalculateLevel(LevelThresholds[level]) == level + 1
    ensures CalculateLevel(LevelThresholds[level] - 1) == level
  {
    LevelAtThreshold(level);
    ThresholdsIncreasing();
    assert LevelThresholds[level - 1] < LevelThresholds[level];
    LevelOfRange(LevelThresholds[level] - 1, level - 1);
  }

  /**
   * `getLevelProgress`: the percentage of the way from the current level's
   * threshold to the next, clamped to [0, 100]; 100 at the top level.
   */
  function LevelProgress(xp: int): (r: real)
    ensures 0.0 <= r <= 100.0
    ensures CalculateLevel(xp) == MaxLevel ==> r == 100.0
    ensures CalculateLevel(xp) < MaxLevel ==> r < 100.0
    ensures CalculateLevel(xp) < MaxLevel && xp == LevelThresholds[CalculateLevel(xp) - 1] ==> r == 0.0
  {
    var level := CalculateLevel(xp);
    if level >= |LevelThresholds| then 100.0
    else
      var current := LevelThresholds[level - 1];
      var next := LevelThresholds[level];
      ThresholdsIncreasing();
      var progress := Percent(xp - current, next - current);
      if progress > 100.0 then 100.0 else if progress < 0.0 then 0.0 else progress
  }

  /** `a / b * 100` on reals */
  function Percent(a: int, b: int): (r: real)
    requires b > 0
    ensures a < b ==> r < 100.0
    ensures a == 0 ==> r == 0.0
  {
    var q := a as real / b as real;
    assert a < b ==> q < 1.0 by {
      if a < b {
        DivBelowOne(a as real, b as real);
      }
    }
    q * 100.0
  }

  lemma DivBelowOne(a: real, b: real)
    requires b > 0.0 && a < b
    ensures a / b < 1.0
  {
  }

  // ---------------------------------------------------------------------------
  // Loading

  /** The state before anything is loaded, and the record created for a new user. */
  const InitialXp: XpData := XpData(0, 1, [])

  /** A stored `user_xp` row; `badges` is None when the stored value is not an array. */
  datatype XpRow = XpRow(totalXp: int, currentLevel: int, badges: Option<seq<Badge>>)

  /** The state after loading, and whether an initial record was inserted. */
  datatype Loaded = Loaded(data: XpData, insertedInitial: bool)

  /** The row the hook's writes leave for a state: its totals and its badge array. */
  function RowOf(d: XpData): XpRow {
    XpRow(d.totalXp, d.level, Some(d.badges))
  }

  /**
   * `loadXP`, as written: without a user the state stays as it was; a stored
   * row is taken as it is (its level is not recomputed, a non-array badge
   * value becomes no badges); a missing row, or a failed read, inserts the
   * initial record but also leaves the state as it was.
   */
  function LoadXp(user: bool, prev: XpData, row: Option<XpRow>): (r: Loaded)
    ensures !user ==> r == Loaded(prev, false)
    ensures user && row.None? ==> r == Loaded(prev, true)
    ensures user && row.Some? ==> !r.insertedInitial
    ensures user && row.Some? ==>
      r.data.totalXp == row.value.totalXp && r.data.level == row.value.currentLevel
    ensures user && row.Some? ==>
      r.data.badges == (if row.value.badges.Some? then row.value.badges.value else [])
  {
    if !user then Loaded(prev, false)
    else match row
      case None => Loaded(prev, true)
      case Some(x) => Loaded(XpData(x.totalXp, x.currentLevel, if x.badges.Some? then x.badges.value else []), false)
  }

  /**
   * `loadXP` as evidently intended: the state shown is the one stored for the
   * current user, so it is the initial record when there is no user or when
   * that record has just been inserted, whatever was shown before.
   */
  function LoadXpReset(user: bool, row: Option<XpRow>): (r: Loaded)
    ensures (!user || row.None?) ==> r.data == InitialXp
    ensures r.insertedInitial <==> user && row.None?
    ensures user && row.Some? ==> r == LoadXp(user, InitialXp, row)
  {
    if user && row.Some? then LoadXp(user, InitialXp, row) else Loaded(InitialXp, user)
  }

  /** What the hook wrote for a state is what a later load shows, whatever was shown before. */
  lemma LoadReadsBackRow(prev: XpData, d: XpData)
    ensures LoadXp(true, prev, Some(RowOf(d))).data == d
    ensures LoadXpReset(true, Some(RowOf(d))).data == d
  {
  }

  /**
   * As written, a user whose record is missing keeps the previous user's
   * totals, and the next award writes those totals plus the award into the
   * new user's freshly inserted record; with the corrected load only the
   * award is written.
   */
  lemma StaleXpCarriesOver(prev: XpData, amount: int, db: Outcome<()>)
    requires prev.totalXp > 0
    ensures var shown := LoadXp(true, prev, None);
      shown.insertedInitial && shown.data != InitialXp &&
      AddXp(true, shown.data, amount, db).data.totalXp == prev.totalXp + amount
    ensures var shown := LoadXpReset(true, None);
      shown.insertedInitial && AddXp(true, shown.data, amount, db).data.totalXp == amount
  {
  }

  /** The initial record is consistent: level 1 is the level of 0 XP. */
  lemma InitialXpConsistent()
    ensures InitialXp.level == CalculateLevel(InitialXp.totalXp)
  {
    LevelAtThreshold(0);
  }

  // ---------------------------------------------------------------------------
  // Adding XP

  /**
   * `addXP`: with a signed-in user the total grows by `amount` and the level
   * is recomputed from the new total, locally and whatever the backend
   * says; the XP toast and (on a level-up over the stored level) the level-up
   * toast appear only once the write succeeded. Without a user nothing happens.
   */
  function AddXp(user: bool, d: XpData, amount: int, db: Outcome<()>): (u: XpUpdate)
    ensures !user ==> u == XpUpdate(d, false, [])
    ensures user ==> u.wrote
    ensures user ==> u.data.totalXp == d.totalXp + amount && u.data.badges == d.badges
    ensures user ==> u.data.level == CalculateLevel(u.data.totalXp)
    ensures XpGained(amount) in u.toasts <==> user && db.Ok?
    ensures (exists l :: LevelUp(l) in u.toasts) <==> user && db.Ok? && u.data.level > d.level
    ensures user && db.Err? ==> u.toasts == []
    ensures user && db.Ok? ==>
      u.toasts == [XpGained(amount)] +
        (if CalculateLevel(d.totalXp + amount) > d.level then [LevelUp(CalculateLevel(d.totalXp + amount))] else [])
  {
    if !user then XpUpdate(d, false, [])
    else
      var total := d.totalXp + amount;
      var level := CalculateLevel(total);
      var leveledUp := level > d.level;
      var data := d.(totalXp := total, level := level);
      match db
      case Err => XpUpdate(data, true, [])
      case Ok(_) => XpUpdate(data, true, [XpGained(amount)] + (if leveledUp then [LevelUp(level)] else []))
  }

  /** Two additions leave the same totals as one addition of their sum. */
  lemma AddXpComposes(d: XpData, a: int, b: int, db1: Outcome<()>, db2: Outcome<()>)
    ensures AddXp(true, AddXp(true, d, a, db1).data, b, db2).data == AddXp(true, d, a + b, db2).data
  {
  }

  /** A consistent record never reports a level-up for a gain of zero or less. */
  lemma NoLevelUpWithoutGain(d: XpData, amount: int, db: Outcome<()>)
    requires d.level == CalculateLevel(d.totalXp)
    requires amount <= 0
    ensures forall l :: LevelUp(l) !in AddXp(true, d, amount, db).toasts
  {
    LevelMonotone(d.totalXp + amount, d.totalXp);
  }

  // ---------------------------------------------------------------------------
  // Badges

  function FindDef(id: string): (r: Option<BadgeDef>)
    ensures r.Some? ==> r.value in BadgeDefinitions && r.value.id == id
    ensures r.None? ==> forall d :: d in BadgeDefinitions ==> d.id != id
  {
    FindDefIn(BadgeDefinitions, id)
  }

  function FindDefIn(defs: seq<BadgeDef>, id: string): (r: Option<BadgeDef>)
    ensures r.Some? ==> r.value in defs && r.value.id == id
    ensures r.None? ==> forall d :: d in defs ==> d.id != id
  {
    if |defs| == 0 then None
    else if defs[0].id == id then Some(defs[0])
    else FindDefIn(defs[1..], id)
  }

  function Earned(def: BadgeDef, now: string): Badge {
    Badge(def.id, def.name, def.description, now, def.icon, def.unlocksEra)
  }

  /**
   * `awardBadge`: a no-op without a user, for an unknown id, or for a badge
   * already held; otherwise the defined badge, stamped with `now`, is
   * appended. The toasts appear only once the write succeeded.
   */
  function AwardBadge(user: bool, d: XpData, id: string, now: string, db: Outcome<()>): (u: XpUpdate)
    ensures !user || FindDef(id).None? || id in Ids(d.badges) ==> u == XpUpdate(d, false, [])
    ensures user && FindDef(id).Some? && id !in Ids(d.badges) ==>
      && u.wrote
      && u.data.totalXp == d.totalXp && u.data.level == d.level
      && |u.data.badges| == |d.badges| + 1 && u.data.badges[..|d.badges|] == d.badges
      && u.data.badges[|d.badges|].id == id && u.data.badges[|d.badges|].earnedAt == now
      && u.data.badges[|d.badges|] == Earned(FindDef(id).value, now)
    ensures user && FindDef(id).Some? && id !in Ids(d.badges) && db.Err? ==> u.toasts == []
    ensures user && FindDef(id).Some? && id !in Ids(d.badges) && db.Ok? ==>
      var def := FindDef(id).value;
      u.toasts == [BadgeEarned(def.name)] + (if def.unlocksEra.Some? then [ThemeUnlocked(def.unlocksEra.value)] else [])
    ensures id in BadgeIds() ==> user ==> id in Ids(u.data.badges)
    ensures UniqueIds(d.badges) ==> UniqueIds(u.data.badges)
    ensures u.toasts != [] ==> db.Ok? && u.wrote
  {
    FindDefIff(id);
    AwardFound(user, d, id, FindDef(id), now, db)
  }

  /** The award once `id` has been looked up in the badge table, `found` being what the lookup gave. */
  function AwardFound(user: bool, d: XpData, id: string, found: Option<BadgeDef>, now: string, db: Outcome<()>): (u: XpUpdate)
    requires found.Some? ==> found.value.id == id
    ensures !user || found.None? || id in Ids(d.badges) ==> u == XpUpdate(d, false, [])
    ensures user && found.Some? && id !in Ids(d.badges) ==>
      && u.wrote
      && u.data.totalXp == d.totalXp && u.data.level == d.level
      && |u.data.badges| == |d.badges| + 1 && u.data.badges[..|d.badges|] == d.badges
      && u.data.badges[|d.badges|] == Earned(found.value, now)
    ensures user && found.Some? && id !in Ids(d.badges) && db.Err? ==> u.toasts == []
    ensures user && found.Some? && id !in Ids(d.badges) && db.Ok? ==>
      u.toasts == [BadgeEarned(found.value.name)] +
        (if found.value.unlocksEra.Some? then [ThemeUnlocked(found.value.unlocksEra.value)] else [])
    ensures user && found.Some? ==> id in Ids(u.data.badges)
    ensures UniqueIds(d.badges) ==> UniqueIds(u.data.badges)
    ensures u.toasts != [] ==> db.Ok? && u.wrote
  {
    if !user then XpUpdate(d, false, [])
    else match found
      case None => XpUpdate(d, false, [])
      case Some(def) =>
        if id in Ids(d.badges) then XpUpdate(d, false, [])
        else
          var badges := d.badges + [Earned(def, now)];
          assert Ids(badges) == Ids(d.badges) + [id];
          var data := d.(badges := badges);
          match db
          case Err => XpUpdate(data, true, [])
          case Ok(_) =>
            XpUpdate(data, true, [BadgeEarned(def.name)] +
              (if def.unlocksEra.Some? then [ThemeUnlocked(def.unlocksEra.value)] else []))
  }

  function BadgeIds(): (r: seq<string>)
    ensures |r| == |BadgeDefinitions|
  {
    seq(|BadgeDefinitions|, i requires 0 <= i < |BadgeDefinitions| => BadgeDefinitions[i].id)
  }

  /** Awarding the same badge twice changes nothing the second time. */
  lemma AwardBadgeIdempotent(user: bool, d: XpData, id: string, t1: string, t2: string, db1: Outcome<()>, db2: Outcome<()>)
    ensures var d1 := AwardBadge(user, d, id, t1, db1).data;
      AwardBadge(user, d1, id, t2, db2) == XpUpdate(d1, false, [])
  {
    var d1 := AwardBadge(user, d, id, t1, db1).data;
    if user && FindDef(id).Some? && id !in Ids(d.badges) {
      assert Ids(d1.badges)[|d.badges|] == id;
    }
  }

  // ---------------------------------------------------------------------------
  // Badge eligibility

  /** One row of the completions query: the joined exercise's type and difficulty, when present. */
  datatype CompletionInfo = CompletionInfo(exerciseType: Option<string>, difficulty: Option<string>)

  function CountType(cs: seq<CompletionInfo>, t: string): (n: nat)
    ensures n <= |cs|
  {
    if |cs| == 0 then 0
    else (if cs[0].exerciseType == Some(t) then 1 else 0) + CountType(cs[1..], t)
  }

  function CountDifficulty(cs: seq<CompletionInfo>, d: string): (n: nat)
    ensures n <= |cs|
  {
    if |cs| == 0 then 0
    else (if cs[0].difficulty == Some(d) then 1 else 0) + CountDifficulty(cs[1..], d)
  }

  /** The badges `checkBadges` considers, one rule each. */
  datatype Rule = FirstBlood | CryptoRookie | ForensicsHunter | WebWarrior | TripleThreat | MasterHacker | PantheonElite

  /** The order in which `checkBadges` considers them. */
  const CheckOrder: seq<Rule> :=
    [FirstBlood, CryptoRookie, ForensicsHunter, WebWarrior, TripleThreat, MasterHacker, PantheonElite]

  function RuleBadge(rule: Rule): (id: string)
    ensures FindDef(id).Some?
    ensures id != "course_completer"
  {
    match rule
    case FirstBlood => assert BadgeDefinitions[0].id == "first_blood"; "first_blood"
    case CryptoRookie => assert BadgeDefinitions[1].id == "crypto_rookie"; "crypto_rookie"
    case ForensicsHunter => assert BadgeDefinitions[2].id == "forensics_hunter"; "forensics_hunter"
    case WebWarrior => assert BadgeDefinitions[3].id == "web_warrior"; "web_warrior"
    case TripleThreat => assert BadgeDefinitions[4].id == "triple_threat"; "triple_threat"
    case MasterHacker => assert BadgeDefinitions[6].id == "master_hacker"; "master_hacker"
    case PantheonElite => assert BadgeDefinitions[7].id == "pantheon_elite"; "pantheon_elite"
  }

  /**
   * When a rule awards its badge: a first completion; three completions of
   * one type; one of each type; ten advanced completions; or a stored level
   * of at least 25.
   */
  predicate Holds(rule: Rule, cs: seq<CompletionInfo>, level: int) {
    match rule
    case FirstBlood => |cs| >= 1
    case CryptoRookie => CountType(cs, "crypto") >= 3
    case ForensicsHunter => CountType(cs, "forensics") >= 3
    case WebWarrior => CountType(cs, "web") >= 3
    case TripleThreat => CountType(cs, "crypto") > 0 && CountType(cs, "forensics") > 0 && CountType(cs, "web") > 0
    case MasterHacker => CountDifficulty(cs, "advanced") >= 10
    case PantheonElite => level >= 25
  }

  /** The elements of `rules` that hold, in their order. */
  function Filter(rules: seq<Rule>, cs: seq<CompletionInfo>, level: int): (r: seq<Rule>)
    ensures forall rule :: rule in r <==> rule in rules && Holds(rule, cs, level)
    ensures |r| <= |rules|
  {
    if |rules| == 0 then []
    else (if Holds(rules[0], cs, level) then [rules[0]] else []) + Filter(rules[1..], cs, level)
  }

  /**
   * The badges `checkBadges` tries to award, in the order it tries them:
   * exactly those whose rule holds; Course Completer is never among them.
   */
  function EligibleIds(cs: seq<CompletionInfo>, level: int): (r: seq<string>)
    ensures forall rule :: RuleBadge(rule) in r <==> Holds(rule, cs, level)
    ensures "course_completer" !in r
    ensures forall id :: id in r ==> FindDef(id).Some?
  {
    var rules := Filter(CheckOrder, cs, level);
    var r := seq(|rules|, i requires 0 <= i < |rules| => RuleBadge(rules[i]));
    BadgesOfRules(rules, r);
    CheckOrderComplete();
    r
  }

  /** The badges of a list of rules name exactly those rules, and each is a defined badge other than Course Completer. */
  lemma BadgesOfRules(rules: seq<Rule>, r: seq<string>)
    requires |r| == |rules| && forall i :: 0 <= i < |r| ==> r[i] == RuleBadge(rules[i])
    ensures forall rule :: RuleBadge(rule) in r <==> rule in rules
    ensures "course_completer" !in r
    ensures forall id :: id in r ==> FindDef(id).Some?
  {
    forall rule | RuleBadge(rule) in r ensures rule in rules {
      var k :| 0 <= k < |r| && r[k] == RuleBadge(rule);
      RuleBadgeInjective(rules[k], rule);
    }
    forall rule | rule in rules ensures RuleBadge(rule) in r {
      var k :| 0 <= k < |rules| && rules[k] == rule;
      assert r[k] == RuleBadge(rule);
    }
  }

  lemma CheckOrderComplete()
    ensures forall rule :: rule in CheckOrder
  {
    forall rule ensures rule in CheckOrder {
      match rule
      case FirstBlood => assert CheckOrder[0] == rule;
      case CryptoRookie => assert CheckOrder[1] == rule;
      case ForensicsHunter => assert CheckOrder[2] == rule;
      case WebWarrior => assert CheckOrder[3] == rule;
      case TripleThreat => assert CheckOrder[4] == rule;
      case MasterHacker => assert CheckOrder[5] == rule;
      case PantheonElite => assert CheckOrder[6] == rule;
    }
  }

  lemma RuleBadgeInjective(a: Rule, b: Rule)
    requires RuleBadge(a) == RuleBadge(b)
    ensures a == b
  {
  }

  /** The awards of `ids`, each applied to the state the previous one produced. */
  function AwardEach(d: XpData, ids: seq<string>, now: string): (r: XpData)
    ensures d.badges <= r.badges
    ensures r.totalXp == d.totalXp && r.level == d.level
    ensures forall id :: id in ids && FindDef(id).Some? ==> id in Ids(r.badges)
    ensures forall i :: |d.badges| <= i < |r.badges| ==>
      r.badges[i].id in ids && FindDef(r.badges[i].id).Some? && r.badges[i] == Earned(FindDef(r.badges[i].id).value, now)
    ensures UniqueIds(d.badges) ==> UniqueIds(r.badges)
    decreases |ids|
  {
    if |ids| == 0 then d
    else
      var d1 := AwardBadge(true, d, ids[0], now, Ok(())).data;
      FindDefIff(ids[0]);
      var r := AwardEach(d1, ids[1..], now);
      AwardEachStep(d, d1, r, ids, now);
      r
  }

  /** One award followed by the awards of the remaining ids has the properties of awarding them all. */
  lemma AwardEachStep(d: XpData, d1: XpData, r: XpData, ids: seq<string>, now: string)
    requires |ids| > 0
    requires d.badges <= d1.badges && d1.totalXp == d.totalXp && d1.level == d.level
    requires forall i :: |d.badges| <= i < |d1.badges| ==>
      d1.badges[i].id == ids[0] && FindDef(ids[0]).Some? && d1.badges[i] == Earned(FindDef(ids[0]).value, now)
    requires FindDef(ids[0]).Some? ==> ids[0] in Ids(d1.badges)
    requires UniqueIds(d.badges) ==> UniqueIds(d1.badges)
    requires d1.badges <= r.badges
    requires r.totalXp == d1.totalXp && r.level == d1.level
    requires forall id :: id in ids[1..] && FindDef(id).Some? ==> id in Ids(r.badges)
    requires forall i :: |d1.badges| <= i < |r.badges| ==>
      r.badges[i].id in ids[1..] && FindDef(r.badges[i].id).Some? && r.badges[i] == Earned(FindDef(r.badges[i].id).value, now)
    requires UniqueIds(d1.badges) ==> UniqueIds(r.badges)
    ensures d.badges <= r.badges
    ensures r.totalXp == d.totalXp && r.level == d.level
    ensures forall id :: id in ids && FindDef(id).Some? ==> id in Ids(r.badges)
    ensures forall i :: |d.badges| <= i < |r.badges| ==>
      r.badges[i].id in ids && FindDef(r.badges[i].id).Some? && r.badges[i] == Earned(FindDef(r.badges[i].id).value, now)
    ensures UniqueIds(d.badges) ==> UniqueIds(r.badges)
  {
    assert forall id :: id in Ids(d1.badges) ==> id in Ids(r.badges) by {
      forall id | id in Ids(d1.badges) ensures id in Ids(r.badges) {
        var k :| 0 <= k < |d1.badges| && Ids(d1.badges)[k] == id;
        assert r.badges[k] == d1.badges[k];
      }
    }
    forall id | id in ids && FindDef(id).Some? ensures id in Ids(r.badges) {
      if id != ids[0] {
        assert id in ids[1..];
      }
    }
    forall i | |d.badges| <= i < |r.badges| ensures
      r.badges[i].id in ids && FindDef(r.badges[i].id).Some? && r.badges[i] == Earned(FindDef(r.badges[i].id).value, now)
    {
      if i < |d1.badges| {
        assert r.badges[i] == d1.badges[i];
      } else {
        assert r.badges[i].id in ids[1..];
      }
    }
  }

  /** Awarding badges that are all held already changes nothing. */
  lemma {:induction false} AwardEachHeld(d: XpData, ids: seq<string>, now: string)
    requires forall id :: id in ids ==> id in Ids(d.badges)
    ensures AwardEach(d, ids, now) == d
    decreases |ids|
  {
    if |ids| > 0 {
      assert ids[0] in ids;
      assert AwardBadge(true, d, ids[0], now, Ok(())).data == d;
      assert forall id :: id in ids[1..] ==> id in ids;
      AwardEachHeld(d, ids[1..], now);
    }
  }

  /** The lookup finds exactly the ids of the badge table. */
  lemma FindDefIff(id: string)
    ensures FindDef(id).Some? <==> id in BadgeIds()
  {
    if FindDef(id).Some? {
      var def := FindDef(id).value;
      var k :| 0 <= k < |BadgeDefinitions| && BadgeDefinitions[k] == def;
      assert BadgeIds()[k] == id;
    }
    if id in BadgeIds() {
      var k :| 0 <= k < |BadgeIds()| && BadgeIds()[k] == id;
      assert BadgeDefinitions[k] in BadgeDefinitions;
    }
  }

  /**
   * `checkBadges`, with each award applied to the state the previous award
   * produced: without a user or without completions nothing changes;
   * otherwise every eligible badge is held afterwards, only eligible badges
   * are added, each as its definition stamped with `now`, none held before
   * is lost, the totals stay, and no badge is held twice.
   */
  function CheckBadges(user: bool, d: XpData, completions: Option<seq<CompletionInfo>>, now: string): (r: XpData)
    ensures !user || completions.None? ==> r == d
    ensures d.badges <= r.badges
    ensures r.totalXp == d.totalXp && r.level == d.level
    ensures user && completions.Some? ==>
      forall id :: id in EligibleIds(completions.value, d.level) ==> id in Ids(r.badges)
    ensures user && completions.Some? ==> forall i :: |d.badges| <= i < |r.badges| ==>
      r.badges[i].id in EligibleIds(completions.value, d.level) && r.badges[i] == Earned(FindDef(r.badges[i].id).value, now)
    ensures UniqueIds(d.badges) ==> UniqueIds(r.badges)
  {
    if !user || completions.None? then d
    else
      AwardEach(d, EligibleIds(completions.value, d.level), now)
  }

  /** A second check over the same completions awards nothing more. */
  lemma CheckBadgesIdempotent(d: XpData, cs: seq<CompletionInfo>, now: string, later: string)
    ensures var r := CheckBadges(true, d, Some(cs), now);
      CheckBadges(true, r, Some(cs), later) == r
  {
    var r := CheckBadges(true, d, Some(cs), now);
    AwardEachHeld(r, EligibleIds(cs, r.level), later);
  }

  /**
   * `checkBadges` as the hook is written: every `awardBadge` call reads the
   * same `xpData.badges` captured when the callback was created, and each
   * call replaces the badge list with that snapshot plus its own badge. So
   * at most one new badge remains after a check, however many qualified.
   */
  function CheckBadgesAsWritten(user: bool, d: XpData, completions: Option<seq<CompletionInfo>>, now: string): (r: XpData)
    ensures r.badges == d.badges || (|r.badges| == |d.badges| + 1 && r.badges[..|d.badges|] == d.badges)
  {
    if !user || completions.None? then d
    else LastAwardFromSnapshot(d, d, EligibleIds(completions.value, d.level), now)
  }

  function LastAwardFromSnapshot(snapshot: XpData, current: XpData, ids: seq<string>, now: string): (r: XpData)
    requires current.badges == snapshot.badges ||
      (|current.badges| == |snapshot.badges| + 1 && current.badges[..|snapshot.badges|] == snapshot.badges)
    ensures r.badges == snapshot.badges ||
      (|r.badges| == |snapshot.badges| + 1 && r.badges[..|snapshot.badges|] == snapshot.badges)
    decreases |ids|
  {
    if |ids| == 0 then current
    else
      var u := AwardBadge(true, snapshot, ids[0], now, Ok(()));
      LastAwardFromSnapshot(snapshot, if u.wrote then current.(badges := u.data.badges) else current, ids[1..], now)
  }

  /**
   * A first check that qualifies for two badges at once (no badge held yet,
   * three crypto completions): as written, First Blood and Crypto Rookie
   * are not both held afterwards; the corrected check holds both.
   */
  lemma CheckBadgesLosesEarlierAward(d: XpData, cs: seq<CompletionInfo>, now: string)
    requires d.badges == []
    requires CountType(cs, "crypto") >= 3
    ensures var asWritten := Ids(CheckBadgesAsWritten(true, d, Some(cs), now).badges);
      !("first_blood" in asWritten && "crypto_rookie" in asWritten)
    ensures var corrected := Ids(CheckBadges(true, d, Some(cs), now).badges);
      "first_blood" in corrected && "crypto_rookie" in corrected
  {
    assert Holds(FirstBlood, cs, d.level) && Holds(CryptoRookie, cs, d.level);
    var asWritten := CheckBadgesAsWritten(true, d, Some(cs), now);
    NotBothInOne(asWritten.badges);
  }

  lemma NotBothInOne(bs: seq<Badge>)
    requires |bs| <= 1
    ensures !("first_blood" in Ids(bs) && "crypto_rookie" in Ids(bs))
  {
    if |bs| == 1 {
      assert Ids(bs) == [bs[0].id];
    }
  }
}
